=== FILE: README.md ===
# RAG chat backend: a functional model in Dafny

This project models the rule-bearing core of a FastAPI service for chatting
with a project's PDF documents through a LangChain/LangGraph agent. Users own
projects. Projects hold uploaded PDF files, which are stored as embedded text
chunks, and conversations. A chat request is resolved to a project and a
conversation. A four-node retrieval agent answers it, and the reply is streamed
back as server-sent events.

The model is functional throughout:

- Database tables are sequences of rows in insertion order. Each carries its
  next auto-increment key. `scalar()` is the first matching row in table order.
- The language model, the grading model, the embedder, the password hash, the PDF
  converter, the text splitter, the similarity score and the percentage
  rendering are function parameters (oracles).
- Clock readings are integer parameters.
- Errors the code raises become `Failure` values. An `HTTPException` is
  `HttpError(status, detail)`.

Modules follow the program's files:

| module | models |
|---|---|
| `Wrappers` | `Option`, `Result`, `HttpError` |
| `Text` | Python `str.strip` (the `isspace` set), ASCII `lower`, `in` on strings, `join`, decimal rendering of integers |
| `Listing` | descending sort by a key, `OFFSET`/`LIMIT` windows, filtering, first match, distinctness by a key |
| `Json` | `json.dumps` of the stream's dicts (default separators, escapes, `ensure_ascii=False`) |
| `Models` | `backend/app/models.py`: entities, unique and foreign keys, defaults, cascades, the 1024-wide embedding column |
| `Utils` | `normalize_text` of `backend/app/utils.py` |
| `ConversationService` | `backend/app/services/conversation_service.py` |
| `LlmFactory` | `backend/app/services/llm/llm_factory.py` |
| `FileContentService` | `backend/app/services/file_content_service.py` |
| `PdfProcessing` | `backend/app/services/pdf_processing_service.py` |
| `RagHybrid` | `backend/app/agents/rag_hybrid.py`: the graph, its nodes, the question scan and the prompts |
| `ChatStream` | the `event_generator` of `backend/app/routers/chat.py` and the SSE wire format |
| `ChatRouter` | the other handlers of `backend/app/routers/chat.py` |
| `ProjectsApi` | `backend/app/routers/projects.py` |
| `UsersApi` | `backend/app/routers/users.py` |
| `WebUsers` | `app/routers/web/users.py` |

Points where the code behaves in a way a reader might not expect, all modelled as the code has them:

- A chat request without a conversation id creates and commits a new
  conversation before the provider is looked up. An unknown provider (400)
  therefore leaves that conversation behind.
- `get_model` never checks the model name against the provider's model list.
  The router asks for the grading model `('ollama', 'llama3.1')`, which Ollama does not
  list, and still gets a model.
- The stream has no cancellation or idle-timeout handling.
- The 404 detail of the chat endpoint's project check is the byte sequence
  `'Projeto nÃ£o encontrado'` as it stands in the file. It is kept literally.
- `create_conversation`'s parameter default is `'Novo chat'`. Its docstring
  says `'New Conversation'`.

## Model

| member | source | states |
|---|---|---|
| Text.Strip | backend/app/utils.py:9 | the result has no leading or trailing whitespace; it is empty iff the input is all whitespace; otherwise it is the input between its leading and trailing whitespace runs |
| Text.StripIdempotent | backend/app/services/conversation_service.py:149 | stripping a stripped string changes nothing |
| Text.ParseNatToString | backend/app/services/conversation_service.py:137 | reading back the decimal rendering of a natural number gives the number |
| Text.IntToStringInjective | backend/app/services/conversation_service.py:137 | two integers with the same decimal rendering are equal |
| Json.UnescapeEscape | backend/app/routers/chat.py:401 | a JSON string literal's escaping is undone exactly by unescaping |
| Json.SerializePrintable | backend/app/routers/chat.py:401 | the JSON text of any value contains no raw newline, so it fits on one `data:` line |
| Utils.NormalizeText | backend/app/utils.py:9 | the result contains no newline, has no surrounding whitespace, and is empty iff the input is all whitespace |
| Utils.NormalizePadded | backend/tests/test_utils.py:6-21 | inside whitespace padding, a trimmed text comes back with each newline turned into exactly one space and every other character kept in place |
| Utils.NormalizeIdempotent | backend/app/utils.py:9 | normalising twice is normalising once |
| Utils.NormalizeBlank | backend/tests/test_utils.py:24-32 | `""` and `"\n\n\n"` both normalise to `""` |
| Models.EmptyDbValid | backend/app/models.py:20-73 | the empty database satisfies every key, uniqueness, foreign-key and embedding-width constraint |
| Models.FindUser | backend/app/routers/users.py:126 | `session.get(User, id)`: none iff no user has the key; otherwise a stored user with that key |
| Models.FindUserUnique | backend/app/models.py:20 | with unique keys, looking up a stored user's key returns that user |
| Models.InsertUser | backend/app/models.py:20-24 | fails iff the username or email is taken; otherwise appends one user with a fresh key, the given fields and `is_admin` defaulting to false, keeping every constraint |
| Models.InsertProject | backend/app/models.py:43-48 | fails iff the owner does not exist; otherwise appends one project with a fresh key, description and prompt defaulting to `''` |
| Models.InsertFiles | backend/app/models.py:67-73 | all or nothing: fails iff some record names a missing project or has an embedding whose length is not 1024; otherwise appends exactly those records with consecutive fresh keys |
| Models.InsertFilesDefaultMetadata | backend/app/models.py:71-73 | a record given no metadata is stored with an empty `file_metadata` object, as `default_factory=dict` promises, under the next key |
| Models.UpdateUser | backend/app/models.py:21-23 | fails iff another user holds the new username or email; otherwise only the row with that key is replaced |
| Models.UpdateProject | backend/app/routers/projects.py:70-75 | only the project with that key gets the new title, description and prompt; keys and owners stay |
| Models.DeleteProject | backend/app/models.py:55-60 | the project goes and, by cascade, exactly its file contents; users stay |
| Models.DeleteUser | backend/app/models.py:31-36 | the user goes, with exactly their projects and those projects' file contents; every constraint still holds |
| ConversationService.GenerateTitle | backend/app/services/conversation_service.py:149-152 | at most 50 characters, never empty, trimmed; the stripped message itself when 1 to 50 characters; its first 47 characters plus `...` when longer; `New Conversation` for a blank message |
| ConversationService.GenerateTitleIdempotent | backend/app/services/conversation_service.py:149-152 | a generated title is its own title |
| ConversationService.ThreadId | backend/app/services/conversation_service.py:137 | `conversation_` followed by the decimal id |
| ConversationService.ThreadIdInjective | backend/app/services/conversation_service.py:137 | two ids share a thread id iff they are equal |
| ConversationService.Create | backend/app/services/conversation_service.py:16-35 | one new row with a key not in use, the project, the title (default `Novo chat`) and the clock; `Get` then finds it |
| ConversationService.Get | backend/app/services/conversation_service.py:51-53 | none iff no row has the key; otherwise a stored row with that key |
| ConversationService.GetFinds | backend/app/services/conversation_service.py:51-53 | with unique keys, the row at any position is what `Get` of its key returns |
| ConversationService.List | backend/app/services/conversation_service.py:73-80 | rejected iff limit or offset is negative; otherwise only the project's rows, newest first, exactly the `OFFSET`/`LIMIT` window of a newest-first ordering of all of them |
| ConversationService.ListAll | backend/app/services/conversation_service.py:73-80 | a window covering the project returns each of its conversations exactly once |
| ConversationService.UpdateTitle | backend/app/services/conversation_service.py:98-106 | a missing key gives none and no change; otherwise that row gets the title and the new `updated_at`, and every other row and every key and project stay |
| ConversationService.Delete | backend/app/services/conversation_service.py:122-125 | answers true iff the key existed; afterwards the key is absent and all other rows remain |
| LlmFactory.Default | backend/app/services/llm/llm_factory.py:19-23 | the registry holds exactly `ollama` and `serpro`, in that order |
| LlmFactory.GetProvider | backend/app/services/llm/llm_factory.py:35 | finds a provider iff the lower-cased name is registered |
| LlmFactory.AnyCasingFinds | backend/app/services/llm/llm_factory.py:35 | any casing of a registered name finds the provider stored under it |
| LlmFactory.GetModel | backend/app/services/llm/llm_factory.py:50-53 | none iff the provider is unknown; otherwise the provider's model for exactly the requested name |
| LlmFactory.ModelNameNotChecked | backend/app/services/llm/llm_factory.py:50-53 | `llama3.1` is not in Ollama's list, yet `get_model('ollama', 'llama3.1')` returns a model |
| LlmFactory.ListProviders | backend/app/services/llm/llm_factory.py:61 | one name per entry, the i-th being the i-th registered name; each listed name finds the provider at its position |
| LlmFactory.ListModels | backend/app/services/llm/llm_factory.py:72-75 | the provider's model list, or `[]` for an unknown provider |
| LlmFactory.AddProvider | backend/app/services/llm/llm_factory.py:84 | a new name is appended; a known name keeps its position; every other entry is unchanged |
| LlmFactory.AddThenGet | backend/app/services/llm/llm_factory.py:84 | after adding, every casing of the name finds the new provider and every other name finds what it found before |
| FileContentService.BulkCreate | backend/app/services/file_content_service.py:47-53 | an empty list changes nothing and returns 0; otherwise exactly the given records are inserted and their count is returned |
| FileContentService.BulkCreateCounts | backend/app/services/file_content_service.py:50-53 | the count returned is the number of rows that appeared |
| FileContentService.FormatResult | backend/app/services/file_content_service.py:100-107 | id and content copied, the file metadata under `metadata`, the score attached |
| FileContentService.Ranked | backend/app/services/file_content_service.py:75-91 | the query's rows: exactly `min(limit, candidates)` of the project's candidates, taken from them without repetition, by descending score, and no candidate left out scores above a row taken |
| FileContentService.SearchSimilar | backend/app/services/file_content_service.py:65-97 | a blank query is rejected before anything else; otherwise exactly `min(limit, candidates)` hits (default limit 2), hit i being the i-th ranked row with its score, all from the project, at or above the threshold when one is given, by descending similarity, and no candidate left out scores above a returned hit |
| FileContentService.Block | backend/app/services/file_content_service.py:115-122 | a block opens with `[Documento n]` and the file name line and ends with the similarity percentage line, `Conteúdo:` and the hit's content, then a newline; its length is exactly the two parts |
| FileContentService.FormatForLlm | backend/app/services/file_content_service.py:112-125 | `Nenhum conteúdo relevante encontrado.` for no hits; one hit gives exactly its block; more hits open with the first block and contain the block of every hit i numbered i + 1 |
| FileContentService.FormatForLlmLabelled | backend/app/services/file_content_service.py:115-125 | text for one or more hits opens with `[Documento 1]` and is never the nothing-found text |
| FileContentService.FormatForLlmSnoc | backend/app/services/file_content_service.py:115-125 | one more hit appends a separator and its block, numbered after the others, leaving the earlier text untouched |
| FileContentService.FormatForLlmShowsContent | backend/app/services/file_content_service.py:112-125 | the model's text contains the content of every hit |
| FileContentService.MissingFileName | backend/app/services/file_content_service.py:117-120 | a hit without a filename is shown as `Arquivo: unknown` |
| PdfProcessing.CreateDocument | backend/app/services/pdf_processing_service.py:26-31 | the document's text is the input and its metadata is exactly `source` set to the given source |
| PdfProcessing.ChunkRecord | backend/app/services/pdf_processing_service.py:105-112 | a record carries the project, the stripped chunk text, the embedding, and the chunk's source (or `unknown`) as filename |
| PdfProcessing.Zipped | backend/app/services/pdf_processing_service.py:101-113 | one record per chunk and embedding pair, in chunk order, stopping at the shorter list |
| PdfProcessing.OneByOne | backend/app/services/pdf_processing_service.py:115-141 | no more records than chunks, each built from one of the chunks for the given project |
| PdfProcessing.OneByOneAppend | backend/app/services/pdf_processing_service.py:115-141 | the fallback keeps chunk order: two runs of chunks give their records one after the other |
| PdfProcessing.OneByOneOne | backend/app/services/pdf_processing_service.py:115-141 | on one chunk the fallback gives its record, with the embedding the call returned, when the call succeeds, and nothing when it fails |
| PdfProcessing.OneByOneSkipsFailed | backend/app/services/pdf_processing_service.py:115-141 | a chunk whose call fails is skipped: the records are those of the chunks before it followed by those of the chunks after it |
| PdfProcessing.OneByOneTotal | backend/app/services/pdf_processing_service.py:115-141 | when every per-chunk call succeeds nothing is skipped and record i is built from chunk i and its embedding |
| PdfProcessing.PrepareChunks | backend/app/services/pdf_processing_service.py:91-143 | the normalised chunk texts are embedded in one batch; success gives the zipped records, failure the per-chunk fallback; either way no more records than chunks, each built from one of them |
| PdfProcessing.ProcessPdfFile | backend/app/services/pdf_processing_service.py:69-79 | Markdown, then one document whose source is the file name, then chunks, then records; when the splitter carries the source into every chunk, every record is tagged with that file name and the project |
| RagHybrid.LastQuestion | backend/app/agents/rag_hybrid.py:137-143 | none iff no message is a human message or a user dict; otherwise the text of one such message |
| RagHybrid.LastHumanQuestion | backend/app/agents/rag_hybrid.py:137-145 | the last question's text; with none, the first message's content, or `''` for no messages; a dict first message raises |
| RagHybrid.QuestionAppended | backend/app/agents/rag_hybrid.py:139-141 | the scan finds a human message appended last |
| RagHybrid.NonQuestionsAppended | backend/app/agents/rag_hybrid.py:139-143 | appending messages that are not questions does not change the last question |
| RagHybrid.PrependNonQuestion | backend/app/agents/rag_hybrid.py:139-143 | putting a non-question in front does not change the last question |
| RagHybrid.PrepareMessages | backend/app/agents/rag_hybrid.py:153-156 | the system prompt is prepended iff the list is empty or does not open with a system message; otherwise the list is unchanged; a dict first message raises |
| RagHybrid.PrepareKeepsConversation | backend/app/agents/rag_hybrid.py:153-156 | the prepared list opens with a system message, ends with the whole conversation, and has the same last question |
| RagHybrid.Successors | backend/app/agents/rag_hybrid.py:212-229 | the edge relation, each node's predecessors stated both ways: START to the query node; the query node to retrieve or END; retrieve to answer or rewrite; answer to END; rewrite back to the query node |
| RagHybrid.Route | backend/app/agents/rag_hybrid.py:177-181 | `generate_answer` iff the lower-cased score is `yes`, `rewrite_question` otherwise; always a successor of retrieve |
| RagHybrid.RouteIgnoresCase | backend/app/agents/rag_hybrid.py:179 | the route does not depend on the score's case |
| RagHybrid.GraderOf | backend/app/agents/rag_hybrid.py:135 | the grading model is the supplied one, or the main model when none is supplied |
| RagHybrid.SearchTool | backend/app/agents/rag_hybrid.py:41-51 | the search over the context's project, ranked by the similarity to this query, formatted for the model; a search failure is the tool's failure |
| RagHybrid.SearchToolNothingFound | backend/app/agents/rag_hybrid.py:41-51 | a project without chunks gives the nothing-found text |
| RagHybrid.GradeDocuments | backend/app/agents/rag_hybrid.py:161-181 | the grading model sees the last question and the last message's content; the answer node iff its score is `yes` in any case |
| RagHybrid.StepQuery | backend/app/agents/rag_hybrid.py:148-159 | the model's reply to the prepared list is appended; retrieve iff the reply carries at least one tool call, END otherwise; earlier messages are kept |
| RagHybrid.ToolResults | backend/app/agents/rag_hybrid.py:208 | the tool node runs every call: success iff every call succeeds, then one result per call, in call order |
| RagHybrid.StepRetrieve | backend/app/agents/rag_hybrid.py:41-51 | without tool calls on the last message the node fails; a failing call fails it; otherwise one tool message per call is appended and the grade of the extended list picks the next node |
| RagHybrid.RetrieveAppendsResults | backend/app/agents/rag_hybrid.py:41-51 | after `retrieve` the list grows by one tool message per call holding that call's search text, in call order; the grade reads the last call's text and the question asked before the calls |
| RagHybrid.StepRewrite | backend/app/agents/rag_hybrid.py:183-191 | exactly one human message, the model's rewording of the last question, is appended; next is the query node |
| RagHybrid.StepAnswer | backend/app/agents/rag_hybrid.py:193-202 | the model's answer from the last question and the last content is appended; next is END |
| RagHybrid.Step | backend/app/agents/rag_hybrid.py:205-229 | every step follows an edge of the graph and only adds messages |
| RagHybrid.RewriteBecomesQuestion | backend/app/agents/rag_hybrid.py:188-191 | after a rewrite, the scan finds the rewritten text |
| RagHybrid.Run | backend/app/agents/rag_hybrid.py:205-231 | a finished run is a path of the graph from its start node to END, and the conversation is only extended; exhausting the recursion limit raises |
| RagHybrid.AnswerFollowsRetrieval | backend/app/agents/rag_hybrid.py:212-229 | in every finished run the answer node comes right after retrieve, which comes right after the query node |
| ChatStream.CallFrames | backend/app/routers/chat.py:389-401 | exactly the present, non-empty call ids not sent before are emitted, each once, with the call's name and arguments (`{}` when absent) |
| ChatStream.Step | backend/app/routers/chat.py:382-418 | hidden nodes and empty text yield nothing; tool calls yield only call frames; otherwise a tool message yields one result frame; otherwise text yields one token frame |
| ChatStream.Run | backend/app/routers/chat.py:367-418 | the frames of a run of messages hold no terminal frame and no call id twice |
| ChatStream.RunAppend | backend/app/routers/chat.py:367-418 | upstream order is kept: the frames for `a + b` are those for `a` followed by those for `b` |
| ChatStream.HiddenNodesYieldNothing | backend/app/routers/chat.py:360-386 | removing every message of a node outside the three visible ones changes no frame |
| ChatStream.Stream | backend/app/routers/chat.py:354-434 | exactly one terminal frame, last: `done` with the conversation id iff no fault, otherwise `error` with the exception text; no call id twice |
| ChatStream.FaultKeepsSentFrames | backend/app/routers/chat.py:427-434 | frames sent before a fault stay: they are a prefix of the fault-free stream's frames |
| ChatStream.FrameJsonRoundTrip | backend/app/routers/chat.py:395-432 | each frame's dict reads back as the same frame |
| ChatStream.StreamTextFramed | backend/app/routers/chat.py:401-434 | the stream is `data: ` plus the JSON text plus a blank line, per frame |
| ChatStream.ParseStreamText | backend/app/routers/chat.py:401-434 | an SSE reader recovers every frame's JSON text, in order, from the concatenated stream |
| ChatRouter.Resolve | backend/app/routers/chat.py:289-346 | 404 for a project the caller does not own; for a truthy id, 404 when missing and 403 for another project's conversation, otherwise that stored conversation is the one used; a falsy id appends one conversation titled from the query and uses it; an unknown provider then gives 400; success yields the thread id, the model and the `llama3.1` grading model |
| ChatRouter.UnknownProviderKeepsConversation | backend/app/routers/chat.py:315-337 | with no conversation id and an unknown provider, the answer is 400 and the new conversation is still stored |
| ChatRouter.ChatResponse | backend/app/routers/chat.py:289-434 | a resolution error is the response; otherwise exactly the agent's stream for the resolved conversation, so every `ChatStream.Stream` property holds of it: ending in `done` with that conversation's id or in `error` |
| ChatRouter.Group | backend/app/routers/chat.py:168-171 | the chunks whose filename (or `unknown`) is the name |
| ChatRouter.Names | backend/app/routers/chat.py:168-177 | each filename once, and exactly the filenames some chunk carries |
| ChatRouter.Earliest | backend/app/routers/chat.py:179 | the smallest creation time in the group |
| ChatRouter.GroupsCoverChunks | backend/app/routers/chat.py:177-187 | the group sizes add up to the number of chunks |
| ChatRouter.Summaries | backend/app/routers/chat.py:177-185 | one summary per distinct filename, no filename twice |
| ChatRouter.SummaryFacts | backend/app/routers/chat.py:179-185 | a summary counts the chunks of its file and carries the earliest creation time among them |
| ChatRouter.NameCount | backend/app/routers/chat.py:168-177 | as many groups as distinct filenames |
| ChatRouter.FileListing | backend/app/routers/chat.py:160-196 | `total_chunks` is the number of chunks; `total_files` is the number of entries and of distinct filenames; entries are a permutation of the summaries, newest first, no filename twice |
| ChatRouter.FileListingEntries | backend/app/routers/chat.py:177-190 | every entry counts its file's chunks and carries their earliest creation time |
| ChatRouter.FileListingNames | backend/app/routers/chat.py:167-196 | a filename has an entry iff some chunk carries it |
| ChatRouter.EntryForCarried | backend/app/routers/chat.py:167-196 | a filename some chunk carries has an entry |
| ChatRouter.CarriedForEntry | backend/app/routers/chat.py:167-196 | an entry's filename is carried by some chunk |
| ChatRouter.ProjectFiles | backend/app/routers/chat.py:153-158 | exactly the project's chunks |
| ChatRouter.GetFiles | backend/app/routers/chat.py:142-196 | 404 iff the caller does not own the project; otherwise exactly the listing of the project's chunks, so `total_files` is the number of entries and every `FileListing` property holds |
| ChatRouter.GetFilesNames | backend/app/routers/chat.py:167-196 | the endpoint lists a filename iff some chunk of the project carries it |
| ChatRouter.FilterSplit | backend/app/routers/chat.py:239-242 | the rows a predicate keeps and the rows its negation keeps add up to all rows |
| ChatRouter.RemoveFile | backend/app/routers/chat.py:239-251 | removes exactly the project's chunks whose metadata filename equals the name, and returns how many |
| ChatRouter.DeleteFile | backend/app/routers/chat.py:217-256 | 404 for an unowned project, 404 `File not found` when no chunk matches; otherwise the message naming the file and the positive count removed |
| ChatRouter.ListConversations | backend/app/routers/chat.py:461-481 | 404 for an unowned project; otherwise the service's page and the project's total |
| ChatRouter.CreateConversation | backend/app/routers/chat.py:495-510 | 404 for an unowned project; otherwise a new conversation titled `title or 'New Conversation'` |
| ChatRouter.Authorize | backend/app/routers/chat.py:523-538 | 404 for a missing conversation, 403 `Not authorized` when its project is not the caller's, otherwise the conversation |
| ChatRouter.UpdateConversation | backend/app/routers/chat.py:523-544 | the authorisation error and no change, or the retitled conversation |
| ChatRouter.DeleteConversation | backend/app/routers/chat.py:553-575 | the authorisation error and no change, or the conversation is gone and its thread id is the one whose checkpoints are cleared |
| ChatRouter.NormalizeRole | backend/app/routers/chat.py:595-618 | the `type`, or else the lower-cased class name; empty gives `unknown`; then `user`, `assistant`, `system`, `tool` by the first matching substring test, else `unknown` |
| ChatRouter.NormalizeRoleChatTypes | backend/app/routers/chat.py:609-612 | human messages are `user`, AI messages `assistant` |
| ChatRouter.NormalizeRoleSystemType | backend/app/routers/chat.py:609-614 | example only: a system message is neither user nor assistant and maps to `system` (the all-inputs ladder is `NormalizeRole`'s contract) |
| ChatRouter.NormalizeRoleToolType | backend/app/routers/chat.py:609-616 | example only: a tool message passes the first three tests and maps to `tool` |
| ChatRouter.NormalizeRoleEmptyType | backend/app/routers/chat.py:606-607 | an empty type is `unknown` |
| ChatRouter.HistoryEntries | backend/app/routers/chat.py:675-685 | every message with non-empty content is kept with its role, and only those |
| ChatRouter.HistoryEntriesOne | backend/app/routers/chat.py:675-685 | one message gives its entry, with the normalised role, when its content is present and non-empty, and nothing otherwise |
| ChatRouter.HistoryEntriesAppend | backend/app/routers/chat.py:675-685 | entries keep checkpoint order: those of `a + b` are those of `a` followed by those of `b` |
| ChatRouter.History | backend/app/routers/chat.py:634-690 | the authorisation error, or the conversation id with the entries of its checkpoint (none without one) |
| ProjectsApi.OwnedProject | backend/app/routers/projects.py:57-68 | found iff some project has that key and the caller as owner |
| ProjectsApi.Create | backend/app/routers/projects.py:25-35 | a new project owned by the caller with the payload's fields, appended |
| ProjectsApi.Read | backend/app/routers/projects.py:43-47 | exactly the caller's projects |
| ProjectsApi.CreateThenRead | backend/app/routers/projects.py:25-47 | a created project is listed for its owner and changes no one else's listing |
| ProjectsApi.Update | backend/app/routers/projects.py:57-77 | 404 and no change unless the caller owns it; otherwise title, description and prompt replaced, keys and owners unchanged, other projects untouched |
| ProjectsApi.Delete | backend/app/routers/projects.py:86-102 | 404 and no change unless the caller owns it; otherwise `Project deleted` and exactly that project and its chunks removed |
| ProjectsApi.OthersUntouched | backend/app/routers/projects.py:57-102 | neither update nor delete touches another owner's project |
| UsersApi.FirstClash | backend/app/routers/users.py:31-35 | none iff neither the username nor the email is taken; otherwise a stored user holding one of them |
| UsersApi.CreateAsWritten | backend/app/routers/users.py:31-62 | as written: fails iff the username or email is taken, with one of the two 409s and no change; otherwise the hashed user, with a fresh key, is appended and nothing else changes |
| UsersApi.CreateAsWrittenMisreports | backend/app/routers/users.py:37-47 | a concrete database where a taken username is reported as `Email already exists` |
| UsersApi.Create | backend/app/routers/users.py:31-62 | a taken username gives `Username already exists`; a free username with a taken email gives `Email already exists`; otherwise a new user with a fresh key and `hash(password)` is appended and nothing else changes |
| UsersApi.CreateAgreesOnSingleClash | backend/app/routers/users.py:37-47 | the as-written and corrected creates agree whenever the first clashing row holds the username or the username is free |
| UsersApi.Read | backend/app/routers/users.py:65-78 | 422 unless offset ≥ 0 and limit ≥ 1; otherwise `users[offset:offset+limit]`, of exactly `min(limit, max(0, total - offset))` rows, and the total the handler computes (which the response model then drops) |
| UsersApi.Update | backend/app/routers/users.py:93-110 | 403 and no change for another id; 409 and no change on a clash; otherwise the caller's row, at its position, becomes the returned user with the new fields and a new hash, every other row stays as it was, and projects and files are untouched |
| UsersApi.Delete | backend/app/routers/users.py:119-137 | 403 for a non-admin deleting someone else; 404 for a missing other user; otherwise exactly that user is removed with their data |
| WebUsers.List | app/routers/web/users.py:37-45 | 403 for a non-admin; otherwise the `offset`/`limit` window of users, of exactly `min(limit, max(0, total - offset))` rows |
| WebUsers.FirstMatch | app/routers/web/users.py:109-113 | the first row holding the username or email and not excluded; none iff there is none |
| WebUsers.RegisterAsWritten | app/routers/web/users.py:109-139 | as written: a clash creates nothing and reports `Username já existe` or `Email já existe`; otherwise one non-admin user with a fresh key and the hashed password is appended and nothing else changes |
| WebUsers.RegisterAsWrittenMisreports | app/routers/web/users.py:115-119 | a concrete database where a taken username is reported as `Email já existe` |
| WebUsers.Register | app/routers/web/users.py:109-139 | `Username já existe` whenever the username is taken, `Email já existe` only when it is free; otherwise one new user who is never an admin |
| WebUsers.RegisterTwice | app/routers/web/users.py:109-129 | registering a username again creates nothing and reports the username |
| WebUsers.NewPassword | app/routers/web/users.py:242-243 | a blank or whitespace password keeps the stored hash, any other is hashed |
| WebUsers.UpdateProfileAsWritten | app/routers/web/users.py:214-257 | as written: the clash check skips the caller's own row; on a clash nothing changes and the message is `Username já existe` or `Email já existe`; on success the result is exactly the corrected update's: the caller's row gets the new username, email and password rule |
| WebUsers.UpdateProfileAsWrittenMisreports | app/routers/web/users.py:222-226 | a concrete database where another user's username is reported as `Email já existe` |
| WebUsers.UpdateProfile | app/routers/web/users.py:214-246 | fails iff another user holds the username or email, with nothing changed: `Username já existe` when another user holds the username, `Email já existe` when only the email clashes; otherwise the caller's row, at its position, gets the new values and the password rule, every other row and all projects and files stay |
| WebUsers.ResubmitUnchanged | app/routers/web/users.py:214-243 | resubmitting one's own username and email with a blank password returns the caller unchanged |
| WebUsers.Delete | app/routers/web/users.py:267-296 | 403 for a non-admin, then 400 for oneself, then 404 for a missing user; otherwise exactly that user is removed and the caller remains |
| Listing.SortDesc | backend/app/routers/chat.py:190 | a permutation of the input, sorted by descending key |
| Listing.Page | backend/app/services/conversation_service.py:77-78 | the `OFFSET`/`LIMIT` window: its length and its elements |
| Listing.First | backend/app/routers/users.py:31-35 | `scalar()`: none iff nothing matches; otherwise the earliest matching row |

## Left out

- Network, database sessions and transactions, commits and rollbacks, and
  async. The best-effort checkpoint deletion after a conversation is deleted
  is not modelled. `DeleteConversation` returns the thread id whose
  checkpoints the handler then clears.
- The language model, `bind_tools`, `with_structured_output` and
  `tools_condition` are oracle functions of `RagHybrid.Llm`. A reply's tool
  calls are its list of search queries; it calls the tool when the list is
  not empty.
- LangGraph's `add_messages` turns dicts into message objects. The model keeps
  dicts as dicts, so a dict first message makes `PrepareMessages` and
  `LastHumanQuestion` fail the way attribute access on a dict does.
- `ToolNode` turns a tool exception into an error message. The model
  propagates the exception as a `Failure` of the run instead.
- LangGraph's recursion limit is the `fuel` of `RagHybrid.Run`. The limit's
  value (25 by default) is not fixed in the model.
- Embeddings, cosine distance, `round(…, 4)` and the `:.2%` rendering are
  floating point. Similarity is an opaque real score per row for a given
  query: the agent's tool takes it as a function of the query text, so
  every query has its own ranking. The percentage text is an opaque
  function.
- PDF conversion and text splitting are library code. They are parameters of
  `PdfProcessing.ProcessPdfFile`.
- Provider construction and the Serpro token fetch are left out. A provider
  is its name and its `get_available_models` list.
- JWT authentication and password hashing: the caller is an input, and the
  hash is an uninterpreted function. The 401 paths are not modelled.
- FastAPI validation of request bodies happens before any handler code. Only
  the `FilterPage` bounds are modelled, as 422.
- `ChatRequest`'s fields follow what backend/app/routers/chat.py reads
  (lines 292-332: `project_id`, `query`, `conversation_id`, `provider`,
  `model`). backend/app/schemas.py:74-80 is an older version with only
  `query` and `project_id`, and it lacks the conversation and provider
  schemas chat.py imports. Field defaults and validation of the request body
  are not modelled.
- URL decoding of the file name (`unquote`) in the file deletion endpoint is
  not modelled. The name arrives decoded.
- Timestamps of users and projects are left out. Conversation and chunk clock
  readings are integer parameters.
- File metadata is a map from strings to strings. Non-string metadata values,
  and message content that is a list rather than a string, are not modelled.
- `str.lower` is modelled for ASCII letters only. Python lower-cases all of
  Unicode.
- HTML templates, HTMX headers and redirects are presentation. The web
  handlers' results carry only the data and the error text.
- Negative `LIMIT`/`OFFSET` values reach the database unchecked in the
  conversation listing. The model rejects them as a database error, answered
  with 500.
- ChatRouter.FileListing: the entries are stated as a newest-first
  permutation of the per-file summaries. The order `list.sort` keeps among
  files with equal creation times is not stated.
- ConversationService.List: the order among conversations with equal
  `updated_at` is left to the database and is not stated.
- UsersApi.Read: returns what the handler returns, the page and the total
  count. `response_model=UserList` (backend/app/schemas.py:26-27) has only
  `users`, so FastAPI drops `total` before the response reaches the client;
  that filtering is not modelled.
- The `done` frame is serialised with `ensure_ascii` left on. It holds only
  ASCII, so its text is the same as the model's.

## Findings

| source | as written | input that shows it | evidently intended | confidence | as-written member | corrected member |
|---|---|---|---|---|---|---|
| backend/app/routers/users.py:31-47 | the first row holding the username or the email decides the 409 detail | users `ana`/`x@e` then `bob`/`y@e`; create `bob`/`x@e` gives `Email already exists` although the username is taken | `Username already exists` whenever the username is taken | not executed | UsersApi.CreateAsWrittenMisreports | UsersApi.Create |
| app/routers/web/users.py:109-129 | the first row holding the username or the email picks the form error | users `ana`/`x@e` then `bob`/`y@e`; register `bob`/`x@e` shows `Email já existe` | `Username já existe` whenever the username is taken | not executed | WebUsers.RegisterAsWrittenMisreports | WebUsers.Register |
| app/routers/web/users.py:214-235 | the first other row holding the username or the email picks the form error | users `ana`/`x@e`, `bob`/`y@e`, `cid`/`z@e`; `cid` changes to `bob`/`x@e` and sees `Email já existe` | `Username já existe` whenever another user holds the username | not executed | WebUsers.UpdateProfileAsWrittenMisreports | WebUsers.UpdateProfile |

=== FILE: chat_router.dfy ===
/** backend/app/routers/chat.py: the chat endpoint's request resolution,
    the file listing and file deletion of a project, the conversation
    endpoints and the history's role normalisation. The agent stream itself
    is `ChatStream`; the checkpointer is an input. */
module ChatRouter {
  import opened Wrappers
  import opened Text
  import opened Listing
  import opened Models
  import CS = ConversationService
  import LlmFactory
  import ProjectsApi
  import FileContentService
  import ChatStream

  // ---------------------------------------------------------------------
  // Request resolution of `chat_with_documents_stream`

  /** The fields of the chat request the handler reads. */
  datatype ChatRequest = ChatRequest(projectId: int, query: string, conversationId: Option<int>,
                                     provider: string, model: string)

  /** What the handler has in hand when the stream starts. */
  datatype Resolved = Resolved(conversation: CS.Conversation, threadId: string,
                               llm: LlmFactory.ModelHandle, grader: Option<LlmFactory.ModelHandle>)

  /** The detail as the source file spells it (a double-encoded "não"). */
  const ChatProjectNotFound: HttpError := HttpError(404, "Projeto nÃ£o encontrado")
  const ConversationNotFound: HttpError := HttpError(404, "Conversation not found")
  const WrongProject: HttpError := HttpError(403, "Conversation does not belong to this project")

  function ProviderNotFound(provider: string): HttpError {
    HttpError(400, "Provider \"" + provider + "\" not found")
  }

  /** `if request.conversation_id:` — `None` and `0` are both falsy. */
  predicate Resumes(req: ChatRequest) {
    req.conversationId.Some? && req.conversationId.value != 0
  }

  /** Steps 1 to 5 of the handler: the project must be the caller's; a
      given conversation must exist and belong to it; without one a new
      conversation, titled from the query, is created and committed; only
      then is the provider looked up. */
  function Resolve(db: Db, convs: CS.Store, me: int, req: ChatRequest, now: int, reg: LlmFactory.Registry)
    : (r: (CS.Store, Result<Resolved, HttpError>))
    requires CS.Valid(convs)
    ensures CS.Valid(r.0)
    ensures ProjectsApi.OwnedProject(db, me, req.projectId).None? ==> r == (convs, Failure(ChatProjectNotFound))
    ensures ProjectsApi.OwnedProject(db, me, req.projectId).Some? && Resumes(req) ==>
      && r.0 == convs
      && (CS.Get(convs, req.conversationId.value).None? ==> r.1 == Failure(ConversationNotFound))
      && ((CS.Get(convs, req.conversationId.value).Some? && CS.Get(convs, req.conversationId.value).value.projectId != req.projectId)
            ==> r.1 == Failure(WrongProject))
    ensures ProjectsApi.OwnedProject(db, me, req.projectId).Some? && !Resumes(req) ==>
      && |r.0.rows| == |convs.rows| + 1 && r.0.rows[..|convs.rows|] == convs.rows
      && r.0.rows[|convs.rows|].id !in CS.Ids(convs)
      && r.0.rows[|convs.rows|].projectId == req.projectId
      && r.0.rows[|convs.rows|].title == CS.GenerateTitle(req.query)
    ensures r.1.Success? <==>
      && ProjectsApi.OwnedProject(db, me, req.projectId).Some?
      && (Resumes(req) ==> CS.Get(convs, req.conversationId.value).Some? && CS.Get(convs, req.conversationId.value).value.projectId == req.projectId)
      && LlmFactory.GetModel(reg, req.provider, req.model).Some?
    ensures r.1.Failure? && ProjectsApi.OwnedProject(db, me, req.projectId).Some?
            && (Resumes(req) ==> CS.Get(convs, req.conversationId.value).Some? && CS.Get(convs, req.conversationId.value).value.projectId == req.projectId)
            ==> r.1 == Failure(ProviderNotFound(req.provider))
    ensures r.1.Success? ==>
      && r.1.value.conversation.projectId == req.projectId
      && r.1.value.conversation in r.0.rows
      && r.1.value.threadId == CS.ThreadId(r.1.value.conversation.id)
      && Some(r.1.value.llm) == LlmFactory.GetModel(reg, req.provider, req.model)
      && r.1.value.grader == LlmFactory.GetModel(reg, "ollama", "llama3.1")
    ensures r.1.Success? && Resumes(req) ==> r.1.value.conversation == CS.Get(convs, req.conversationId.value).value
    ensures r.1.Success? && !Resumes(req) ==>
      |r.0.rows| == |convs.rows| + 1 && r.1.value.conversation == r.0.rows[|convs.rows|]
  {
    if ProjectsApi.OwnedProject(db, me, req.projectId).None? then (convs, Failure(ChatProjectNotFound))
    else
      var (convs', conv) :=
        if Resumes(req) then
          match CS.Get(convs, req.conversationId.value)
          case None => (convs, Failure(ConversationNotFound))
          case Some(c) =>
            if c.projectId != req.projectId then (convs, Failure(WrongProject)) else (convs, Success(c))
        else
          var (st, c) := CS.Create(convs, req.projectId, now, CS.GenerateTitle(req.query));
          assert st.rows[..|convs.rows|] == convs.rows;
          (st, Success(c));
      match conv
      case Failure(e) => (convs', Failure(e))
      case Success(c) =>
        match LlmFactory.GetModel(reg, req.provider, req.model)
        case None => (convs', Failure(ProviderNotFound(req.provider)))
        case Some(llm) =>
          (convs', Success(Resolved(c, CS.ThreadId(c.id), llm, LlmFactory.GetModel(reg, "ollama", "llama3.1"))))
  }

  /** The conversation is committed before the provider is looked up: a
      first message naming an unknown provider gets 400 and still leaves a
      new conversation behind. */
  lemma UnknownProviderKeepsConversation(db: Db, convs: CS.Store, me: int, req: ChatRequest, now: int, reg: LlmFactory.Registry)
    requires CS.Valid(convs)
    requires ProjectsApi.OwnedProject(db, me, req.projectId).Some? && !Resumes(req)
    requires Lower(req.provider) !in LlmFactory.Keys(reg)
    ensures var (convs', res) := Resolve(db, convs, me, req, now, reg);
      && res == Failure(ProviderNotFound(req.provider))
      && |convs'.rows| == |convs.rows| + 1
      && CS.Get(convs', convs'.rows[|convs.rows|].id) == Some(convs'.rows[|convs.rows|])
  {
    var (convs', res) := Resolve(db, convs, me, req, now, reg);
    CS.GetFinds(convs', |convs.rows|);
  }

  /** What the client receives once resolution succeeded: the agent's
      messages (with the fault that cut them short, if any) turned into
      frames that end in `done` with the conversation's id, or in `error`. */
  function ChatResponse(db: Db, convs: CS.Store, me: int, req: ChatRequest, now: int, reg: LlmFactory.Registry,
                        msgs: seq<ChatStream.Msg>, fault: Option<ChatStream.Fault>)
    : (r: (CS.Store, Result<seq<ChatStream.Frame>, HttpError>))
    requires CS.Valid(convs)
    ensures r.0 == Resolve(db, convs, me, req, now, reg).0
    ensures r.1.Success? <==> Resolve(db, convs, me, req, now, reg).1.Success?
    ensures r.1.Failure? ==> r.1.error == Resolve(db, convs, me, req, now, reg).1.error
    ensures r.1.Success? ==>
      var fs := r.1.value;
      && |fs| >= 1 && fs[|fs| - 1].IsTerminal()
      && (fault.None? ==> fs[|fs| - 1] == ChatStream.DoneFrame(Resolve(db, convs, me, req, now, reg).1.value.conversation.id))
      && (fault.Some? ==> fs[|fs| - 1] == ChatStream.ErrorFrame(fault.value.message))
    ensures r.1.Success? ==>
      r.1.value == ChatStream.Stream(msgs, fault, Resolve(db, convs, me, req, now, reg).1.value.conversation.id)
  {
    var (convs', res) := Resolve(db, convs, me, req, now, reg);
    match res
    case Failure(e) => (convs', Failure(e))
    case Success(rs) => (convs', Success(ChatStream.Stream(msgs, fault, rs.conversation.id)))
  }

  // ---------------------------------------------------------------------
  // Files of a project (`get_files_from_project`)

  /** `file_metadata.get('filename', 'unknown')`. */
  function NameOf(f: FileContent): string {
    FileContentService.FileName(f.metadata)
  }

  /** The chunks `files_grouped[name]` collects, in table order. */
  function Group(s: seq<FileContent>, name: string): (g: seq<FileContent>)
    ensures forall f :: f in g <==> f in s && NameOf(f) == name
    ensures |g| <= |s|
    decreases |s|
  {
    if |s| == 0 then []
    else
      var init := s[..|s| - 1];
      assert s == init + [s[|s| - 1]];
      Group(init, name) + (if NameOf(s[|s| - 1]) == name then [s[|s| - 1]] else [])
  }

  /** The keys of `files_grouped`, in first-appearance order. */
  function Names(s: seq<FileContent>): (ns: seq<string>)
    ensures forall i, j :: 0 <= i < j < |ns| ==> ns[i] != ns[j]
    ensures forall n :: n in ns <==> exists f :: f in s && NameOf(f) == n
    decreases |s|
  {
    if |s| == 0 then []
    else
      var init := s[..|s| - 1];
      assert s == init + [s[|s| - 1]];
      var ns := Names(init);
      if NameOf(s[|s| - 1]) in ns then ns else ns + [NameOf(s[|s| - 1])]
  }

  /** `min(chunk.created_at for chunk in chunks)`. */
  function Earliest(g: seq<FileContent>): (t: int)
    requires |g| > 0
    ensures exists i :: 0 <= i < |g| && t == g[i].createdAt
    ensures forall i :: 0 <= i < |g| ==> t <= g[i].createdAt
  {
    if |g| == 1 then g[0].createdAt
    else
      var t := Earliest(g[1..]);
      assert forall i :: 1 <= i < |g| ==> g[i] == g[1..][i - 1];
      if g[0].createdAt <= t then g[0].createdAt else t
  }

  /** One entry of the listing (`FileContentPublic`). */
  datatype FileSummary = FileSummary(filename: string, chunksCount: nat, createdAt: int)

  /** The response (`FilesList`). */
  datatype FilesList = FilesList(files: seq<FileSummary>, totalFiles: nat, totalChunks: nat)

  function Summary(s: seq<FileContent>, name: string): FileSummary
    requires name in Names(s)
  {
    var g := Group(s, name);
    assert |g| > 0 by {
      var f :| f in s && NameOf(f) == name;
      assert f in g;
    }
    FileSummary(name, |g|, Earliest(g))
  }

  function CreatedKey(f: FileSummary): real {
    f.createdAt as real
  }

  /** `total_chunks`: the group sizes summed over the first `names`. */
  function SumSizes(names: seq<string>, s: seq<FileContent>): nat
    decreases |names|
  {
    if |names| == 0 then 0
    else SumSizes(names[..|names| - 1], s) + |Group(s, names[|names| - 1])|
  }

  /** A new chunk adds one to the total of every distinct name list that
      holds its name, and nothing to one that does not. */
  lemma {:induction false} SumSizesSnoc(names: seq<string>, s: seq<FileContent>, c: FileContent)
    requires forall i, j :: 0 <= i < j < |names| ==> names[i] != names[j]
    ensures SumSizes(names, s + [c]) == SumSizes(names, s) + (if NameOf(c) in names then 1 else 0)
    decreases |names|
  {
    if |names| > 0 {
      var init := names[..|names| - 1];
      var last := names[|names| - 1];
      assert names == init + [last];
      SumSizesSnoc(init, s, c);
      assert (s + [c])[..|s + [c]| - 1] == s;
      assert NameOf(c) in names <==> NameOf(c) in init || NameOf(c) == last;
      assert NameOf(c) == last ==> NameOf(c) !in init;
    }
  }

  /** A name no chunk carries has an empty group. */
  lemma GroupAbsent(s: seq<FileContent>, name: string)
    requires name !in Names(s)
    ensures Group(s, name) == []
  {
  }

  /** The groups partition the chunks: their sizes add up to the number of
      chunks. */
  lemma {:induction false} GroupsCoverChunks(s: seq<FileContent>)
    ensures SumSizes(Names(s), s) == |s|
    decreases |s|
  {
    if |s| > 0 {
      var init := s[..|s| - 1];
      var c := s[|s| - 1];
      assert s == init + [c];
      GroupsCoverChunks(init);
      var ns := Names(init);
      SumSizesSnoc(ns, init, c);
      if NameOf(c) !in ns {
        var ns' := ns + [NameOf(c)];
        assert ns'[..|ns'| - 1] == ns;
        GroupAbsent(init, NameOf(c));
      }
    }
  }

  /** A sequence without repetitions has as many elements as its set. */
  lemma {:induction false} DistinctCard(ns: seq<string>)
    requires forall i, j :: 0 <= i < j < |ns| ==> ns[i] != ns[j]
    ensures |set n | n in ns| == |ns|
    decreases |ns|
  {
    if |ns| > 0 {
      var init := ns[..|ns| - 1];
      DistinctCard(init);
      assert ns == init + [ns[|ns| - 1]];
      assert (set n | n in ns) == (set n | n in init) + {ns[|ns| - 1]};
      assert ns[|ns| - 1] !in init;
    }
  }

  function FileNameKey(f: FileSummary): string {
    f.filename
  }

  /** The entries built for the names, one per name, in name order. */
  function Summaries(s: seq<FileContent>): (sums: seq<FileSummary>)
    ensures |sums| == |Names(s)|
    ensures forall k :: 0 <= k < |sums| ==> sums[k] == Summary(s, Names(s)[k])
    ensures DistinctBy(sums, FileNameKey)
  {
    var ns := Names(s);
    seq(|ns|, i requires 0 <= i < |ns| => Summary(s, ns[i]))
  }

  /** Every name's entry counts its chunks and carries their earliest time. */
  lemma SummaryFacts(s: seq<FileContent>, name: string)
    requires name in Names(s)
    ensures var e := Summary(s, name);
      && e.filename == name
      && e.chunksCount == |Group(s, name)|
      && (exists f :: f in s && NameOf(f) == name && f.createdAt == e.createdAt)
      && (forall f :: f in s && NameOf(f) == name ==> e.createdAt <= f.createdAt)
  {
    var e := Summary(s, name);
    var g := Group(s, name);
    var m :| 0 <= m < |g| && e.createdAt == g[m].createdAt;
    assert g[m] in g;
    forall f | f in s && NameOf(f) == name ensures e.createdAt <= f.createdAt {
      assert f in g;
      var q :| 0 <= q < |g| && g[q] == f;
    }
  }

  /** The set of names has as many elements as the name list. */
  lemma NameCount(s: seq<FileContent>)
    ensures |set f | f in s :: NameOf(f)| == |Names(s)|
  {
    var ns := Names(s);
    DistinctCard(ns);
    assert (set f | f in s :: NameOf(f)) == (set n | n in ns);
  }

  /** `get_files_from_project` past the ownership check: one entry per
      distinct filename with its chunk count and earliest `created_at`,
      newest first; `total_files` counts the entries and `total_chunks` the
      chunks. */
  function FileListing(s: seq<FileContent>): (r: FilesList)
    ensures r.totalChunks == |s|
    ensures r.totalFiles == |r.files| == |set f | f in s :: NameOf(f)|
    ensures SortedDesc(r.files, CreatedKey)
    ensures DistinctBy(r.files, FileNameKey)
    ensures multiset(r.files) == multiset(Summaries(s))
  {
    if |s| == 0 then FilesList([], 0, 0)
    else
      var sums := Summaries(s);
      var files := SortDesc(sums, CreatedKey);
      GroupsCoverChunks(s);
      NameCount(s);
      PermutationDistinctBy(files, sums, FileNameKey);
      FilesList(files, |files|, SumSizes(Names(s), s))
  }

  /** Some entry of `files` is for `name`. */
  predicate HasEntry(files: seq<FileSummary>, name: string) {
    exists i :: 0 <= i < |files| && files[i].filename == name
  }

  /** Some chunk of `s` carries `name`. */
  predicate Carries(s: seq<FileContent>, name: string) {
    exists f :: f in s && NameOf(f) == name
  }

  /** Each entry of the listing counts the chunks of its filename and
      carries their earliest time. */
  lemma FileListingEntries(s: seq<FileContent>)
    ensures var files := FileListing(s).files;
      forall i :: 0 <= i < |files| ==>
        && files[i].chunksCount == |Group(s, files[i].filename)|
        && (exists f :: f in s && NameOf(f) == files[i].filename && f.createdAt == files[i].createdAt)
        && (forall f :: f in s && NameOf(f) == files[i].filename ==> files[i].createdAt <= f.createdAt)
  {
    var files := FileListing(s).files;
    forall i | 0 <= i < |files|
      ensures && files[i].chunksCount == |Group(s, files[i].filename)|
              && (exists f :: f in s && NameOf(f) == files[i].filename && f.createdAt == files[i].createdAt)
              && (forall f :: f in s && NameOf(f) == files[i].filename ==> files[i].createdAt <= f.createdAt)
    {
      FileListingEntry(s, files[i]);
    }
  }

  /** One entry of the listing: the summary of its filename. */
  lemma FileListingEntry(s: seq<FileContent>, e: FileSummary)
    requires e in FileListing(s).files
    ensures e.chunksCount == |Group(s, e.filename)|
    ensures exists f :: f in s && NameOf(f) == e.filename && f.createdAt == e.createdAt
    ensures forall f :: f in s && NameOf(f) == e.filename ==> e.createdAt <= f.createdAt
  {
    var sums := Summaries(s);
    assert e in multiset(sums);
    var k :| 0 <= k < |sums| && sums[k] == e;
    SummaryFacts(s, Names(s)[k]);
  }

  /** The listing has an entry for a filename exactly when some chunk
      carries it. */
  lemma FileListingNames(s: seq<FileContent>, name: string)
    ensures HasEntry(FileListing(s).files, name) <==> Carries(s, name)
  {
    if Carries(s, name) {
      EntryForCarried(s, name);
    }
    if HasEntry(FileListing(s).files, name) {
      CarriedForEntry(s, name);
    }
  }

  lemma EntryForCarried(s: seq<FileContent>, name: string)
    requires Carries(s, name)
    ensures HasEntry(FileListing(s).files, name)
  {
    var files := FileListing(s).files;
    var sums := Summaries(s);
    var ns := Names(s);
    var f :| f in s && NameOf(f) == name;
    assert name in ns;
    var k :| 0 <= k < |ns| && ns[k] == name;
    assert sums[k].filename == name;
    assert sums[k] in multiset(files);
    var i :| 0 <= i < |files| && files[i] == sums[k];
  }

  lemma CarriedForEntry(s: seq<FileContent>, name: string)
    requires HasEntry(FileListing(s).files, name)
    ensures Carries(s, name)
  {
    var files := FileListing(s).files;
    var sums := Summaries(s);
    var i :| 0 <= i < |files| && files[i].filename == name;
    var e := files[i];
    assert e in multiset(files);
    assert e in sums;
    var k :| 0 <= k < |sums| && sums[k] == e;
    var n := Names(s)[k];
    assert e == Summary(s, n);
    assert n in Names(s);
  }

  /** The project's chunks, in table order. */
  function ProjectFiles(db: Db, projectId: int): (s: seq<FileContent>)
    ensures forall f :: f in s <==> f in db.files && f.projectId == projectId
  {
    Filter(db.files, (f: FileContent) => f.projectId == projectId)
  }

  /** `get_files_from_project`: 404 unless the caller owns the project. */
  function GetFiles(db: Db, me: int, projectId: int): (r: Result<FilesList, HttpError>)
    ensures r.Failure? <==> ProjectsApi.OwnedProject(db, me, projectId).None?
    ensures r.Failure? ==> r.error == ProjectsApi.NotFound
    ensures r.Success? ==> r.value.totalChunks == |ProjectFiles(db, projectId)|
    ensures r.Success? ==> r.value.totalFiles == |set f | f in db.files && f.projectId == projectId :: NameOf(f)|
    ensures r.Success? ==> SortedDesc(r.value.files, CreatedKey) && DistinctBy(r.value.files, FileNameKey)
    ensures r.Success? ==> r.value == FileListing(ProjectFiles(db, projectId))
    ensures r.Success? ==> r.value.totalFiles == |r.value.files|
  {
    if ProjectsApi.OwnedProject(db, me, projectId).None? then Failure(ProjectsApi.NotFound)
    else
      var s := ProjectFiles(db, projectId);
      assert (set f | f in s :: NameOf(f)) == (set f | f in db.files && f.projectId == projectId :: NameOf(f));
      Success(FileListing(s))
  }

  /** The endpoint lists a filename iff some chunk of the project
      carries it. */
  lemma GetFilesNames(db: Db, me: int, projectId: int, name: string)
    requires GetFiles(db, me, projectId).Success?
    ensures HasEntry(GetFiles(db, me, projectId).value.files, name) <==>
      exists f :: f in db.files && f.projectId == projectId && NameOf(f) == name
  {
    var s := ProjectFiles(db, projectId);
    FileListingNames(s, name);
  }

  const FileNotFound: HttpError := HttpError(404, "File not found")

  /** The chunks `delete_file_from_project` removes: the project's chunks
      whose metadata has exactly that filename (a chunk without one never
      matches, not even 'unknown'). */
  predicate MatchesFile(f: FileContent, projectId: int, filename: string) {
    f.projectId == projectId && "filename" in f.metadata && f.metadata["filename"] == filename
  }

  /** The remaining-plus-removed count of a split by a predicate. */
  lemma {:induction false} FilterSplit<T(!new)>(s: seq<T>, p: T -> bool, q: T -> bool)
    requires forall x :: q(x) == !p(x)
    ensures |Filter(s, p)| + |Filter(s, q)| == |s|
    decreases |s|
  {
    if |s| > 0 {
      FilterSplit(s[1..], p, q);
    }
  }

  /** The removal itself: every matching chunk goes, the rest stay. */
  function RemoveFile(db: Db, projectId: int, filename: string): (r: (Db, nat))
    requires Valid(db)
    ensures Valid(r.0)
    ensures r.1 == |Filter(db.files, (f: FileContent) => MatchesFile(f, projectId, filename))|
    ensures |r.0.files| + r.1 == |db.files|
    ensures r.0.users == db.users && r.0.projects == db.projects
    ensures forall f :: f in r.0.files <==> f in db.files && !MatchesFile(f, projectId, filename)
  {
    var matches := (f: FileContent) => MatchesFile(f, projectId, filename);
    var keep := (f: FileContent) => !MatchesFile(f, projectId, filename);
    FilterDistinct(db.files, keep, FileId);
    FilterSplit(db.files, matches, keep);
    (db.(files := Filter(db.files, keep)), |Filter(db.files, matches)|)
  }

  /** `delete_file_from_project` (the filename already URL-decoded): 404
      for a project the caller does not own, 404 when no chunk matches;
      otherwise exactly the matching chunks go and their number is
      reported. */
  function DeleteFile(db: Db, me: int, projectId: int, filename: string): (r: (Db, Result<(string, nat), HttpError>))
    requires Valid(db)
    ensures Valid(r.0)
    ensures ProjectsApi.OwnedProject(db, me, projectId).None? ==> r == (db, Failure(ProjectsApi.NotFound))
    ensures ProjectsApi.OwnedProject(db, me, projectId).Some? && (forall f :: f in db.files ==> !MatchesFile(f, projectId, filename))
      ==> r == (db, Failure(FileNotFound))
    ensures r.1.Success? ==>
      && r.1.value.0 == "File '" + filename + "' deleted successfully"
      && r.1.value.1 >= 1
      && |r.0.files| + r.1.value.1 == |db.files|
      && r.0.users == db.users && r.0.projects == db.projects
      && (forall f :: f in r.0.files <==> f in db.files && !MatchesFile(f, projectId, filename))
  {
    if ProjectsApi.OwnedProject(db, me, projectId).None? then (db, Failure(ProjectsApi.NotFound))
    else
      var matching := Filter(db.files, (f: FileContent) => MatchesFile(f, projectId, filename));
      if |matching| == 0 then (db, Failure(FileNotFound))
      else
        assert matching[0] in matching;
        var (db', n) := RemoveFile(db, projectId, filename);
        (db', Success(("File '" + filename + "' deleted successfully", n)))
  }

  // ---------------------------------------------------------------------
  // Conversation endpoints

  const NotAuthorized: HttpError := HttpError(403, "Not authorized")
  const ServerError: HttpError := HttpError(500, "Internal Server Error")

  /** `list_conversations`: 404 unless the caller owns the project; the
      page comes from the service and `total` counts all of the project's
      conversations. A database error on a negative window surfaces as a
      500. */
  function ListConversations(db: Db, convs: CS.Store, me: int, projectId: int, limit: int := 50, offset: int := 0)
    : (r: Result<(seq<CS.Conversation>, nat), HttpError>)
    ensures ProjectsApi.OwnedProject(db, me, projectId).None? ==> r == Failure(ProjectsApi.NotFound)
    ensures r.Success? <==> ProjectsApi.OwnedProject(db, me, projectId).Some? && limit >= 0 && offset >= 0
    ensures r.Success? ==> Success(r.value.0) == CS.List(convs, projectId, limit, offset)
    ensures r.Success? ==> r.value.1 == |CS.ProjectRows(convs.rows, projectId)|
    ensures r.Success? ==> forall c :: c in r.value.0 ==> c in convs.rows && c.projectId == projectId
  {
    if ProjectsApi.OwnedProject(db, me, projectId).None? then Failure(ProjectsApi.NotFound)
    else
      match CS.List(convs, projectId, limit, offset)
      case Failure(_) => Failure(ServerError)
      case Success(page) => Success((page, |CS.ProjectRows(convs.rows, projectId)|))
  }

  /** `create_conversation`: `data.title or 'New Conversation'`. */
  function CreateConversation(db: Db, convs: CS.Store, me: int, projectId: int, title: Option<string>, now: int)
    : (r: (CS.Store, Result<CS.Conversation, HttpError>))
    requires CS.Valid(convs)
    ensures CS.Valid(r.0)
    ensures ProjectsApi.OwnedProject(db, me, projectId).None? ==> r == (convs, Failure(ProjectsApi.NotFound))
    ensures r.1.Success? <==> ProjectsApi.OwnedProject(db, me, projectId).Some?
    ensures r.1.Success? ==>
      && r.0.rows == convs.rows + [r.1.value]
      && r.1.value.id !in CS.Ids(convs)
      && r.1.value.projectId == projectId
      && (title.None? || title == Some("") ==> r.1.value.title == CS.DefaultTitle)
      && (title.Some? && title.value != "" ==> r.1.value.title == title.value)
  {
    if ProjectsApi.OwnedProject(db, me, projectId).None? then (convs, Failure(ProjectsApi.NotFound))
    else
      var t := if title.Some? && title.value != "" then title.value else CS.DefaultTitle;
      var (st, c) := CS.Create(convs, projectId, now, t);
      (st, Success(c))
  }

  /** The check shared by update, delete and history: 404 for a missing
      conversation, then 403 unless its project is the caller's. */
  function Authorize(db: Db, convs: CS.Store, me: int, id: int): (r: Result<CS.Conversation, HttpError>)
    ensures CS.Get(convs, id).None? ==> r == Failure(ConversationNotFound)
    ensures CS.Get(convs, id).Some? && ProjectsApi.OwnedProject(db, me, CS.Get(convs, id).value.projectId).None?
      ==> r == Failure(NotAuthorized)
    ensures r.Success? <==> CS.Get(convs, id).Some? && ProjectsApi.OwnedProject(db, me, CS.Get(convs, id).value.projectId).Some?
    ensures r.Success? ==> r == Success(CS.Get(convs, id).value)
  {
    match CS.Get(convs, id)
    case None => Failure(ConversationNotFound)
    case Some(c) =>
      if ProjectsApi.OwnedProject(db, me, c.projectId).None? then Failure(NotAuthorized) else Success(c)
  }

  /** `update_conversation`: the service's retitling, once authorised. */
  function UpdateConversation(db: Db, convs: CS.Store, me: int, id: int, title: string, now: int)
    : (r: (CS.Store, Result<CS.Conversation, HttpError>))
    requires CS.Valid(convs)
    ensures CS.Valid(r.0)
    ensures r.1.Failure? ==> r.0 == convs && r.1 == Authorize(db, convs, me, id)
    ensures r.1.Success? <==> Authorize(db, convs, me, id).Success?
    ensures r.1.Success? ==>
      && r.1.value == Authorize(db, convs, me, id).value.(title := title, updatedAt := now)
      && CS.Get(r.0, id) == Some(r.1.value)
      && |r.0.rows| == |convs.rows|
      && forall i :: 0 <= i < |convs.rows| && convs.rows[i].id != id ==> r.0.rows[i] == convs.rows[i]
  {
    match Authorize(db, convs, me, id)
    case Failure(e) => (convs, Failure(e))
    case Success(_) =>
      var (st, c) := CS.UpdateTitle(convs, id, title, now);
      (st, Success(c.value))
  }

  /** `delete_conversation`: once authorised the conversation is gone; its
      checkpointer thread is the one the stream used. */
  function DeleteConversation(db: Db, convs: CS.Store, me: int, id: int): (r: (CS.Store, Result<string, HttpError>))
    requires CS.Valid(convs)
    ensures CS.Valid(r.0)
    ensures r.1.Success? <==> Authorize(db, convs, me, id).Success?
    ensures r.1.Failure? ==> r.0 == convs && r.1.error == Authorize(db, convs, me, id).error
    ensures r.1.Success? ==> r.1.value == CS.ThreadId(id) && CS.Get(r.0, id).None? && CS.Ids(r.0) == CS.Ids(convs) - {id}
  {
    match Authorize(db, convs, me, id)
    case Failure(e) => (convs, Failure(e))
    case Success(_) => (CS.Delete(convs, id).0, Success(CS.ThreadId(id)))
  }

  // ---------------------------------------------------------------------
  // Conversation history

  /** A checkpointed message as `_normalize_message_role` sees it: its
      `type` attribute when it has one, its class name otherwise, and its
      `content`, if any. */
  datatype Stored = Stored(typeAttr: Option<string>, className: string, content: Option<string>)

  /** `_normalize_message_role`: substring tests in a fixed order on the
      type (or the lowercased class name). */
  function NormalizeRole(m: Stored): (role: string)
    ensures var t := if m.typeAttr.Some? then m.typeAttr.value else Lower(m.className);
      && role in {"user", "assistant", "system", "tool", "unknown"}
      && (role == "user" <==> Contains(t, "human") || Contains(t, "user"))
      && (role == "assistant" <==> !(Contains(t, "human") || Contains(t, "user")) && (Contains(t, "ai") || Contains(t, "assistant")))
      && (role == "system" <==> !(Contains(t, "human") || Contains(t, "user") || Contains(t, "ai") || Contains(t, "assistant"))
                                && Contains(t, "system"))
      && (role == "tool" <==> !(Contains(t, "human") || Contains(t, "user") || Contains(t, "ai") || Contains(t, "assistant")
                                || Contains(t, "system")) && Contains(t, "tool"))
      && (t == "" ==> role == "unknown")
  {
    var t := if m.typeAttr.Some? then m.typeAttr.value else Lower(m.className);
    if t == "" then "unknown"
    else if Contains(t, "human") || Contains(t, "user") then "user"
    else if Contains(t, "ai") || Contains(t, "assistant") then "assistant"
    else if Contains(t, "system") then "system"
    else if Contains(t, "tool") then "tool"
    else "unknown"
  }

  /** A text without `sub`'s first character does not contain `sub`. */
  lemma {:induction false} NoFirstChar(s: string, sub: string)
    requires |sub| > 0 && forall i :: 0 <= i < |s| ==> s[i] != sub[0]
    ensures !Contains(s, sub)
    decreases |s|
  {
    if |s| > 0 {
      assert forall i :: 0 <= i < |s[1..]| ==> s[1..][i] == s[i + 1];
      NoFirstChar(s[1..], sub);
      if |sub| <= |s| {
        assert s[..|sub|][0] != sub[0];
      }
    }
  }

  /** LangChain's `human` and `ai` message types map to the user and the
      assistant. */
  lemma NormalizeRoleChatTypes()
    ensures NormalizeRole(Stored(Some("human"), "HumanMessage", None)) == "user"
    ensures NormalizeRole(Stored(Some("ai"), "AIMessage", None)) == "assistant"
  {
    assert Contains("human", "human");
    assert !Contains("ai", "human") && !Contains("ai", "user");
    assert Contains("ai", "ai");
  }

  /** `system` maps to itself. */
  lemma NormalizeRoleSystemType()
    ensures NormalizeRole(Stored(Some("system"), "SystemMessage", None)) == "system"
  {
    assert "system" == ['s', 'y', 's', 't', 'e', 'm'];
    NoFirstChar("system", "human");
    NoFirstChar("system", "user");
    NoFirstChar("system", "ai");
    NoFirstChar("system", "assistant");
    assert Contains("system", "system");
  }

  /** `tool` maps to itself. */
  lemma NormalizeRoleToolType()
    ensures NormalizeRole(Stored(Some("tool"), "ToolMessage", None)) == "tool"
  {
    assert "tool" == ['t', 'o', 'o', 'l'];
    NoFirstChar("tool", "human");
    NoFirstChar("tool", "user");
    NoFirstChar("tool", "ai");
    NoFirstChar("tool", "assistant");
    NoFirstChar("tool", "system");
    assert Contains("tool", "tool");
  }

  /** An empty `type` is 'unknown' even when the class name would say
      otherwise: the class name is consulted only without the attribute. */
  lemma NormalizeRoleEmptyType()
    ensures NormalizeRole(Stored(Some(""), "HumanMessage", None)) == "unknown"
  {
  }

  /** One history entry. */
  datatype Entry = Entry(role: string, content: string)

  /** The `messages` of the history: a normalised role per message whose
      content is present and non-empty, in checkpoint order. */
  function HistoryEntries(msgs: seq<Stored>): (r: seq<Entry>)
    ensures |r| <= |msgs|
    ensures forall k :: 0 <= k < |r| ==> r[k].content != ""
    ensures forall i :: 0 <= i < |msgs| && msgs[i].content.Some? && msgs[i].content.value != "" ==>
      Entry(NormalizeRole(msgs[i]), msgs[i].content.value) in r
    ensures forall k :: 0 <= k < |r| ==> EntryOfSome(r[k], msgs)
    decreases |msgs|
  {
    if |msgs| == 0 then []
    else
      var rest := HistoryEntries(msgs[1..]);
      HistoryEntriesStep(msgs, rest);
      MessageEntries(msgs[0]) + rest
  }

  /** The entry one message contributes: none without content. */
  function MessageEntries(m: Stored): seq<Entry> {
    if m.content.Some? && m.content.value != "" then [Entry(NormalizeRole(m), m.content.value)] else []
  }

  /** The contract of `HistoryEntries` carries over from the tail to the
      whole list. */
  lemma HistoryEntriesStep(msgs: seq<Stored>, rest: seq<Entry>)
    requires |msgs| > 0 && |rest| <= |msgs| - 1
    requires forall k :: 0 <= k < |rest| ==> rest[k].content != ""
    requires forall i :: 0 <= i < |msgs[1..]| && msgs[1..][i].content.Some? && msgs[1..][i].content.value != "" ==>
      Entry(NormalizeRole(msgs[1..][i]), msgs[1..][i].content.value) in rest
    requires forall k :: 0 <= k < |rest| ==> EntryOfSome(rest[k], msgs[1..])
    ensures var r := MessageEntries(msgs[0]) + rest;
      && |r| <= |msgs|
      && (forall k :: 0 <= k < |r| ==> r[k].content != "")
      && (forall i :: 0 <= i < |msgs| && msgs[i].content.Some? && msgs[i].content.value != "" ==>
            Entry(NormalizeRole(msgs[i]), msgs[i].content.value) in r)
      && (forall k :: 0 <= k < |r| ==> EntryOfSome(r[k], msgs))
  {
    HistoryEntriesStepFrom(msgs, rest);
    HistoryEntriesStepCovers(msgs, rest);
  }

  lemma HistoryEntriesStepFrom(msgs: seq<Stored>, rest: seq<Entry>)
    requires |msgs| > 0
    requires forall k :: 0 <= k < |rest| ==> rest[k].content != ""
    requires forall k :: 0 <= k < |rest| ==> EntryOfSome(rest[k], msgs[1..])
    ensures var r := MessageEntries(msgs[0]) + rest;
      forall k :: 0 <= k < |r| ==> r[k].content != "" && EntryOfSome(r[k], msgs)
  {
    var head := MessageEntries(msgs[0]);
    var r := head + rest;
    forall k | 0 <= k < |r| ensures r[k].content != "" && EntryOfSome(r[k], msgs) {
      if k < |head| {
        assert r[k] == head[0];
        assert EntryOf(r[k], msgs[0]);
      } else {
        var e := rest[k - |head|];
        assert r[k] == e;
        assert EntryOfSome(e, msgs[1..]);
        var i :| 0 <= i < |msgs[1..]| && EntryOf(e, msgs[1..][i]);
        assert EntryOf(e, msgs[i + 1]);
      }
    }
  }

  lemma HistoryEntriesStepCovers(msgs: seq<Stored>, rest: seq<Entry>)
    requires |msgs| > 0
    requires forall i :: 0 <= i < |msgs[1..]| && msgs[1..][i].content.Some? && msgs[1..][i].content.value != "" ==>
      Entry(NormalizeRole(msgs[1..][i]), msgs[1..][i].content.value) in rest
    ensures var r := MessageEntries(msgs[0]) + rest;
      forall i :: 0 <= i < |msgs| && msgs[i].content.Some? && msgs[i].content.value != "" ==>
        Entry(NormalizeRole(msgs[i]), msgs[i].content.value) in r
  {
    var head := MessageEntries(msgs[0]);
    var r := head + rest;
    forall i | 0 <= i < |msgs| && msgs[i].content.Some? && msgs[i].content.value != ""
      ensures Entry(NormalizeRole(msgs[i]), msgs[i].content.value) in r
    {
      if i == 0 {
        assert r[0] == head[0];
      } else {
        var m := msgs[1..][i - 1];
        assert msgs[i] == m;
        assert Entry(NormalizeRole(m), m.content.value) in rest;
      }
    }
  }

  /** `e` is the entry of message `m`. */
  predicate EntryOf(e: Entry, m: Stored) {
    m.content == Some(e.content) && e.role == NormalizeRole(m)
  }

  /** `e` is the entry of one of `msgs`. */
  ghost predicate EntryOfSome(e: Entry, msgs: seq<Stored>) {
    exists i :: 0 <= i < |msgs| && EntryOf(e, msgs[i])
  }

  /** The entries of one message: its entry when it has content, else none. */
  lemma HistoryEntriesOne(m: Stored)
    ensures HistoryEntries([m]) ==
      if m.content.Some? && m.content.value != "" then [Entry(NormalizeRole(m), m.content.value)] else []
  {
    assert [m][1..] == [];
  }

  /** Entries follow checkpoint order: the entries of `a + b` are those of
      `a` followed by those of `b`. */
  lemma {:induction false} HistoryEntriesAppend(a: seq<Stored>, b: seq<Stored>)
    ensures HistoryEntries(a + b) == HistoryEntries(a) + HistoryEntries(b)
    decreases |a|
  {
    if |a| == 0 {
      assert a + b == b;
    } else {
      assert (a + b)[0] == a[0];
      assert (a + b)[1..] == a[1..] + b;
      HistoryEntriesAppend(a[1..], b);
    }
  }

  /** `get_conversation_history`: once authorised, the conversation's id
      and its entries (none when the checkpointer holds no state). */
  function History(db: Db, convs: CS.Store, me: int, id: int, checkpoint: Option<seq<Stored>>)
    : (r: Result<(int, seq<Entry>), HttpError>)
    ensures r.Success? <==> Authorize(db, convs, me, id).Success?
    ensures r.Failure? ==> r.error == Authorize(db, convs, me, id).error
    ensures r.Success? ==> r.value.0 == id
    ensures r.Success? && checkpoint.None? ==> r.value.1 == []
    ensures r.Success? && checkpoint.Some? ==> r.value.1 == HistoryEntries(checkpoint.value)
  {
    match Authorize(db, convs, me, id)
    case Failure(e) => Failure(e)
    case Success(c) =>
      Success((c.id, if checkpoint.Some? then HistoryEntries(checkpoint.value) else []))
  }
}

=== FILE: chat_stream.dfy ===
/** The chat stream encoder of backend/app/routers/chat.py (`event_generator`
    inside `chat_with_documents_stream`): it turns the finite sequence of
    messages the agent streams into server-sent-event frames. Messages from
    nodes other than the three visible ones are dropped; a message with tool
    calls yields one `tool_call` frame per not-yet-sent, non-empty call id;
    otherwise a tool message yields one `tool_result` frame; otherwise
    non-empty text yields one `token` frame. Exactly one terminal frame ends
    the stream: `done` when the agent is exhausted, `error` when it raises. */
module ChatStream {
  import opened Wrappers
  import opened Text
  import opened Json

  /** One tool call of an AI message; `id`, `name` and `args` are the
      entries of the call's dict, `None` when the key is absent. */
  datatype ToolCall = ToolCall(id: Option<string>, name: Option<string>, args: Option<Json>)

  /** One streamed message with the node that produced it (`""` when the
      metadata carries no `langgraph_node`). `isToolMessage` records whether
      the message is a `ToolMessage`; `name` is its tool name. */
  datatype Msg = Msg(
    node: string,
    toolCalls: seq<ToolCall>,
    isToolMessage: bool,
    name: Option<string>,
    content: string)

  /** The agent raised `message` after delivering its first `at` messages. */
  datatype Fault = Fault(at: nat, message: string)

  datatype Frame =
    | TokenFrame(content: string)
    | ToolCallFrame(toolName: Option<string>, toolId: string, args: Json)
    | ToolResultFrame(toolName: Option<string>, content: string)
    | DoneFrame(conversationId: int)
    | ErrorFrame(message: string)
  {
    predicate IsTerminal() {
      DoneFrame? || ErrorFrame?
    }
  }

  const VisibleNodes: set<string> := {"generate_query_or_respond", "generate_answer", "retrieve"}

  /** A call id that counts: present and non-empty (Python truthiness). */
  predicate ValidId(c: ToolCall) {
    c.id.Some? && c.id.value != ""
  }

  /** The ids of the tool-call frames among `fs`. */
  function CallIds(fs: seq<Frame>): set<string> {
    set i | 0 <= i < |fs| && fs[i].ToolCallFrame? :: fs[i].toolId
  }

  /** No call id appears on two tool-call frames. */
  ghost predicate DistinctCalls(fs: seq<Frame>) {
    forall i, j :: 0 <= i < j < |fs| && fs[i].ToolCallFrame? && fs[j].ToolCallFrame? ==>
      fs[i].toolId != fs[j].toolId
  }

  lemma CallIdsAppend(a: seq<Frame>, b: seq<Frame>)
    ensures CallIds(a + b) == CallIds(a) + CallIds(b)
  {
    var ab := a + b;
    forall x | x in CallIds(ab) ensures x in CallIds(a) + CallIds(b) {
      var i :| 0 <= i < |ab| && ab[i].ToolCallFrame? && ab[i].toolId == x;
      if i < |a| { assert ab[i] == a[i]; } else { assert ab[i] == b[i - |a|]; }
    }
    forall x | x in CallIds(a) ensures x in CallIds(ab) {
      var i :| 0 <= i < |a| && a[i].ToolCallFrame? && a[i].toolId == x;
      assert ab[i] == a[i];
    }
    forall x | x in CallIds(b) ensures x in CallIds(ab) {
      var i :| 0 <= i < |b| && b[i].ToolCallFrame? && b[i].toolId == x;
      assert ab[|a| + i] == b[i];
    }
  }

  lemma DistinctCallsAppend(a: seq<Frame>, b: seq<Frame>)
    requires DistinctCalls(a) && DistinctCalls(b) && CallIds(a) !! CallIds(b)
    ensures DistinctCalls(a + b)
  {
    var ab := a + b;
    forall i, j | 0 <= i < j < |ab| && ab[i].ToolCallFrame? && ab[j].ToolCallFrame?
      ensures ab[i].toolId != ab[j].toolId
    {
      if j < |a| {
        assert ab[i] == a[i] && ab[j] == a[j];
      } else if i >= |a| {
        assert ab[i] == b[i - |a|] && ab[j] == b[j - |a|];
      } else {
        assert ab[i] == a[i] && ab[j] == b[j - |a|];
        assert a[i].toolId in CallIds(a);
        assert b[j - |a|].toolId in CallIds(b);
      }
    }
  }

  /** The frame (if any) the first call of a message contributes. */
  function HeadFrames(c: ToolCall, sent: set<string>): seq<Frame> {
    if ValidId(c) && c.id.value !in sent
    then [ToolCallFrame(c.name, c.id.value, c.args.GetOr(JObj([])))]
    else []
  }

  function HeadSent(c: ToolCall, sent: set<string>): set<string> {
    if ValidId(c) then sent + {c.id.value} else sent
  }

  lemma HeadFramesIds(c: ToolCall, sent: set<string>)
    ensures CallIds(HeadFrames(c, sent)) == HeadSent(c, sent) - sent
    ensures DistinctCalls(HeadFrames(c, sent))
  {
    var here := HeadFrames(c, sent);
    if |here| == 1 {
      assert here[0].toolId in CallIds(here);
    }
  }

  /** `f` is the tool-call frame for the valid call `c`. */
  predicate FrameOf(f: Frame, c: ToolCall) {
    ValidId(c) && f == ToolCallFrame(c.name, c.id.value, c.args.GetOr(JObj([])))
  }

  /** `f` is the tool-call frame for some valid call of `calls`. */
  ghost predicate FrameOfSome(f: Frame, calls: seq<ToolCall>) {
    exists j :: 0 <= j < |calls| && FrameOf(f, calls[j])
  }

  /** Every frame of `fs` is the tool-call frame for a valid call of `calls`. */
  ghost predicate FramesOfCalls(fs: seq<Frame>, calls: seq<ToolCall>) {
    forall k :: 0 <= k < |fs| ==> FrameOfSome(fs[k], calls)
  }

  lemma FramesOfCallsCons(c: ToolCall, tail: seq<ToolCall>, sent: set<string>, fs: seq<Frame>)
    requires FramesOfCalls(fs, tail)
    ensures FramesOfCalls(HeadFrames(c, sent) + fs, [c] + tail)
  {
    var here := HeadFrames(c, sent);
    var calls := [c] + tail;
    forall k | 0 <= k < |here + fs|
      ensures FrameOfSome((here + fs)[k], calls)
    {
      if k < |here| {
        assert (here + fs)[k] == here[0] && calls[0] == c;
        assert FrameOf((here + fs)[k], calls[0]);
      } else {
        assert (here + fs)[k] == fs[k - |here|];
        assert FrameOfSome(fs[k - |here|], tail);
        var j :| 0 <= j < |tail| && FrameOf(fs[k - |here|], tail[j]);
        assert calls[j + 1] == tail[j];
        assert FrameOf((here + fs)[k], calls[j + 1]);
      }
    }
  }

  /** Frames for calls are tool-call frames. */
  lemma FramesOfCallsAreCalls(fs: seq<Frame>, calls: seq<ToolCall>)
    requires FramesOfCalls(fs, calls)
    ensures forall k :: 0 <= k < |fs| ==> fs[k].ToolCallFrame?
  {
    forall k | 0 <= k < |fs| ensures fs[k].ToolCallFrame? {
      assert FrameOfSome(fs[k], calls);
      var j :| 0 <= j < |calls| && FrameOf(fs[k], calls[j]);
    }
  }

  /** The ids sent after the whole list are those sent before plus every
      valid id of the list. */
  lemma SentCons(c: ToolCall, tail: seq<ToolCall>, sent: set<string>)
    ensures HeadSent(c, sent) + (set d | d in tail && ValidId(d) :: d.id.value)
         == sent + set d | d in [c] + tail && ValidId(d) :: d.id.value
  {
    var all := [c] + tail;
    assert forall d :: d in all <==> d == c || d in tail;
  }

  /** Putting the first call's frame in front keeps ids distinct and
      accounts for exactly the newly sent ids. */
  lemma CallIdsCons(c: ToolCall, sent: set<string>, fs: seq<Frame>, sent2: set<string>)
    requires DistinctCalls(fs)
    requires CallIds(fs) == sent2 - HeadSent(c, sent)
    requires HeadSent(c, sent) <= sent2
    ensures DistinctCalls(HeadFrames(c, sent) + fs)
    ensures CallIds(HeadFrames(c, sent) + fs) == sent2 - sent
  {
    var here := HeadFrames(c, sent);
    HeadFramesIds(c, sent);
    CallIdsAppend(here, fs);
    DistinctCallsAppend(here, fs);
  }

  /** The contract of `CallFrames` carries over from the other calls to the
      whole list. */
  lemma CallFramesCons(c: ToolCall, tail: seq<ToolCall>, sent: set<string>, fs: seq<Frame>, sent2: set<string>)
    requires DistinctCalls(fs)
    requires CallIds(fs) == sent2 - HeadSent(c, sent)
    requires sent2 == HeadSent(c, sent) + set d | d in tail && ValidId(d) :: d.id.value
    requires FramesOfCalls(fs, tail)
    ensures DistinctCalls(HeadFrames(c, sent) + fs)
    ensures CallIds(HeadFrames(c, sent) + fs) == sent2 - sent
    ensures sent2 == sent + set d | d in [c] + tail && ValidId(d) :: d.id.value
    ensures FramesOfCalls(HeadFrames(c, sent) + fs, [c] + tail)
  {
    CallIdsCons(c, sent, fs, sent2);
    SentCons(c, tail, sent);
    FramesOfCallsCons(c, tail, sent, fs);
  }

  /** The frames for the tool calls of one message, given the ids already
      sent; also returns the updated set of sent ids. Exactly the valid ids
      not sent before are emitted, each once, each frame carrying its call's
      name and arguments (an empty object when the call has none). */
  function CallFrames(calls: seq<ToolCall>, sent: set<string>): (r: (seq<Frame>, set<string>))
    ensures forall k :: 0 <= k < |r.0| ==> r.0[k].ToolCallFrame?
    ensures DistinctCalls(r.0)
    ensures CallIds(r.0) == r.1 - sent
    ensures r.1 == sent + set c | c in calls && ValidId(c) :: c.id.value
    ensures FramesOfCalls(r.0, calls)
    decreases |calls|
  {
    if |calls| == 0 then ([], sent)
    else
      var c := calls[0];
      var here := HeadFrames(c, sent);
      var sent1 := HeadSent(c, sent);
      var rest := CallFrames(calls[1..], sent1);
      assert calls == [c] + calls[1..];
      CallFramesCons(c, calls[1..], sent, rest.0, rest.1);
      FramesOfCallsAreCalls(here + rest.0, calls);
      (here + rest.0, rest.1)
  }

  /** How the stream encoder treats one message, in the order the source
      tests the cases. */
  datatype Class = Hidden | Calls | ToolResult | Text | Silent

  function ClassOf(m: Msg): Class {
    if m.node !in VisibleNodes then Hidden
    else if |m.toolCalls| > 0 then Calls
    else if m.isToolMessage then ToolResult
    else if m.content != "" then Text
    else Silent
  }

  /** The frames for one message and the updated set of sent call ids. */
  function Step(m: Msg, sent: set<string>): (r: (seq<Frame>, set<string>))
    ensures ClassOf(m) != Calls ==> r.1 == sent
    ensures ClassOf(m) in {Hidden, Silent} ==> |r.0| == 0
    ensures ClassOf(m) == Calls ==> forall k :: 0 <= k < |r.0| ==> r.0[k].ToolCallFrame?
    ensures ClassOf(m) == ToolResult ==> r.0 == [ToolResultFrame(m.name, m.content)]
    ensures ClassOf(m) == Text ==> r.0 == [TokenFrame(m.content)]
    ensures forall k :: 0 <= k < |r.0| ==> !r.0[k].IsTerminal()
    ensures DistinctCalls(r.0) && CallIds(r.0) == r.1 - sent && sent <= r.1
  {
    match ClassOf(m)
    case Hidden => ([], sent)
    case Calls =>
      var r := CallFrames(m.toolCalls, sent);
      assert m.toolCalls[0] in m.toolCalls;
      r
    case ToolResult => ([ToolResultFrame(m.name, m.content)], sent)
    case Text => ([TokenFrame(m.content)], sent)
    case Silent => ([], sent)
  }

  /** The frames for a run of messages, left to right, threading the set of
      sent call ids; also returns the final set. */
  function Run(msgs: seq<Msg>, sent: set<string>): (r: (seq<Frame>, set<string>))
    ensures forall k :: 0 <= k < |r.0| ==> !r.0[k].IsTerminal()
    ensures DistinctCalls(r.0)
    ensures CallIds(r.0) == r.1 - sent && sent <= r.1
    decreases |msgs|
  {
    if |msgs| == 0 then ([], sent)
    else
      var s := Step(msgs[0], sent);
      var rest := Run(msgs[1..], s.1);
      CallIdsAppend(s.0, rest.0);
      DistinctCallsAppend(s.0, rest.0);
      assert forall k :: 0 <= k < |rest.0| ==> (s.0 + rest.0)[|s.0| + k] == rest.0[k];
      (s.0 + rest.0, rest.1)
  }

  /** Upstream order is kept: the frames for `a + b` are the frames for `a`
      followed by the frames for `b` given what `a` sent. */
  lemma {:induction false} RunAppend(a: seq<Msg>, b: seq<Msg>, sent: set<string>)
    ensures Run(a + b, sent).0 == Run(a, sent).0 + Run(b, Run(a, sent).1).0
    ensures Run(a + b, sent).1 == Run(b, Run(a, sent).1).1
    decreases |a|
  {
    if |a| == 0 {
      assert a + b == b;
    } else {
      var s := Step(a[0], sent);
      assert (a + b)[0] == a[0];
      assert (a + b)[1..] == a[1..] + b;
      RunAppend(a[1..], b, s.1);
      var tail := Run(a[1..], s.1);
      assert Run(a + b, sent).0 == s.0 + Run(a[1..] + b, s.1).0;
      assert Run(a, sent).0 == s.0 + tail.0;
      assert s.0 + (tail.0 + Run(b, tail.1).0) == (s.0 + tail.0) + Run(b, tail.1).0;
    }
  }

  /** Messages of invisible nodes can be removed without changing a single
      frame. */
  function VisibleOnly(msgs: seq<Msg>): (r: seq<Msg>)
    ensures forall k :: 0 <= k < |r| ==> r[k].node in VisibleNodes
    decreases |msgs|
  {
    if |msgs| == 0 then []
    else if msgs[0].node in VisibleNodes then [msgs[0]] + VisibleOnly(msgs[1..])
    else VisibleOnly(msgs[1..])
  }

  lemma {:induction false} HiddenNodesYieldNothing(msgs: seq<Msg>, sent: set<string>)
    ensures Run(msgs, sent) == Run(VisibleOnly(msgs), sent)
    decreases |msgs|
  {
    if |msgs| > 0 {
      HiddenNodesYieldNothing(msgs[1..], Step(msgs[0], sent).1);
      if msgs[0].node in VisibleNodes {
        var v := VisibleOnly(msgs);
        assert v[0] == msgs[0] && v[1..] == VisibleOnly(msgs[1..]);
      } else {
        assert ClassOf(msgs[0]) == Hidden;
        assert Step(msgs[0], sent) == ([], sent);
        assert Run(msgs, sent) == ([] + Run(msgs[1..], sent).0, Run(msgs[1..], sent).1);
        assert [] + Run(msgs[1..], sent).0 == Run(msgs[1..], sent).0;
      }
    }
  }

  /** The messages the agent delivered before its fault (all of them when
      it ran to exhaustion). */
  function Delivered(msgs: seq<Msg>, fault: Option<Fault>): (d: seq<Msg>)
    ensures d <= msgs
    ensures fault.None? ==> d == msgs
    ensures fault.Some? && fault.value.at <= |msgs| ==> |d| == fault.value.at
  {
    if fault.Some? && fault.value.at <= |msgs| then msgs[..fault.value.at] else msgs
  }

  /** The whole outward stream of one exchange. */
  function Stream(msgs: seq<Msg>, fault: Option<Fault>, conversationId: int): (r: seq<Frame>)
    ensures |r| >= 1 && r[|r| - 1].IsTerminal()
    ensures forall k :: 0 <= k < |r| - 1 ==> !r[k].IsTerminal()
    ensures fault.None? <==> r[|r| - 1] == DoneFrame(conversationId)
    ensures fault.Some? ==> r[|r| - 1] == ErrorFrame(fault.value.message)
    ensures DistinctCalls(r)
  {
    var body := Run(Delivered(msgs, fault), {}).0;
    var last := if fault.Some? then ErrorFrame(fault.value.message) else DoneFrame(conversationId);
    assert DistinctCalls(body + [last]) by {
      assert CallIds([last]) == {};
      DistinctCallsAppend(body, [last]);
    }
    body + [last]
  }

  /** An upstream fault keeps every frame already sent: the frames before
      the `error` frame are a prefix of the frames the fault-free run would
      have sent. */
  lemma FaultKeepsSentFrames(msgs: seq<Msg>, f: Fault, conversationId: int)
    ensures var r := Stream(msgs, Some(f), conversationId);
      r[..|r| - 1] <= Stream(msgs, None, conversationId)[..|Stream(msgs, None, conversationId)| - 1]
  {
    var d := Delivered(msgs, Some(f));
    assert msgs == d + msgs[|d|..];
    RunAppend(d, msgs[|d|..], {});
  }

  // ---- Wire format ---------------------------------------------------------

  function NameJson(n: Option<string>): Json {
    match n
    case Some(s) => JStr(s)
    case None => JNull
  }

  /** The dict each frame is built from, keys in the source's order. */
  function FrameJson(f: Frame): Json {
    match f
    case TokenFrame(c) => JObj([("type", JStr("token")), ("content", JStr(c))])
    case ToolCallFrame(n, id, a) =>
      JObj([("type", JStr("tool_call")), ("tool_name", NameJson(n)), ("tool_id", JStr(id)), ("args", a)])
    case ToolResultFrame(n, c) =>
      JObj([("type", JStr("tool_result")), ("tool_name", NameJson(n)), ("content", JStr(c))])
    case DoneFrame(id) => JObj([("type", JStr("done")), ("conversation_id", JInt(id))])
    case ErrorFrame(m) => JObj([("type", JStr("error")), ("message", JStr(m))])
  }

  function NameOfJson(j: Json): Option<Option<string>> {
    match j
    case JStr(s) => Some(Some(s))
    case JNull => Some(None)
    case _ => None
  }

  /** A client-side reading of a frame's JSON object back into a frame. */
  function FrameOfJson(j: Json): Option<Frame> {
    if !j.JObj? || |j.members| < 2 || j.members[0].0 != "type" || !j.members[0].1.JStr? then None
    else
      var ms := j.members;
      var t := ms[0].1.s;
      if t == "token" && |ms| == 2 && ms[1].0 == "content" && ms[1].1.JStr? then
        Some(TokenFrame(ms[1].1.s))
      else if t == "tool_call" && |ms| == 4 && ms[1].0 == "tool_name" && NameOfJson(ms[1].1).Some?
        && ms[2].0 == "tool_id" && ms[2].1.JStr? && ms[3].0 == "args" then
        Some(ToolCallFrame(NameOfJson(ms[1].1).value, ms[2].1.s, ms[3].1))
      else if t == "tool_result" && |ms| == 3 && ms[1].0 == "tool_name" && NameOfJson(ms[1].1).Some?
        && ms[2].0 == "content" && ms[2].1.JStr? then
        Some(ToolResultFrame(NameOfJson(ms[1].1).value, ms[2].1.s))
      else if t == "done" && |ms| == 2 && ms[1].0 == "conversation_id" && ms[1].1.JInt? then
        Some(DoneFrame(ms[1].1.i))
      else if t == "error" && |ms| == 2 && ms[1].0 == "message" && ms[1].1.JStr? then
        Some(ErrorFrame(ms[1].1.s))
      else None
  }

  /** Every frame can be read back from its JSON object. */
  lemma FrameJsonRoundTrip(f: Frame)
    ensures FrameOfJson(FrameJson(f)) == Some(f)
  {
  }

  /** One SSE frame: `data: ` + JSON + a blank line. */
  function FrameText(f: Frame): string {
    "data: " + Serialize(FrameJson(f)) + "\n\n"
  }

  /** The bytes of a whole stream. */
  function StreamText(fs: seq<Frame>): string
    decreases |fs|
  {
    if |fs| == 0 then "" else FrameText(fs[0]) + StreamText(fs[1..])
  }

  /** Position of the first `c` in `s`, or `|s|`. */
  function IndexOf(s: string, c: char): (k: nat)
    ensures k <= |s|
    ensures k < |s| ==> s[k] == c
    ensures forall i :: 0 <= i < k ==> s[i] != c
  {
    if |s| == 0 then 0 else if s[0] == c then 0 else 1 + IndexOf(s[1..], c)
  }

  /** An SSE reader: splits a stream into the payloads of its `data:`
      events, each ended by a blank line. */
  function ParseEvents(t: string): Option<seq<string>>
    decreases |t|
  {
    if |t| == 0 then Some([])
    else if !StartsWith(t, "data: ") then None
    else
      var body := t[6..];
      var k := IndexOf(body, '\n');
      if k + 1 < |body| && body[k + 1] == '\n' then
        match ParseEvents(body[k + 2..])
        case Some(rest) => Some([body[..k]] + rest)
        case None => None
      else None
  }

  lemma IndexOfNewline(p: string, rest: string)
    requires Printable(p)
    ensures IndexOf(p + "\n\n" + rest, '\n') == |p|
  {
    var s := p + "\n\n" + rest;
    assert forall i :: 0 <= i < |p| ==> s[i] == p[i];
    assert s[|p|] == '\n';
  }

  /** Payloads wrapped as consecutive SSE events. */
  function Framed(ps: seq<string>): string
    decreases |ps|
  {
    if |ps| == 0 then "" else "data: " + ps[0] + "\n\n" + Framed(ps[1..])
  }

  lemma {:induction false} ParseFramed(ps: seq<string>)
    requires forall k :: 0 <= k < |ps| ==> Printable(ps[k])
    ensures ParseEvents(Framed(ps)) == Some(ps)
    decreases |ps|
  {
    if |ps| > 0 {
      var p := ps[0];
      var rest := Framed(ps[1..]);
      var t := Framed(ps);
      assert t == "data: " + (p + "\n\n" + rest);
      var body := t[6..];
      assert body == p + "\n\n" + rest;
      IndexOfNewline(p, rest);
      assert body[|p| + 1] == '\n';
      assert body[|p| + 2..] == rest;
      assert body[..|p|] == p;
      ParseFramed(ps[1..]);
      assert ps == [p] + ps[1..];
    }
  }

  /** The JSON text of each frame, in order. */
  function Payloads(fs: seq<Frame>): (ps: seq<string>)
    ensures |ps| == |fs|
    ensures forall k :: 0 <= k < |fs| ==> ps[k] == Serialize(FrameJson(fs[k]))
  {
    seq(|fs|, k requires 0 <= k < |fs| => Serialize(FrameJson(fs[k])))
  }

  lemma {:induction false} StreamTextFramed(fs: seq<Frame>)
    ensures StreamText(fs) == Framed(Payloads(fs))
    decreases |fs|
  {
    if |fs| > 0 {
      StreamTextFramed(fs[1..]);
      assert Payloads(fs)[1..] == Payloads(fs[1..]);
    }
  }

  /** Framing is unambiguous: a reader recovers every frame's JSON text, in
      order, from the concatenated stream. */
  lemma ParseStreamText(fs: seq<Frame>)
    ensures ParseEvents(StreamText(fs)) == Some(Payloads(fs))
  {
    StreamTextFramed(fs);
    forall k | 0 <= k < |fs| ensures Printable(Payloads(fs)[k]) {
      SerializePrintable(FrameJson(fs[k]));
    }
    ParseFramed(Payloads(fs));
  }
}

=== FILE: conversation_service.dfy ===
/** backend/app/services/conversation_service.py: conversations of a
    project, kept in an in-memory table standing in for the database, plus
    the two pure helpers that derive a title and a checkpointer thread id. */
module ConversationService {
  import opened Wrappers
  import opened Text
  import opened Listing

  /** A chat conversation; `updatedAt` is a clock reading. */
  datatype Conversation = Conversation(id: int, projectId: int, title: string, updatedAt: int)

  /** The conversation table: rows in insertion order and the next value of
      the auto-increment key. */
  datatype Store = Store(rows: seq<Conversation>, nextId: int)

  function Ids(st: Store): set<int> {
    set c | c in st.rows :: c.id
  }

  ghost predicate DistinctIds(rows: seq<Conversation>) {
    forall i, j :: 0 <= i < j < |rows| ==> rows[i].id != rows[j].id
  }

  /** Primary keys are unique and below the next key to hand out. */
  ghost predicate Valid(st: Store) {
    && st.nextId >= 1
    && (forall i :: 0 <= i < |st.rows| ==> 1 <= st.rows[i].id < st.nextId)
    && DistinctIds(st.rows)
  }

  const Empty: Store := Store([], 1)

  lemma EmptyValid()
    ensures Valid(Empty) && Ids(Empty) == {}
  {
  }

  const MaxTitle: nat := 50
  const DefaultTitle: string := "New Conversation"

  /** `generate_title_from_message`: the stripped message, cut to 47
      characters plus "..." when longer than 50, or "New Conversation"
      when nothing is left. */
  function GenerateTitle(message: string): (r: string)
    ensures |r| <= MaxTitle
    ensures r != "" && Trimmed(r)
    ensures 0 < |Strip(message)| <= MaxTitle ==> r == Strip(message)
    ensures |Strip(message)| > MaxTitle ==> r == Strip(message)[..47] + "..."
    ensures AllSpace(message) ==> r == DefaultTitle
  {
    var t := Strip(message);
    var title := if |t| > MaxTitle then t[..47] + "..." else t;
    assert |t| > MaxTitle ==> title[0] == t[0];
    if title != "" then title else DefaultTitle
  }

  /** A generated title is its own title: deriving a title twice changes
      nothing. */
  lemma GenerateTitleIdempotent(message: string)
    ensures GenerateTitle(GenerateTitle(message)) == GenerateTitle(message)
  {
    var r := GenerateTitle(message);
    assert "" + r + "" == r;
    StripOfPadded("", r, "");
  }

  const ThreadPrefix: string := "conversation_"

  /** `get_thread_id`: the checkpointer key of a conversation. */
  function ThreadId(conversationId: int): (r: string)
    ensures StartsWith(r, ThreadPrefix)
    ensures r[|ThreadPrefix|..] == IntToString(conversationId)
  {
    ThreadPrefix + IntToString(conversationId)
  }

  /** Distinct conversations never share a checkpointer thread. */
  lemma ThreadIdInjective(a: int, b: int)
    ensures ThreadId(a) == ThreadId(b) <==> a == b
  {
    if ThreadId(a) == ThreadId(b) {
      assert ThreadId(a)[|ThreadPrefix|..] == ThreadId(b)[|ThreadPrefix|..];
      IntToStringInjective(a, b);
    }
  }

  /** `create_conversation`: a new row with the next key, stamped by the
      database clock `now`. */
  function Create(st: Store, projectId: int, now: int, title: string := "Novo chat"): (r: (Store, Conversation))
    requires Valid(st)
    ensures Valid(r.0)
    ensures r.1.id !in Ids(st)
    ensures r.1.projectId == projectId && r.1.title == title && r.1.updatedAt == now
    ensures r.0.rows == st.rows + [r.1]
    ensures Get(r.0, r.1.id) == Some(r.1)
  {
    var c := Conversation(st.nextId, projectId, title, now);
    var st' := Store(st.rows + [c], st.nextId + 1);
    assert st'.rows[|st.rows|] == c;
    (st', c)
  }

  /** `get_conversation`: the row with that key, if any. */
  function Get(st: Store, id: int): (r: Option<Conversation>)
    ensures r.None? <==> id !in Ids(st)
    ensures r.Some? ==> r.value in st.rows && r.value.id == id
    decreases |st.rows|
  {
    if |st.rows| == 0 then None
    else if st.rows[0].id == id then Some(st.rows[0])
    else
      var rest := Store(st.rows[1..], st.nextId);
      assert st.rows == [st.rows[0]] + rest.rows;
      assert Ids(st) == {st.rows[0].id} + Ids(rest);
      Get(rest, id)
  }

  /** With unique keys, the row at position `i` is what `Get` finds. */
  lemma GetFinds(st: Store, i: nat)
    requires Valid(st) && i < |st.rows|
    ensures Get(st, st.rows[i].id) == Some(st.rows[i])
  {
    var r := Get(st, st.rows[i].id);
    var j :| 0 <= j < |st.rows| && st.rows[j] == r.value;
    assert j == i;
  }

  /** The project's rows in table order. */
  function ProjectRows(rows: seq<Conversation>, projectId: int): (r: seq<Conversation>)
    ensures forall c :: c in r <==> c in rows && c.projectId == projectId
    ensures |r| <= |rows|
  {
    if |rows| == 0 then []
    else
      var rest := ProjectRows(rows[1..], projectId);
      assert forall c :: c in rows <==> c == rows[0] || c in rows[1..];
      if rows[0].projectId == projectId then [rows[0]] + rest else rest
  }

  function UpdatedKey(c: Conversation): real {
    c.updatedAt as real
  }

  /** `list_conversations`: the project's conversations newest first, then
      `OFFSET offset LIMIT limit`. A negative limit or offset is rejected by
      the database. */
  function List(st: Store, projectId: int, limit: int := 50, offset: int := 0): (r: Result<seq<Conversation>, string>)
    ensures r.Success? <==> limit >= 0 && offset >= 0
    ensures r.Success? ==> forall c :: c in r.value ==> c in st.rows && c.projectId == projectId
    ensures r.Success? ==> SortedDesc(r.value, UpdatedKey)
    ensures r.Success? ==> |r.value| <= limit
    ensures r.Success? ==> exists s ::
      && SortedDesc(s, UpdatedKey)
      && multiset(s) == multiset(ProjectRows(st.rows, projectId))
      && r.value == Page(s, offset, limit)
  {
    if limit < 0 then Failure("LIMIT must not be negative")
    else if offset < 0 then Failure("OFFSET must not be negative")
    else
      var s := SortDesc(ProjectRows(st.rows, projectId), UpdatedKey);
      var page := Page(s, offset, limit);
      assert forall c :: c in page ==> c in s by {
        forall c | c in page ensures c in s {
          var k :| 0 <= k < |page| && page[k] == c;
          assert s[offset + k] == c;
        }
      }
      assert forall c :: c in s ==> c in multiset(ProjectRows(st.rows, projectId));
      assert SortedDesc(page, UpdatedKey) by {
        forall i, j | 0 <= i < j < |page| ensures UpdatedKey(page[i]) >= UpdatedKey(page[j]) {
          assert page[i] == s[offset + i] && page[j] == s[offset + j];
        }
      }
      Success(page)
  }

  /** A window that covers the whole project returns every one of its
      conversations exactly once. */
  lemma ListAll(st: Store, projectId: int, limit: int)
    requires limit >= |ProjectRows(st.rows, projectId)|
    ensures List(st, projectId, limit, 0).Success?
    ensures multiset(List(st, projectId, limit, 0).value) == multiset(ProjectRows(st.rows, projectId))
  {
    var r := List(st, projectId, limit, 0).value;
    var s :| SortedDesc(s, UpdatedKey)
      && multiset(s) == multiset(ProjectRows(st.rows, projectId))
      && r == Page(s, 0, limit);
    assert |s| == |ProjectRows(st.rows, projectId)| by {
      assert |multiset(s)| == |s|;
      assert |multiset(ProjectRows(st.rows, projectId))| == |ProjectRows(st.rows, projectId)|;
    }
    assert r == s;
  }

  function Retitle(c: Conversation, id: int, title: string, now: int): Conversation {
    if c.id == id then c.(title := title, updatedAt := now) else c
  }

  /** `update_conversation_title`: `None` and no change when the key is
      missing; otherwise the row gets the new title and `updated_at := now`. */
  function UpdateTitle(st: Store, id: int, title: string, now: int): (r: (Store, Option<Conversation>))
    requires Valid(st)
    ensures Valid(r.0)
    ensures id !in Ids(st) ==> r == (st, None)
    ensures id in Ids(st) ==> r.1 == Some(Get(st, id).value.(title := title, updatedAt := now))
    ensures id in Ids(st) ==> Get(r.0, id) == r.1
    ensures r.0.nextId == st.nextId && |r.0.rows| == |st.rows|
    ensures forall i :: 0 <= i < |st.rows| ==>
      r.0.rows[i].id == st.rows[i].id && r.0.rows[i].projectId == st.rows[i].projectId
    ensures forall i :: 0 <= i < |st.rows| && st.rows[i].id != id ==> r.0.rows[i] == st.rows[i]
  {
    if id !in Ids(st) then (st, None)
    else
      var c := Get(st, id).value;
      RetitleFound(st, id, title, now);
      (Store(RetitleAll(st.rows, id, title, now), st.nextId), Some(c.(title := title, updatedAt := now)))
  }

  /** Retitling an existing key keeps the table valid, and the row found
      under that key afterwards is the retitled one. */
  lemma RetitleFound(st: Store, id: int, title: string, now: int)
    requires Valid(st) && id in Ids(st)
    ensures Valid(Store(RetitleAll(st.rows, id, title, now), st.nextId))
    ensures Get(Store(RetitleAll(st.rows, id, title, now), st.nextId), id)
         == Some(Get(st, id).value.(title := title, updatedAt := now))
  {
    var c := Get(st, id).value;
    var st' := Store(RetitleAll(st.rows, id, title, now), st.nextId);
    RetitleAllValid(st, id, title, now);
    var i :| 0 <= i < |st.rows| && st.rows[i] == c;
    assert st'.rows[i] == c.(title := title, updatedAt := now);
    GetFinds(st', i);
  }

  /** Every row passed through `Retitle`. */
  function RetitleAll(rows: seq<Conversation>, id: int, title: string, now: int): (r: seq<Conversation>)
    ensures |r| == |rows|
    ensures forall i :: 0 <= i < |rows| ==> r[i] == Retitle(rows[i], id, title, now)
  {
    seq(|rows|, i requires 0 <= i < |rows| => Retitle(rows[i], id, title, now))
  }

  /** Retitling keeps every key, so the table stays valid. */
  lemma RetitleAllValid(st: Store, id: int, title: string, now: int)
    requires Valid(st)
    ensures Valid(Store(RetitleAll(st.rows, id, title, now), st.nextId))
  {
    var rows := RetitleAll(st.rows, id, title, now);
    assert forall i :: 0 <= i < |rows| ==> rows[i].id == st.rows[i].id;
  }

  /** The rows whose key is not `id`, in table order. */
  function Without(rows: seq<Conversation>, id: int): (r: seq<Conversation>)
    ensures forall c :: c in r <==> c in rows && c.id != id
    ensures DistinctIds(rows) ==> DistinctIds(r)
  {
    if |rows| == 0 then []
    else
      var rest := Without(rows[1..], id);
      assert forall c :: c in rows <==> c == rows[0] || c in rows[1..];
      if rows[0].id == id then rest
      else
        var r := [rows[0]] + rest;
        assert DistinctIds(rows) ==> DistinctIds(r) by {
          if DistinctIds(rows) {
            assert DistinctIds(rows[1..]);
            forall j | 0 < j < |r| ensures r[0].id != r[j].id {
              assert r[j] in rest;
              var k :| 0 <= k < |rows| && rows[k] == r[j];
              assert k != 0;
            }
          }
        }
        r
  }

  /** `delete_conversation`: every row with that key is removed; the result
      says whether there was one. */
  function Delete(st: Store, id: int): (r: (Store, bool))
    requires Valid(st)
    ensures Valid(r.0)
    ensures r.1 <==> id in Ids(st)
    ensures Get(r.0, id).None?
    ensures Ids(r.0) == Ids(st) - {id}
    ensures forall c :: c in r.0.rows <==> c in st.rows && c.id != id
  {
    var rows := Without(st.rows, id);
    var st' := Store(rows, st.nextId);
    assert forall i :: 0 <= i < |rows| ==> 1 <= rows[i].id < st.nextId by {
      forall i | 0 <= i < |rows| ensures 1 <= rows[i].id < st.nextId {
        assert rows[i] in st.rows;
      }
    }
    (st', id in Ids(st))
  }
}

=== FILE: file_content_service.dfy ===
/** backend/app/services/file_content_service.py: storing chunks, the
    vector search over a project's chunks and the text block handed to the
    language model. Similarity is an opaque score per row (the embedder and
    the cosine distance are not modelled); its percentage rendering is an
    opaque function. */
module FileContentService {
  import opened Wrappers
  import opened Text
  import opened Listing
  import opened Models

  /** `bulk_create`: an empty list is a no-op returning 0; otherwise one
      insert of every record, returning how many there were. */
  function BulkCreate(db: Db, recs: seq<FileRecord>, now: int): (r: (Db, Result<nat, string>))
    requires Valid(db)
    ensures Valid(r.0)
    ensures |recs| == 0 ==> r == (db, Success(0))
    ensures |recs| > 0 && InsertFiles(db, recs, now).Success? ==>
      r == (InsertFiles(db, recs, now).value, Success(|recs|))
    ensures r.1.Failure? ==> r.0 == db
    ensures r.1.Success? ==> r.0.files == db.files + FileRows(recs, db.nextFile, now)
  {
    if |recs| == 0 then (db, Success(0))
    else
      match InsertFiles(db, recs, now)
      case Success(db') => (db', Success(|recs|))
      case Failure(e) => (db, Failure(e))
  }

  /** What a caller of `bulk_create` gets back counts the rows that appeared. */
  lemma BulkCreateCounts(db: Db, recs: seq<FileRecord>, now: int)
    requires Valid(db)
    ensures var (db', n) := BulkCreate(db, recs, now);
      n.Success? ==> |db'.files| == |db.files| + n.value
  {
  }

  /** One search hit as `_format_result` shapes it. */
  datatype Hit = Hit(id: int, content: string, metadata: Metadata, similarityScore: real)

  /** `_format_result`: id and content copied, `file_metadata` moved to
      `metadata`, the score attached. */
  function FormatResult(row: FileContent, score: real): (h: Hit)
    ensures h.id == row.id && h.content == row.content && h.metadata == row.metadata
    ensures h.similarityScore == score
  {
    Hit(row.id, row.content, row.metadata, score)
  }

  const EmptyQuery: string := "Query cannot be empty"

  /** The keys of the project's stored chunks. */
  function ProjectFileIds(db: Db, projectId: int): set<int> {
    set f | f in db.files && f.projectId == projectId :: f.id
  }

  /** The rows the `WHERE` clause admits. */
  function Candidates(db: Db, projectId: int, sim: FileContent -> real, threshold: Option<real>): (r: seq<FileContent>)
    ensures forall f :: f in r <==> f in db.files && f.projectId == projectId && (threshold.Some? ==> sim(f) >= threshold.value)
  {
    Filter(db.files, (f: FileContent) => f.projectId == projectId && (threshold.Some? ==> sim(f) >= threshold.value))
  }

  /** The first `k` elements of a descending sort of `s` are `k` elements
      of `s`, and an element of `s` left out scores no higher than any
      element kept. */
  lemma SortedPrefixIsTop<T>(s: seq<T>, sorted: seq<T>, k: nat, key: T -> real)
    requires SortedDesc(sorted, key) && multiset(sorted) == multiset(s) && k <= |sorted|
    ensures multiset(sorted[..k]) <= multiset(s)
    ensures forall i :: 0 <= i < k ==> sorted[..k][i] in s
    ensures forall x, i :: x in s && 0 <= i < k && key(x) > key(sorted[..k][i]) ==> x in sorted[..k]
  {
    var rows := sorted[..k];
    assert sorted == rows + sorted[k..];
    assert multiset(sorted) == multiset(rows) + multiset(sorted[k..]);
    forall i | 0 <= i < k ensures rows[i] in s {
      assert rows[i] in multiset(rows);
      assert rows[i] in multiset(s);
    }
    forall x, i | x in s && 0 <= i < k && key(x) > key(rows[i]) ensures x in rows {
      assert x in multiset(sorted);
      var j :| 0 <= j < |sorted| && sorted[j] == x;
      assert rows[i] == sorted[i];
      assert key(sorted[j]) > key(sorted[i]);
      assert j <= i;
      assert rows[j] == x;
    }
  }

  /** The candidates by descending similarity, cut to `limit`: the `limit`
      best rows, or all of them when there are fewer. */
  function Ranked(db: Db, projectId: int, sim: FileContent -> real, threshold: Option<real>, limit: nat)
    : (rows: seq<FileContent>)
    ensures |rows| == if limit < |Candidates(db, projectId, sim, threshold)| then limit
                      else |Candidates(db, projectId, sim, threshold)|
    ensures multiset(rows) <= multiset(Candidates(db, projectId, sim, threshold))
    ensures forall i :: 0 <= i < |rows| ==> rows[i] in Candidates(db, projectId, sim, threshold)
    ensures SortedDesc(rows, sim)
    ensures forall f, i ::
      (f in Candidates(db, projectId, sim, threshold) && 0 <= i < |rows| && sim(f) > sim(rows[i])) ==> f in rows
  {
    var c := Candidates(db, projectId, sim, threshold);
    var sorted := SortDesc(c, sim);
    var k := if limit < |sorted| then limit else |sorted|;
    SortedPrefixIsTop(c, sorted, k, sim);
    sorted[..k]
  }

  /** `_format_result` applied to each ranked row with its score. */
  function Hits(top: seq<FileContent>, sim: FileContent -> real): (hits: seq<Hit>)
    ensures |hits| == |top|
    ensures forall i :: 0 <= i < |top| ==> hits[i] == FormatResult(top[i], sim(top[i]))
  {
    seq(|top|, i requires 0 <= i < |top| => FormatResult(top[i], sim(top[i])))
  }

  /** Shaping keeps the top-k property: a candidate scoring above some hit
      is itself a hit. */
  lemma HitsTop(c: seq<FileContent>, top: seq<FileContent>, sim: FileContent -> real)
    requires forall f, i :: (f in c && 0 <= i < |top| && sim(f) > sim(top[i])) ==> f in top
    ensures forall f, i ::
      (f in c && 0 <= i < |top| && sim(f) > Hits(top, sim)[i].similarityScore) ==> FormatResult(f, sim(f)) in Hits(top, sim)
  {
    var hits := Hits(top, sim);
    forall f, i | f in c && 0 <= i < |hits| && sim(f) > hits[i].similarityScore
      ensures FormatResult(f, sim(f)) in hits
    {
      assert sim(f) > sim(top[i]);
      var j :| 0 <= j < |top| && top[j] == f;
      assert hits[j] == FormatResult(f, sim(f));
    }
  }

  /** Hits built from candidate rows belong to the project and clear the
      threshold. */
  lemma HitsOfCandidates(db: Db, projectId: int, sim: FileContent -> real, threshold: Option<real>, top: seq<FileContent>)
    requires forall i :: 0 <= i < |top| ==> top[i] in Candidates(db, projectId, sim, threshold)
    ensures forall i :: 0 <= i < |top| ==>
      Hits(top, sim)[i].id in ProjectFileIds(db, projectId)
    ensures forall i :: 0 <= i < |top| ==>
      threshold.Some? ==> Hits(top, sim)[i].similarityScore >= threshold.value
  {
    var hits := Hits(top, sim);
    forall i | 0 <= i < |top| ensures hits[i].id in ProjectFileIds(db, projectId) {
      assert top[i] in Candidates(db, projectId, sim, threshold);
      assert hits[i].id == top[i].id;
    }
    forall i | 0 <= i < |top| ensures threshold.Some? ==> hits[i].similarityScore >= threshold.value {
      assert top[i] in Candidates(db, projectId, sim, threshold);
    }
  }

  /** `search_similar`: a blank query is rejected before anything else
      happens; otherwise the project's rows (at or above the threshold when
      one is given) by descending similarity, the `limit` best of them, each
      shaped by `_format_result`. */
  function SearchSimilar(db: Db, query: string, projectId: int, sim: FileContent -> real,
                         limit: int := 2, threshold: Option<real> := None): (r: Result<seq<Hit>, string>)
    ensures AllSpace(query) ==> r == Failure(EmptyQuery)
    ensures r.Success? <==> !AllSpace(query) && limit >= 0
    ensures r.Success? ==>
      |r.value| == if limit < |Candidates(db, projectId, sim, threshold)| then limit
                   else |Candidates(db, projectId, sim, threshold)|
    ensures r.Success? ==> forall i :: 0 <= i < |r.value| ==>
      r.value[i] == FormatResult(Ranked(db, projectId, sim, threshold, limit)[i], sim(Ranked(db, projectId, sim, threshold, limit)[i]))
    ensures r.Success? ==> forall i :: 0 <= i < |r.value| ==>
      r.value[i].id in ProjectFileIds(db, projectId)
    ensures r.Success? ==> forall i :: 0 <= i < |r.value| ==>
      threshold.Some? ==> r.value[i].similarityScore >= threshold.value
    ensures r.Success? ==> forall i, j :: 0 <= i < j < |r.value| ==> r.value[i].similarityScore >= r.value[j].similarityScore
    ensures r.Success? ==> forall f, i ::
      (f in Candidates(db, projectId, sim, threshold) && 0 <= i < |r.value| && sim(f) > r.value[i].similarityScore)
      ==> FormatResult(f, sim(f)) in r.value
  {
    if AllSpace(query) then Failure(EmptyQuery)
    else if limit < 0 then Failure("Database error: LIMIT must not be negative")
    else
      var top := Ranked(db, projectId, sim, threshold, limit);
      var hits := Hits(top, sim);
      HitsOfCandidates(db, projectId, sim, threshold, top);
      HitsTop(Candidates(db, projectId, sim, threshold), top, sim);
      Success(hits)
  }

  const NoContent: string := "Nenhum conteúdo relevante encontrado."
  const Separator: string := "\n---\n"

  /** `metadata.get('filename', 'unknown')`. */
  function FileName(m: Metadata): (r: string)
    ensures "filename" !in m ==> r == "unknown"
    ensures "filename" in m ==> r == m["filename"]
  {
    if "filename" in m then m["filename"] else "unknown"
  }

  /** The block for the `index`-th hit (counting from 1): a label line and
      a file line, then the similarity line, where `pct` renders the score
      as a percentage with two decimals, and the content under its own
      heading. */
  function Block(index: nat, h: Hit, pct: real -> string): (r: string)
    ensures StartsWith(r, "[Documento " + NatToString(index) + "]\nArquivo: " + FileName(h.metadata) + "\n")
    ensures EndsWith(r, "Similaridade: " + pct(h.similarityScore) + "\nConteúdo:\n" + h.content + "\n")
    ensures |r| == |"[Documento " + NatToString(index) + "]\nArquivo: " + FileName(h.metadata) + "\n"|
                 + |"Similaridade: " + pct(h.similarityScore) + "\nConteúdo:\n" + h.content + "\n"|
  {
    var head := "[Documento " + NatToString(index) + "]\nArquivo: " + FileName(h.metadata) + "\n";
    var tail := "Similaridade: " + pct(h.similarityScore) + "\nConteúdo:\n" + h.content + "\n";
    var r := head + tail;
    assert r[..|head|] == head;
    assert r[|r| - |tail|..] == tail;
    r
  }

  /** The blocks for `hits`, labelled from `from` on. */
  function Blocks(hits: seq<Hit>, pct: real -> string, from: nat := 1): (bs: seq<string>)
    ensures |bs| == |hits|
    ensures forall i :: 0 <= i < |hits| ==> bs[i] == Block(from + i, hits[i], pct)
  {
    seq(|hits|, i requires 0 <= i < |hits| => Block(from + i, hits[i], pct))
  }

  /** `format_for_llm`: the "nothing found" text for no hits; otherwise the
      numbered blocks joined by separators, so the text opens with the first
      block and holds every hit's block. */
  function FormatForLlm(hits: seq<Hit>, pct: real -> string): (r: string)
    ensures |hits| == 0 ==> r == NoContent
    ensures |hits| == 1 ==> r == Block(1, hits[0], pct)
    ensures |hits| > 0 ==> StartsWith(r, Block(1, hits[0], pct))
    ensures forall i :: 0 <= i < |hits| ==> Contains(r, Block(i + 1, hits[i], pct))
  {
    if |hits| == 0 then NoContent
    else
      var bs := Blocks(hits, pct);
      var r := Join(bs, Separator);
      JoinStartsWith(bs, Separator);
      forall i | 0 <= i < |hits| ensures Contains(r, Block(i + 1, hits[i], pct)) {
        JoinContains(bs, Separator, i);
      }
      r
  }

  lemma {:induction false} JoinStartsWith(parts: seq<string>, sep: string)
    requires |parts| > 0
    ensures StartsWith(Join(parts, sep), parts[0])
  {
    if |parts| > 1 {
      assert Join(parts, sep) == parts[0] + (sep + Join(parts[1..], sep));
    }
  }

  /** A non-empty result opens with the first block's label, so it is never
      the "nothing found" text. */
  lemma FormatForLlmLabelled(hits: seq<Hit>, pct: real -> string)
    requires |hits| > 0
    ensures StartsWith(FormatForLlm(hits, pct), "[Documento 1]\n")
    ensures FormatForLlm(hits, pct) != NoContent
  {
    var bs := Blocks(hits, pct);
    var r := FormatForLlm(hits, pct);
    JoinStartsWith(bs, Separator);
    var head := "[Documento " + NatToString(1) + "]\nArquivo: " + FileName(hits[0].metadata) + "\n";
    assert NatToString(1) == "1";
    assert head[..14] == "[Documento 1]\n";
    assert r[..14] == bs[0][..14] == head[..14];
    assert r[0] == '[';
  }

  /** One more hit adds a separator and its block, numbered after the
      others; the earlier text is untouched. */
  lemma FormatForLlmSnoc(hits: seq<Hit>, h: Hit, pct: real -> string)
    requires |hits| > 0
    ensures FormatForLlm(hits + [h], pct) == FormatForLlm(hits, pct) + Separator + Block(|hits| + 1, h, pct)
  {
    assert Blocks(hits + [h], pct) == Blocks(hits, pct) + [Block(|hits| + 1, h, pct)];
    JoinSnoc(Blocks(hits, pct), Block(|hits| + 1, h, pct), Separator);
  }

  /** Every hit's content reaches the text the model reads. */
  lemma FormatForLlmShowsContent(hits: seq<Hit>, pct: real -> string, i: nat)
    requires i < |hits|
    ensures Contains(FormatForLlm(hits, pct), hits[i].content)
  {
    var h := hits[i];
    var b := Block(i + 1, h, pct);
    var pre := "Similaridade: " + pct(h.similarityScore) + "\nConteúdo:\n";
    var tail := pre + h.content + "\n";
    assert (h.content + "\n")[..|h.content|] == h.content;
    assert tail == pre + (h.content + "\n");
    ContainsAppend(pre, h.content + "\n", h.content);
    ContainsSuffix(b, tail);
    ContainsTrans(b, tail, h.content);
    ContainsTrans(FormatForLlm(hits, pct), b, h.content);
  }

  /** A hit without a filename is shown as coming from 'unknown'. */
  lemma MissingFileName(index: nat, h: Hit, pct: real -> string)
    requires "filename" !in h.metadata
    ensures StartsWith(Block(index, h, pct), "[Documento " + NatToString(index) + "]\nArquivo: unknown\n")
  {
  }
}

=== FILE: json.dfy ===
/** The JSON values the stream frames carry and their text form as Python's
    `json.dumps(data, ensure_ascii=False)` writes it: `", "` between items,
    `": "` after keys, keys in insertion order, and strings escaped so that
    no control character survives. Floating-point numbers do not occur in
    the frames and are not modelled. */
module Json {
  import opened Text
  import opened Wrappers

  datatype Json =
    | JNull
    | JBool(b: bool)
    | JInt(i: int)
    | JStr(s: string)
    | JArr(items: seq<Json>)
    | JObj(members: seq<(string, Json)>)

  const Hex: string := "0123456789abcdef"

  /** How one character of a string is written inside the quotes. */
  function EscapeChar(c: char): string {
    if c == '"' then "\\\""
    else if c == '\\' then "\\\\"
    else if c == '\n' then "\\n"
    else if c == '\r' then "\\r"
    else if c == '\t' then "\\t"
    else if c == '\U{8}' then "\\b"
    else if c == '\U{C}' then "\\f"
    else if c < ' ' then "\\u00" + [Hex[c as int / 16], Hex[c as int % 16]]
    else [c]
  }

  /** The body of a JSON string literal for `s`. */
  function Escape(s: string): string {
    if |s| == 0 then "" else EscapeChar(s[0]) + Escape(s[1..])
  }

  /** No character below U+0020: in particular no raw newline. */
  predicate Printable(s: string) {
    forall i :: 0 <= i < |s| ==> s[i] >= ' '
  }

  lemma PrintableAppend(a: string, b: string)
    requires Printable(a) && Printable(b)
    ensures Printable(a + b)
  {
    assert forall i :: 0 <= i < |a + b| ==> (a + b)[i] == if i < |a| then a[i] else b[i - |a|];
  }

  /** One escaped character holds no control character. */
  lemma EscapeCharPrintable(c: char)
    ensures Printable(EscapeChar(c))
  {
    if c < ' ' && c != '\n' && c != '\r' && c != '\t' && c != '\U{8}' && c != '\U{C}' {
      assert forall k :: 0 <= k < |Hex| ==> Hex[k] >= ' ';
    }
  }

  lemma {:induction false} EscapePrintable(s: string)
    ensures Printable(Escape(s))
  {
    if |s| > 0 {
      EscapePrintable(s[1..]);
      EscapeCharPrintable(s[0]);
      assert Escape(s) == EscapeChar(s[0]) + Escape(s[1..]);
      PrintableAppend(EscapeChar(s[0]), Escape(s[1..]));
    } else {
      assert Escape(s) == "";
    }
  }

  function HexValue(c: char): Option<nat> {
    if '0' <= c <= '9' then Some(c as int - '0' as int)
    else if 'a' <= c <= 'f' then Some(c as int - 'a' as int + 10)
    else if 'A' <= c <= 'F' then Some(c as int - 'A' as int + 10)
    else None
  }

  /** The value of four hexadecimal digits, or None. */
  function Hex4(h: string): Option<nat>
    requires |h| == 4
  {
    match (HexValue(h[0]), HexValue(h[1]), HexValue(h[2]), HexValue(h[3]))
    case (Some(a), Some(b), Some(c), Some(d)) => Some(((a * 16 + b) * 16 + c) * 16 + d)
    case _ => None
  }

  /** A JSON string-literal body decoder (RFC 8259 section 7, without
      surrogate pairs): the partner of `Escape`. */
  function Unescape(e: string): Option<string>
    decreases |e|
  {
    if |e| == 0 then Some("")
    else if e[0] != '\\' then
      match Unescape(e[1..])
      case Some(t) => Some([e[0]] + t)
      case None => None
    else if |e| < 2 then None
    else
      var d := e[1];
      var simple :=
        if d == '"' then Some('"') else if d == '\\' then Some('\\')
        else if d == '/' then Some('/')
        else if d == 'n' then Some('\n') else if d == 'r' then Some('\r')
        else if d == 't' then Some('\t') else if d == 'b' then Some('\U{8}')
        else if d == 'f' then Some('\U{C}') else None;
      if simple.Some? then
        match Unescape(e[2..])
        case Some(t) => Some([simple.value] + t)
        case None => None
      else if d == 'u' && |e| >= 6 then
        match Hex4(e[2..6])
        case Some(v) =>
          if 0 <= v < 0xD800 || 0xE000 <= v < 0x11_0000 then
            match Unescape(e[6..])
            case Some(t) => Some([v as char] + t)
            case None => None
          else None
        case None => None
      else None
  }

  lemma UnescapeOneChar(c: char, rest: string, t: string)
    requires Unescape(rest) == Some(t)
    ensures Unescape(EscapeChar(c) + rest) == Some([c] + t)
  {
    var e := EscapeChar(c) + rest;
    if c < ' ' && c != '\n' && c != '\r' && c != '\t' && c != '\U{8}' && c != '\U{C}' {
      var hi := Hex[c as int / 16];
      var lo := Hex[c as int % 16];
      assert e == ['\\', 'u', '0', '0', hi, lo] + rest;
      assert e[2..6] == ['0', '0', hi, lo];
      assert e[6..] == rest;
      assert HexValue(hi) == Some(c as int / 16);
      assert HexValue(lo) == Some(c as int % 16);
      assert Hex4(e[2..6]) == Some(c as int);
    } else if |EscapeChar(c)| == 2 {
      assert e[2..] == rest;
    } else {
      assert e[1..] == rest;
    }
  }

  /** Decoding an escaped string gives the string back. */
  lemma {:induction false} UnescapeEscape(s: string)
    ensures Unescape(Escape(s)) == Some(s)
  {
    if |s| > 0 {
      UnescapeEscape(s[1..]);
      UnescapeOneChar(s[0], Escape(s[1..]), s[1..]);
      assert [s[0]] + s[1..] == s;
    }
  }

  /** A JSON string literal. */
  function Quote(s: string): string {
    "\"" + Escape(s) + "\""
  }

  /** `json.dumps` of a value. */
  function Serialize(j: Json): string {
    match j
    case JNull => "null"
    case JBool(b) => if b then "true" else "false"
    case JInt(i) => IntToString(i)
    case JStr(s) => Quote(s)
    case JArr(items) =>
      "[" + Join(seq(|items|, k requires 0 <= k < |items| => Serialize(items[k])), ", ") + "]"
    case JObj(ms) =>
      "{" + Join(seq(|ms|, k requires 0 <= k < |ms| => Quote(ms[k].0) + ": " + Serialize(ms[k].1)), ", ") + "}"
  }

  lemma {:induction false} JoinPrintable(parts: seq<string>, sep: string)
    requires Printable(sep)
    requires forall k :: 0 <= k < |parts| ==> Printable(parts[k])
    ensures Printable(Join(parts, sep))
    decreases |parts|
  {
    if |parts| > 1 {
      JoinPrintable(parts[1..], sep);
      PrintableAppend(parts[0], sep);
      PrintableAppend(parts[0] + sep, Join(parts[1..], sep));
    }
  }

  lemma QuotePrintable(s: string)
    ensures Printable(Quote(s))
  {
    EscapePrintable(s);
    PrintableAppend("\"", Escape(s));
    PrintableAppend("\"" + Escape(s), "\"");
  }

  /** Serialised JSON never contains a control character, so never a raw
      newline: it fits on one line of an event stream. */
  lemma {:induction false} SerializePrintable(j: Json)
    ensures Printable(Serialize(j))
  {
    match j
    case JNull =>
    case JBool(b) =>
    case JInt(i) =>
      var digits := NatToString(if i < 0 then -i else i);
      assert Printable(digits) by {
        forall k | 0 <= k < |digits| ensures digits[k] >= ' ' {
          assert IsDigit(digits[k]);
        }
      }
      if i < 0 { PrintableAppend("-", digits); }
    case JStr(s) => QuotePrintable(s);
    case JArr(items) =>
      var parts := seq(|items|, k requires 0 <= k < |items| => Serialize(items[k]));
      forall k | 0 <= k < |items| ensures Printable(parts[k]) {
        SerializePrintable(items[k]);
      }
      JoinPrintable(parts, ", ");
      PrintableAppend("[", Join(parts, ", "));
      PrintableAppend("[" + Join(parts, ", "), "]");
    case JObj(ms) =>
      var parts := seq(|ms|, k requires 0 <= k < |ms| => Quote(ms[k].0) + ": " + Serialize(ms[k].1));
      forall k | 0 <= k < |ms| ensures Printable(parts[k]) {
        SerializePrintable(ms[k].1);
        QuotePrintable(ms[k].0);
        PrintableAppend(Quote(ms[k].0), ": ");
        PrintableAppend(Quote(ms[k].0) + ": ", Serialize(ms[k].1));
      }
      JoinPrintable(parts, ", ");
      PrintableAppend("{", Join(parts, ", "));
      PrintableAppend("{" + Join(parts, ", "), "}");
  }
}

=== FILE: listing.dfy ===
/** Ordering and paging of query results: `ORDER BY key DESC` as a stable
    insertion sort on `seq`, and SQL's `OFFSET`/`LIMIT` window. */
module Listing {
  import opened Wrappers

  /** Every earlier element has a key at least as large as every later one. */
  ghost predicate SortedDesc<T>(s: seq<T>, key: T -> real) {
    forall i, j :: 0 <= i < j < |s| ==> key(s[i]) >= key(s[j])
  }

  /** A head whose key bounds a sorted tail's keys keeps it sorted. */
  lemma SortedCons<T>(h: T, t: seq<T>, key: T -> real)
    requires SortedDesc(t, key)
    requires forall k :: 0 <= k < |t| ==> key(h) >= key(t[k])
    ensures SortedDesc([h] + t, key)
  {
    var r := [h] + t;
    forall i, j | 0 <= i < j < |r| ensures key(r[i]) >= key(r[j]) {
      assert r[j] == t[j - 1];
      if i > 0 { assert r[i] == t[i - 1]; }
    }
  }

  /** Elements drawn from a sorted tail, or `x` itself, have keys no
      larger than the head's when `x`'s is not. */
  lemma HeadBounds<T>(x: T, s: seq<T>, t: seq<T>, key: T -> real)
    requires SortedDesc(s, key) && |s| > 0 && key(x) <= key(s[0])
    requires forall k :: 0 <= k < |t| ==> t[k] == x || t[k] in s[1..]
    ensures forall k :: 0 <= k < |t| ==> key(s[0]) >= key(t[k])
  {
    forall k | 0 <= k < |t| ensures key(s[0]) >= key(t[k]) {
      if t[k] != x {
        var m :| 0 <= m < |s[1..]| && s[1..][m] == t[k];
        assert s[1 + m] == t[k];
      }
    }
  }

  /** Inserts `x` after every element whose key is at least `x`'s. */
  function InsertDesc<T>(x: T, s: seq<T>, key: T -> real): (r: seq<T>)
    requires SortedDesc(s, key)
    ensures SortedDesc(r, key)
    ensures multiset(r) == multiset(s) + multiset{x}
    ensures |r| == |s| + 1
    ensures forall k :: 0 <= k < |r| ==> r[k] == x || r[k] in s
  {
    if |s| == 0 then [x]
    else if key(x) > key(s[0]) then
      SortedCons(x, s, key);
      [x] + s
    else
      var t := InsertDesc(x, s[1..], key);
      HeadBounds(x, s, t, key);
      SortedCons(s[0], t, key);
      var r := [s[0]] + t;
      assert s == [s[0]] + s[1..];
      assert multiset(r) == multiset{s[0]} + multiset(t);
      assert forall k :: 0 <= k < |r| ==> r[k] == x || r[k] in s by {
        forall k | 0 <= k < |r| ensures r[k] == x || r[k] in s {
          if k > 0 { assert r[k] == t[k - 1]; }
        }
      }
      r
  }

  /** Python's `sorted(s, key=key, reverse=True)` / SQL `ORDER BY key DESC`:
      a permutation of `s` in non-increasing key order. */
  function SortDesc<T>(s: seq<T>, key: T -> real): (r: seq<T>)
    ensures SortedDesc(r, key)
    ensures multiset(r) == multiset(s)
    ensures |r| == |s|
  {
    if |s| == 0 then []
    else
      var init := s[..|s| - 1];
      assert s == init + [s[|s| - 1]];
      InsertDesc(s[|s| - 1], SortDesc(init, key), key)
  }

  /** SQL `OFFSET offset LIMIT limit`: skip `offset` rows, keep at most `limit`. */
  function Page<T>(s: seq<T>, offset: nat, limit: nat): (r: seq<T>)
    ensures |r| == if offset >= |s| then 0 else if |s| - offset < limit then |s| - offset else limit
    ensures forall i :: 0 <= i < |r| ==> r[i] == s[offset + i]
  {
    if offset >= |s| then []
    else if |s| - offset <= limit then s[offset..]
    else s[offset..offset + limit]
  }

  /** The elements satisfying `p`, in their original order: a `WHERE`
      clause or a list comprehension with a condition. */
  function Filter<T(!new)>(s: seq<T>, p: T -> bool): (r: seq<T>)
    ensures forall x :: x in r <==> x in s && p(x)
    ensures |r| <= |s|
    ensures forall i :: 0 <= i < |r| ==> p(r[i])
  {
    if |s| == 0 then []
    else
      var rest := Filter(s[1..], p);
      assert forall x :: x in s <==> x == s[0] || x in s[1..];
      if p(s[0]) then [s[0]] + rest else rest
  }

  /** `f` applied to every element, keeping the results that are present,
      in order: a loop that appends what each step yields and skips the
      steps that yield nothing. */
  function FilterMap<T, U>(s: seq<T>, f: T -> Option<U>): (r: seq<U>)
    ensures |r| <= |s|
    decreases |s|
  {
    if |s| == 0 then []
    else
      var rest := FilterMap(s[1..], f);
      match f(s[0])
      case Some(y) => [y] + rest
      case None => rest
  }

  /** Mapping two runs one after the other gives their results one after
      the other. */
  lemma {:induction false} FilterMapAppend<T, U>(a: seq<T>, b: seq<T>, f: T -> Option<U>)
    ensures FilterMap(a + b, f) == FilterMap(a, f) + FilterMap(b, f)
    decreases |a|
  {
    if |a| == 0 {
      assert a + b == b;
    } else {
      assert (a + b)[0] == a[0];
      assert (a + b)[1..] == a[1..] + b;
      FilterMapAppend(a[1..], b, f);
    }
  }

  /** One element gives its result when there is one, else nothing. */
  lemma FilterMapOne<T, U>(x: T, f: T -> Option<U>)
    ensures FilterMap([x], f) == if f(x).Some? then [f(x).value] else []
  {
    assert [x][1..] == [];
  }

  /** When every step yields a result nothing is skipped and the results
      follow the elements one to one. */
  lemma {:induction false} FilterMapTotal<T, U>(s: seq<T>, f: T -> Option<U>)
    requires forall i :: 0 <= i < |s| ==> f(s[i]).Some?
    ensures |FilterMap(s, f)| == |s|
    ensures forall i :: 0 <= i < |s| ==> FilterMap(s, f)[i] == f(s[i]).value
    decreases |s|
  {
    if |s| > 0 {
      var rest := s[1..];
      assert forall i :: 0 <= i < |rest| ==> f(rest[i]).Some? by {
        forall i | 0 <= i < |rest| ensures f(rest[i]).Some? {
          assert rest[i] == s[i + 1];
        }
      }
      FilterMapTotal(rest, f);
      var r := FilterMap(s, f);
      assert r == [f(s[0]).value] + FilterMap(rest, f);
      forall i | 0 <= i < |s| ensures r[i] == f(s[i]).value {
        if i > 0 {
          assert r[i] == FilterMap(rest, f)[i - 1];
          assert s[i] == rest[i - 1];
        }
      }
    }
  }

  /** No two elements share a key. */
  ghost predicate DistinctBy<T, K>(s: seq<T>, key: T -> K) {
    forall i, j :: 0 <= i < j < |s| ==> key(s[i]) != key(s[j])
  }

  /** Appending an element whose key is new keeps keys distinct. */
  lemma DistinctByAppend<T, K>(s: seq<T>, x: T, key: T -> K)
    requires DistinctBy(s, key)
    requires forall y :: y in s ==> key(y) != key(x)
    ensures DistinctBy(s + [x], key)
  {
    var r := s + [x];
    forall i, j | 0 <= i < j < |r| ensures key(r[i]) != key(r[j]) {
      if j == |s| {
        assert r[i] == s[i] && r[j] == x;
      } else {
        assert r[i] == s[i] && r[j] == s[j];
      }
    }
  }

  /** Filtering keeps keys distinct. */
  lemma {:induction false} FilterDistinct<T(!new), K>(s: seq<T>, p: T -> bool, key: T -> K)
    requires DistinctBy(s, key)
    ensures DistinctBy(Filter(s, p), key)
    decreases |s|
  {
    if |s| > 0 {
      var rest := Filter(s[1..], p);
      assert DistinctBy(s[1..], key);
      FilterDistinct(s[1..], p, key);
      if p(s[0]) {
        var r := [s[0]] + rest;
        forall j | 0 < j < |r| ensures key(r[0]) != key(r[j]) {
          assert r[j] in s[1..];
          var k :| 0 <= k < |s[1..]| && s[1..][k] == r[j];
          assert s[k + 1] == r[j];
        }
      }
    }
  }

  /** In a sequence with distinct keys, an element is determined by its key. */
  lemma DistinctByUnique<T, K>(s: seq<T>, key: T -> K, x: T, y: T)
    requires DistinctBy(s, key) && x in s && y in s && key(x) == key(y)
    ensures x == y
  {
  }

  /** The first element satisfying `p`, as SQLAlchemy's `scalar()` returns
      the first row a query yields. */
  function First<T(!new)>(s: seq<T>, p: T -> bool): (r: Option<T>)
    ensures r.None? <==> forall x :: x in s ==> !p(x)
    ensures r.Some? ==> exists i :: 0 <= i < |s| && s[i] == r.value && p(r.value) && forall j :: 0 <= j < i ==> !p(s[j])
  {
    if |s| == 0 then None
    else if p(s[0]) then Some(s[0])
    else
      var r := First(s[1..], p);
      assert forall x :: x in s <==> x == s[0] || x in s[1..];
      assert r.Some? ==> exists i :: 0 <= i < |s| && s[i] == r.value && p(r.value) && forall j :: 0 <= j < i ==> !p(s[j]) by {
        if r.Some? {
          var i :| 0 <= i < |s[1..]| && s[1..][i] == r.value && p(r.value) && forall j :: 0 <= j < i ==> !p(s[1..][j]);
          assert s[i + 1] == r.value;
          assert forall j :: 0 <= j < i + 1 ==> !p(s[j]) by {
            forall j | 0 <= j < i + 1 ensures !p(s[j]) {
              if j > 0 { assert s[j] == s[1..][j - 1]; }
            }
          }
        }
      }
      r
  }

  /** With distinct keys no value occurs twice. */
  lemma {:induction false} DistinctByCount<T, K>(s: seq<T>, key: T -> K, x: T)
    requires DistinctBy(s, key)
    ensures multiset(s)[x] <= 1
    decreases |s|
  {
    if |s| > 0 {
      assert s == [s[0]] + s[1..];
      assert DistinctBy(s[1..], key);
      DistinctByCount(s[1..], key, x);
      if s[0] == x {
        assert x !in s[1..];
      }
    }
  }

  /** Reordering keeps keys distinct. */
  lemma PermutationDistinctBy<T, K>(a: seq<T>, b: seq<T>, key: T -> K)
    requires multiset(a) == multiset(b) && DistinctBy(b, key)
    ensures DistinctBy(a, key)
  {
    forall i, j | 0 <= i < j < |a| ensures key(a[i]) != key(a[j]) {
      if key(a[i]) == key(a[j]) {
        assert a[i] in multiset(b) && a[j] in multiset(b);
        DistinctByUnique(b, key, a[i], a[j]);
        assert a == a[..j] + [a[j]] + a[j + 1..];
        assert a[i] in a[..j];
        assert multiset(a)[a[i]] >= 2;
        DistinctByCount(b, key, a[i]);
      }
    }
  }
}

=== FILE: llm_factory.dfy ===
/** The provider registry of backend/app/services/llm/llm_factory.py: an
    insertion-ordered dict from lower-cased provider names to providers.
    Constructing a provider's chat model is a foreign call; here it yields
    an opaque handle naming the provider and the requested model. */
module LlmFactory {
  import opened Wrappers
  import opened Text

  /** A provider, identified by `kind`, with the model list its
      `get_available_models` returns. */
  datatype Provider = Provider(kind: string, models: seq<string>)

  /** What `provider.get_model(model_name)` returns. */
  datatype ModelHandle = ModelHandle(provider: Provider, model: string)

  /** `self.providers`: entries in insertion order. */
  type Registry = seq<(string, Provider)>

  function Keys(reg: Registry): (ks: seq<string>)
    ensures |ks| == |reg|
    ensures forall i :: 0 <= i < |reg| ==> ks[i] == reg[i].0
  {
    seq(|reg|, i requires 0 <= i < |reg| => reg[i].0)
  }

  /** A dict: no key twice, and every key already lower-cased. */
  ghost predicate Valid(reg: Registry) {
    && (forall i, j :: 0 <= i < j < |reg| ==> reg[i].0 != reg[j].0)
    && (forall i :: 0 <= i < |reg| ==> Lower(reg[i].0) == reg[i].0)
  }

  const OllamaModels: seq<string> := ["gpt-oss:120b-cloud", "mistral"]
  const SerproModels: seq<string> := [
    "gpt-oss-120b", "deepseek-r1-distill-qwen-14b", "devstral-small",
    "llama-3.1-8B-instruct", "mistral-small-3.2-24b-instruct", "qwen3-32b"]

  /** The registry `LLMFactory()` starts with. */
  function Default(): (reg: Registry)
    ensures Valid(reg)
    ensures Keys(reg) == ["ollama", "serpro"]
  {
    var reg := [("ollama", Provider("ollama", OllamaModels)), ("serpro", Provider("serpro", SerproModels))];
    DefaultValid(reg);
    reg
  }

  /** The two built-in keys are distinct and already lower-cased. */
  lemma DefaultValid(reg: Registry)
    requires reg == [("ollama", Provider("ollama", OllamaModels)), ("serpro", Provider("serpro", SerproModels))]
    ensures Valid(reg)
    ensures Keys(reg) == ["ollama", "serpro"]
  {
    DefaultKeysLower();
  }

  lemma DefaultKeysLower()
    ensures Lower("ollama") == "ollama" && Lower("serpro") == "serpro"
  {
    LowerNoUpper("ollama");
    LowerNoUpper("serpro");
  }

  /** `dict.get(key)`. */
  function Lookup(reg: Registry, key: string): (r: Option<Provider>)
    ensures r.None? <==> key !in Keys(reg)
    ensures r.Some? ==> exists i :: 0 <= i < |reg| && reg[i] == (key, r.value)
    decreases |reg|
  {
    if |reg| == 0 then None
    else if reg[0].0 == key then Some(reg[0].1)
    else
      var r := Lookup(reg[1..], key);
      assert Keys(reg) == [reg[0].0] + Keys(reg[1..]);
      assert r.Some? ==> exists i :: 0 <= i < |reg| && reg[i] == (key, r.value) by {
        if r.Some? {
          var i :| 0 <= i < |reg[1..]| && reg[1..][i] == (key, r.value);
          assert reg[i + 1] == (key, r.value);
        }
      }
      r
  }

  /** In a valid registry the entry for a key is unique, so lookup finds it. */
  lemma LookupFinds(reg: Registry, i: nat)
    requires Valid(reg) && i < |reg|
    ensures Lookup(reg, reg[i].0) == Some(reg[i].1)
  {
    var r := Lookup(reg, reg[i].0);
    assert reg[i].0 in Keys(reg);
    var j :| 0 <= j < |reg| && reg[j] == (reg[i].0, r.value);
    assert j == i;
  }

  /** `get_provider`: the name is lower-cased before the lookup. */
  function GetProvider(reg: Registry, name: string): (r: Option<Provider>)
    ensures r.Some? <==> Lower(name) in Keys(reg)
  {
    Lookup(reg, Lower(name))
  }

  /** Any casing of a registered name finds the same provider. */
  lemma AnyCasingFinds(reg: Registry, name: string, i: nat)
    requires Valid(reg) && i < |reg|
    requires Lower(name) == reg[i].0
    ensures GetProvider(reg, name) == Some(reg[i].1)
  {
    LookupFinds(reg, i);
  }

  /** `get_model`: `None` exactly when the provider is unknown; the model
      name is handed to the provider without checking it against the
      provider's model list. */
  function GetModel(reg: Registry, providerName: string, modelName: string): (r: Option<ModelHandle>)
    ensures r.None? <==> Lower(providerName) !in Keys(reg)
    ensures r.Some? ==> r.value.model == modelName
    ensures r.Some? ==> Some(r.value.provider) == GetProvider(reg, providerName)
  {
    match GetProvider(reg, providerName)
    case Some(p) => Some(ModelHandle(p, modelName))
    case None => None
  }

  /** The chat router asks for the grading model `('ollama', 'llama3.1')`,
      which is not in Ollama's list, and still gets a handle. */
  lemma ModelNameNotChecked()
    ensures "llama3.1" !in ListModels(Default(), "ollama")
    ensures GetModel(Default(), "ollama", "llama3.1") == Some(ModelHandle(Provider("ollama", OllamaModels), "llama3.1"))
  {
    LookupFinds(Default(), 0);
    assert Lower("ollama") == "ollama";
  }

  /** `list_providers`: the keys in insertion order; each listed name
      finds the provider stored at that position. */
  function ListProviders(reg: Registry): (ks: seq<string>)
    ensures |ks| == |reg|
    ensures forall i :: 0 <= i < |ks| ==> ks[i] == reg[i].0
    ensures Valid(reg) ==> forall i :: 0 <= i < |ks| ==> GetProvider(reg, ks[i]) == Some(reg[i].1)
  {
    var ks := Keys(reg);
    assert Valid(reg) ==> forall i :: 0 <= i < |ks| ==> GetProvider(reg, ks[i]) == Some(reg[i].1) by {
      if Valid(reg) {
        forall i | 0 <= i < |ks| ensures GetProvider(reg, ks[i]) == Some(reg[i].1) {
          LookupFinds(reg, i);
        }
      }
    }
    ks
  }

  /** `list_models`: the provider's list, or `[]` for an unknown provider. */
  function ListModels(reg: Registry, name: string): (ms: seq<string>)
    ensures Lower(name) !in Keys(reg) ==> ms == []
    ensures GetProvider(reg, name).Some? ==> ms == GetProvider(reg, name).value.models
  {
    match GetProvider(reg, name)
    case Some(p) => p.models
    case None => []
  }

  /** `add_provider`: stores under the lower-cased name, replacing an
      existing entry of that name in place or appending a new one. */
  function AddProvider(reg: Registry, name: string, p: Provider): (r: Registry)
    requires Valid(reg)
    ensures Valid(r)
    ensures Lower(name) in Keys(reg) ==> Keys(r) == Keys(reg)
    ensures Lower(name) !in Keys(reg) ==> Keys(r) == Keys(reg) + [Lower(name)]
    ensures forall i :: 0 <= i < |r| && r[i].0 == Lower(name) ==> r[i].1 == p
    ensures forall i :: 0 <= i < |reg| && reg[i].0 != Lower(name) ==> r[i] == reg[i]
  {
    var key := Lower(name);
    LowerIdempotent(name);
    if key in Keys(reg) then
      var i :| 0 <= i < |reg| && reg[i].0 == key;
      var r := reg[i := (key, p)];
      assert Keys(r) == Keys(reg);
      r
    else
      var r := reg + [(key, p)];
      assert Keys(r) == Keys(reg) + [key];
      r
  }

  /** After `add_provider(name, p)`, every casing of `name` finds `p`. */
  lemma AddThenGetSame(reg: Registry, name: string, p: Provider)
    requires Valid(reg)
    ensures GetProvider(AddProvider(reg, name, p), name) == Some(p)
  {
    var r := AddProvider(reg, name, p);
    assert Lower(name) in Keys(r);
    var i :| 0 <= i < |r| && r[i].0 == Lower(name);
    LookupFinds(r, i);
  }

  /** After `add_provider(name, p)`, a different name finds what it found
      before. */
  lemma AddThenGetOther(reg: Registry, name: string, p: Provider, other: string)
    requires Valid(reg) && Lower(other) != Lower(name)
    ensures GetProvider(AddProvider(reg, name, p), other) == GetProvider(reg, other)
  {
    var r := AddProvider(reg, name, p);
    if Lower(other) in Keys(reg) {
      var j :| 0 <= j < |reg| && reg[j].0 == Lower(other);
      LookupFinds(reg, j);
      LookupFinds(r, j);
    } else {
      assert Lower(other) !in Keys(r);
    }
  }

  /** After `add_provider(name, p)`, every casing of `name` finds `p` and
      every other name finds what it found before. */
  lemma AddThenGet(reg: Registry, name: string, p: Provider, other: string)
    requires Valid(reg)
    ensures GetProvider(AddProvider(reg, name, p), name) == Some(p)
    ensures Lower(other) != Lower(name) ==>
      GetProvider(AddProvider(reg, name, p), other) == GetProvider(reg, other)
  {
    AddThenGetSame(reg, name, p);
    if Lower(other) != Lower(name) {
      AddThenGetOther(reg, name, p, other);
    }
  }
}

=== FILE: models.dfy ===
/** The entities of backend/app/models.py and the database rules attached
    to them: generated primary keys, unique usernames and emails, foreign
    keys, the 1024-dimension embedding column, column defaults and the
    `delete-orphan` cascades from users to projects to file contents.
    Tables are sequences of rows in insertion order. */
module Models {
  import opened Wrappers
  import opened Listing

  /** The `Vector(1024)` column width. */
  const EmbeddingDim: nat := 1024

  datatype User = User(id: int, username: string, password: string, email: string, isAdmin: bool)

  datatype Project = Project(id: int, userId: int, title: string, description: string, llmPrompt: string)

  /** `file_metadata`, a JSON object; the core only stores strings in it. */
  type Metadata = map<string, string>

  /** A stored chunk; `createdAt` is the database clock at insertion. */
  datatype FileContent = FileContent(
    id: int, projectId: int, content: string, embedding: seq<real>, metadata: Metadata, createdAt: int)

  /** The columns a caller supplies for a new file-content row; like
      `default_factory=dict`, the metadata is empty unless given. */
  datatype FileRecord = FileRecord(projectId: int, content: string, embedding: seq<real>, metadata: Metadata := map[])

  /** The three tables and their next auto-increment keys. */
  datatype Db = Db(
    users: seq<User>, projects: seq<Project>, files: seq<FileContent>,
    nextUser: int, nextProject: int, nextFile: int)

  function UserId(u: User): int { u.id }
  function Username(u: User): string { u.username }
  function Email(u: User): string { u.email }
  function ProjectId(p: Project): int { p.id }
  function FileId(f: FileContent): int { f.id }

  function IdsOf(users: seq<User>): set<int> { set u | u in users :: u.id }
  function UserIds(db: Db): set<int> { IdsOf(db.users) }
  function ProjectIds(db: Db): set<int> { set p | p in db.projects :: p.id }

  /** Every constraint the schema declares. */
  ghost predicate Valid(db: Db) {
    && db.nextUser >= 1 && db.nextProject >= 1 && db.nextFile >= 1
    && (forall u :: u in db.users ==> 1 <= u.id < db.nextUser)
    && DistinctBy(db.users, UserId)
    && DistinctBy(db.users, Username)
    && DistinctBy(db.users, Email)
    && (forall p :: p in db.projects ==> 1 <= p.id < db.nextProject && p.userId in UserIds(db))
    && DistinctBy(db.projects, ProjectId)
    && (forall f :: f in db.files ==>
          && 1 <= f.id < db.nextFile
          && f.projectId in ProjectIds(db)
          && |f.embedding| == EmbeddingDim)
    && DistinctBy(db.files, FileId)
  }

  const EmptyDb: Db := Db([], [], [], 1, 1, 1)

  lemma EmptyDbValid()
    ensures Valid(EmptyDb)
  {
  }

  /** `session.get(User, id)`. */
  function FindUser(db: Db, id: int): (r: Option<User>)
    ensures r.None? <==> id !in UserIds(db)
    ensures r.Some? ==> r.value in db.users && r.value.id == id
  {
    var r := First(db.users, (u: User) => u.id == id);
    assert r.Some? ==> r.value in db.users by {
      if r.Some? { var i :| 0 <= i < |db.users| && db.users[i] == r.value; }
    }
    r
  }

  /** With unique keys, the user `FindUser` returns is the only one with
      that key. */
  lemma FindUserUnique(db: Db, u: User)
    requires Valid(db) && u in db.users
    ensures FindUser(db, u.id) == Some(u)
  {
    DistinctByUnique(db.users, UserId, u, FindUser(db, u.id).value);
  }

  predicate UsernameTaken(db: Db, username: string) {
    exists u :: u in db.users && u.username == username
  }

  predicate EmailTaken(db: Db, email: string) {
    exists u :: u in db.users && u.email == email
  }

  /** Adding a `User(...)`: `is_admin` defaults to false; the unique
      constraints reject a taken username or email. */
  function InsertUser(db: Db, username: string, password: string, email: string, isAdmin: bool := false)
    : (r: Result<(Db, User), string>)
    requires Valid(db)
    ensures r.Failure? <==> UsernameTaken(db, username) || EmailTaken(db, email)
    ensures r.Success? ==> Valid(r.value.0)
    ensures r.Success? ==> r.value.1 == User(r.value.1.id, username, password, email, isAdmin)
    ensures r.Success? ==> r.value.1.id !in UserIds(db)
    ensures r.Success? ==> r.value.0 == db.(users := db.users + [r.value.1], nextUser := db.nextUser + 1)
  {
    if UsernameTaken(db, username) || EmailTaken(db, email) then Failure("IntegrityError")
    else
      var u := User(db.nextUser, username, password, email, isAdmin);
      InsertUserValid(db, u);
      Success((db.(users := db.users + [u], nextUser := db.nextUser + 1), u))
  }

  /** Appending a user with the next key and a new username and email
      keeps every constraint. */
  lemma InsertUserValid(db: Db, u: User)
    requires Valid(db) && u.id == db.nextUser
    requires !UsernameTaken(db, u.username) && !EmailTaken(db, u.email)
    ensures Valid(db.(users := db.users + [u], nextUser := db.nextUser + 1))
    ensures u.id !in UserIds(db)
  {
    var db' := db.(users := db.users + [u], nextUser := db.nextUser + 1);
    assert forall v :: v in db'.users ==> v in db.users || v == u;
    DistinctByAppend(db.users, u, UserId);
    DistinctByAppend(db.users, u, Username);
    DistinctByAppend(db.users, u, Email);
    assert UserIds(db') == UserIds(db) + {u.id};
  }

  /** Adding a `Project(...)`: description and prompt default to ''; the
      foreign key needs an existing user. */
  function InsertProject(db: Db, userId: int, title: string, description: string := "", llmPrompt: string := "")
    : (r: Result<(Db, Project), string>)
    requires Valid(db)
    ensures r.Failure? <==> userId !in UserIds(db)
    ensures r.Success? ==> Valid(r.value.0)
    ensures r.Success? ==> r.value.1 == Project(r.value.1.id, userId, title, description, llmPrompt)
    ensures r.Success? ==> r.value.1.id !in ProjectIds(db)
    ensures r.Success? ==> r.value.0 == db.(projects := db.projects + [r.value.1], nextProject := db.nextProject + 1)
  {
    if userId !in UserIds(db) then Failure("IntegrityError")
    else
      var p := Project(db.nextProject, userId, title, description, llmPrompt);
      var db' := db.(projects := db.projects + [p], nextProject := db.nextProject + 1);
      assert ProjectIds(db') == ProjectIds(db) + {p.id};
      Success((db', p))
  }

  /** A record the schema accepts: an existing project and 1024 numbers. */
  predicate Acceptable(db: Db, rec: FileRecord) {
    rec.projectId in ProjectIds(db) && |rec.embedding| == EmbeddingDim
  }

  /** The rows `recs` become, keys counted up from `firstId`. */
  function FileRows(recs: seq<FileRecord>, firstId: int, now: int): (rows: seq<FileContent>)
    ensures |rows| == |recs|
    ensures forall i :: 0 <= i < |recs| ==>
      rows[i] == FileContent(firstId + i, recs[i].projectId, recs[i].content, recs[i].embedding, recs[i].metadata, now)
  {
    seq(|recs|, i requires 0 <= i < |recs| =>
      FileContent(firstId + i, recs[i].projectId, recs[i].content, recs[i].embedding, recs[i].metadata, now))
  }

  /** `insert(FileContent)` of several records in one statement: all or
      nothing. */
  function InsertFiles(db: Db, recs: seq<FileRecord>, now: int): (r: Result<Db, string>)
    requires Valid(db)
    ensures r.Failure? <==> exists i :: 0 <= i < |recs| && !Acceptable(db, recs[i])
    ensures r.Success? ==> Valid(r.value)
    ensures r.Success? ==> r.value == db.(
      files := db.files + FileRows(recs, db.nextFile, now), nextFile := db.nextFile + |recs|)
  {
    if exists i :: 0 <= i < |recs| && !Acceptable(db, recs[i]) then Failure("IntegrityError")
    else
      InsertFilesValid(db, recs, now);
      Success(db.(files := db.files + FileRows(recs, db.nextFile, now), nextFile := db.nextFile + |recs|))
  }

  /** A record given no metadata is stored with an empty `file_metadata`
      object, under the next key, with the rest of the table kept. */
  lemma InsertFilesDefaultMetadata(db: Db, projectId: int, content: string, embedding: seq<real>, now: int)
    requires Valid(db)
    requires projectId in ProjectIds(db) && |embedding| == EmbeddingDim
    ensures var r := InsertFiles(db, [FileRecord(projectId, content, embedding)], now);
      && r.Success?
      && r.value.files == db.files + [FileContent(db.nextFile, projectId, content, embedding, map[], now)]
  {
    var recs := [FileRecord(projectId, content, embedding)];
    assert Acceptable(db, recs[0]);
    assert FileRows(recs, db.nextFile, now) == [FileContent(db.nextFile, projectId, content, embedding, map[], now)];
  }

  /** Appending the rows of acceptable records, keyed from the next key,
      keeps every constraint. */
  lemma InsertFilesValid(db: Db, recs: seq<FileRecord>, now: int)
    requires Valid(db)
    requires forall i :: 0 <= i < |recs| ==> Acceptable(db, recs[i])
    ensures Valid(db.(files := db.files + FileRows(recs, db.nextFile, now), nextFile := db.nextFile + |recs|))
  {
    var rows := FileRows(recs, db.nextFile, now);
    var files := db.files + rows;
    assert forall f :: f in files ==> f in db.files || exists i :: 0 <= i < |rows| && rows[i] == f;
    assert DistinctBy(files, FileId) by {
      forall i, j | 0 <= i < j < |files| ensures files[i].id != files[j].id {
        if j >= |db.files| {
          assert files[j] == rows[j - |db.files|];
          if i < |db.files| { assert files[i] in db.files; }
        }
      }
    }
  }

  /** The user table with the row of key `u.id` replaced by `u`. */
  function ReplaceUser(users: seq<User>, u: User): (r: seq<User>)
    ensures |r| == |users|
    ensures forall i :: 0 <= i < |users| ==> r[i] == if users[i].id == u.id then u else users[i]
  {
    seq(|users|, i requires 0 <= i < |users| => if users[i].id == u.id then u else users[i])
  }

  /** Replacing a row keeps a key distinct when no other row has the new
      row's key. */
  lemma ReplaceDistinct<K>(users: seq<User>, u: User, key: User -> K)
    requires DistinctBy(users, UserId) && DistinctBy(users, key)
    requires forall v :: v in users && v.id != u.id ==> key(v) != key(u)
    ensures DistinctBy(ReplaceUser(users, u), key)
  {
    var r := ReplaceUser(users, u);
    forall i, j | 0 <= i < j < |r| ensures key(r[i]) != key(r[j]) {
      assert users[i].id != users[j].id;
      assert users[i] in users && users[j] in users;
    }
  }

  /** Replacing the row of an existing key keeps the set of keys, and every
      row afterwards is the new row or an old one. */
  lemma ReplaceUserKeys(users: seq<User>, u: User)
    requires u.id in IdsOf(users)
    ensures IdsOf(ReplaceUser(users, u)) == IdsOf(users)
    ensures forall w :: w in ReplaceUser(users, u) ==> w == u || w in users
  {
    var r := ReplaceUser(users, u);
    forall w | w in r ensures w == u || w in users {
      var i :| 0 <= i < |r| && r[i] == w;
      assert users[i] in users;
    }
    forall x | x in IdsOf(users) ensures x in IdsOf(r) {
      var w :| w in users && w.id == x;
      var i :| 0 <= i < |users| && users[i] == w;
      assert r[i].id == x;
    }
  }

  lemma ReplaceUserValid(db: Db, u: User)
    requires Valid(db) && u.id in UserIds(db)
    requires forall v :: v in db.users && v.id != u.id ==> v.username != u.username && v.email != u.email
    ensures Valid(db.(users := ReplaceUser(db.users, u)))
  {
    var users := ReplaceUser(db.users, u);
    ReplaceUserKeys(db.users, u);
    assert UserIds(db.(users := users)) == UserIds(db);
    ReplaceDistinct(db.users, u, UserId);
    ReplaceDistinct(db.users, u, Username);
    ReplaceDistinct(db.users, u, Email);
    var w0 :| w0 in db.users && w0.id == u.id;
    assert 1 <= u.id < db.nextUser;
  }

  /** A row-wise replacement of the rows with key `me` keeps every other row. */
  lemma ReplacedKeepsOthers(rows: seq<User>, rows': seq<User>, me: int, u: User)
    requires |rows'| == |rows|
    requires forall i :: 0 <= i < |rows| ==> rows'[i] == if rows[i].id == me then u else rows[i]
    ensures forall v :: v in rows && v.id != me ==> v in rows'
  {
    forall v | v in rows && v.id != me ensures v in rows' {
      var k :| 0 <= k < |rows| && rows[k] == v;
      assert rows'[k] == v;
    }
  }

  /** After a successful `UpdateUser`, the key finds the new row and every
      row with another key is still stored. */
  lemma UpdatedUserFound(db: Db, cur: User, u: User)
    requires Valid(db) && cur in db.users && u.id == cur.id
    requires UpdateUser(db, u).Success?
    ensures FindUser(UpdateUser(db, u).value, u.id) == Some(u)
    ensures forall v :: v in db.users && v.id != u.id ==> v in UpdateUser(db, u).value.users
  {
    var db' := UpdateUser(db, u).value;
    var i :| 0 <= i < |db.users| && db.users[i] == cur;
    assert db'.users[i] == u;
    FindUserUnique(db', u);
    ReplacedKeepsOthers(db.users, db'.users, u.id, u);
  }

  /** `user.username = ...; user.email = ...; commit()`: replaces the row
      with key `u.id`; the unique constraints reject a value another user
      holds. */
  function UpdateUser(db: Db, u: User): (r: Result<Db, string>)
    requires Valid(db) && u.id in UserIds(db)
    ensures r.Failure? <==> exists v :: v in db.users && v.id != u.id && (v.username == u.username || v.email == u.email)
    ensures r.Success? ==> Valid(r.value)
    ensures r.Success? ==> r.value.projects == db.projects && r.value.files == db.files
    ensures r.Success? ==> |r.value.users| == |db.users|
    ensures r.Success? ==> forall i :: 0 <= i < |db.users| ==>
      r.value.users[i] == if db.users[i].id == u.id then u else db.users[i]
  {
    if exists v :: v in db.users && v.id != u.id && (v.username == u.username || v.email == u.email) then
      Failure("IntegrityError")
    else
      ReplaceUserValid(db, u);
      Success(db.(users := ReplaceUser(db.users, u)))
  }

  /** `db_project.title = ...` etc.: new text fields for the row with key
      `id`; its key and owner stay. */
  function UpdateProject(db: Db, id: int, title: string, description: string, llmPrompt: string): (r: Db)
    requires Valid(db)
    ensures Valid(r)
    ensures r.users == db.users && r.files == db.files && |r.projects| == |db.projects|
    ensures forall i :: 0 <= i < |db.projects| ==>
      r.projects[i] == if db.projects[i].id == id
        then db.projects[i].(title := title, description := description, llmPrompt := llmPrompt)
        else db.projects[i]
  {
    var ps := seq(|db.projects|, i requires 0 <= i < |db.projects| =>
      if db.projects[i].id == id
      then db.projects[i].(title := title, description := description, llmPrompt := llmPrompt)
      else db.projects[i]);
    SameProjectKeysValid(db, ps);
    db.(projects := ps)
  }

  /** Rewriting project rows in place without touching their keys or
      owners keeps every constraint. */
  lemma SameProjectKeysValid(db: Db, ps: seq<Project>)
    requires Valid(db) && |ps| == |db.projects|
    requires forall i :: 0 <= i < |ps| ==> ps[i].id == db.projects[i].id && ps[i].userId == db.projects[i].userId
    ensures Valid(db.(projects := ps))
  {
    var db' := db.(projects := ps);
    assert ProjectIds(db') == ProjectIds(db) by {
      forall x | x in ProjectIds(db) ensures x in ProjectIds(db') {
        var w :| w in db.projects && w.id == x;
        var i :| 0 <= i < |db.projects| && db.projects[i] == w;
        assert ps[i].id == x;
      }
    }
    forall p | p in ps ensures 1 <= p.id < db.nextProject && p.userId in UserIds(db) {
      var i :| 0 <= i < |ps| && ps[i] == p;
      assert db.projects[i] in db.projects;
    }
    assert forall i, j :: 0 <= i < j < |ps| ==> ps[i].id != ps[j].id by {
      assert DistinctBy(db.projects, ProjectId);
    }
  }

  /** Deleting a project: the `delete-orphan` cascade removes its file
      contents too. */
  function DeleteProject(db: Db, id: int): (r: Db)
    requires Valid(db)
    ensures Valid(r)
    ensures r.users == db.users
    ensures forall p :: p in r.projects <==> p in db.projects && p.id != id
    ensures forall f :: f in r.files <==> f in db.files && f.projectId != id
    ensures ProjectIds(r) == ProjectIds(db) - {id}
  {
    var keepP := (p: Project) => p.id != id;
    var keepF := (f: FileContent) => f.projectId != id;
    var db' := db.(projects := Filter(db.projects, keepP), files := Filter(db.files, keepF));
    FilterDistinct(db.projects, keepP, ProjectId);
    FilterDistinct(db.files, keepF, FileId);
    assert ProjectIds(db') == ProjectIds(db) - {id};
    db'
  }

  /** Deleting a user: the cascade removes the user's projects and, through
      them, those projects' file contents. */
  function DeleteUser(db: Db, id: int): (r: Db)
    requires Valid(db)
    ensures Valid(r)
    ensures forall u :: u in r.users <==> u in db.users && u.id != id
    ensures forall p :: p in r.projects <==> p in db.projects && p.userId != id
    ensures forall f :: f in r.files <==> f in db.files && f.projectId in ProjectIds(r)
    ensures UserIds(r) == UserIds(db) - {id}
  {
    var keepU := (u: User) => u.id != id;
    var keepP := (p: Project) => p.userId != id;
    var projects := Filter(db.projects, keepP);
    var pids := set p | p in projects :: p.id;
    var keepF := (f: FileContent) => f.projectId in pids;
    var db' := db.(users := Filter(db.users, keepU), projects := projects, files := Filter(db.files, keepF));
    FilterDistinct(db.users, keepU, UserId);
    FilterDistinct(db.users, keepU, Username);
    FilterDistinct(db.users, keepU, Email);
    FilterDistinct(db.projects, keepP, ProjectId);
    FilterDistinct(db.files, keepF, FileId);
    assert UserIds(db') == UserIds(db) - {id};
    assert ProjectIds(db') == pids;
    db'
  }
}

=== FILE: pdf_processing.dfy ===
/** backend/app/services/pdf_processing_service.py: from a PDF to the
    records `bulk_create` stores. PDF-to-Markdown conversion, the text
    splitter and the embedder are foreign code and come in as functions; an
    embedder failure is `None`. */
module PdfProcessing {
  import opened Wrappers
  import opened Text
  import opened Utils
  import opened Models
  import opened Listing

  /** A LangChain `Document`: text plus string metadata. */
  datatype Document = Document(pageContent: string, metadata: Metadata)

  /** `create_document`. */
  function CreateDocument(text: string, source: string): (d: Document)
    ensures d.pageContent == text
    ensures d.metadata == map["source" := source]
  {
    Document(text, map["source" := source])
  }

  /** `chunk.metadata.get("source", "unknown")`. */
  function SourceOf(d: Document): (r: string)
    ensures "source" in d.metadata ==> r == d.metadata["source"]
    ensures "source" !in d.metadata ==> r == "unknown"
  {
    if "source" in d.metadata then d.metadata["source"] else "unknown"
  }

  /** The text handed to the embedder for a chunk. */
  function EmbedText(d: Document): string {
    NormalizeText(d.pageContent)
  }

  /** The record built for one chunk and its embedding. */
  function ChunkRecord(d: Document, projectId: int, embedding: seq<real>): (rec: FileRecord)
    ensures rec.projectId == projectId
    ensures rec.content == Strip(d.pageContent)
    ensures rec.metadata == map["filename" := SourceOf(d)]
    ensures rec.embedding == embedding
  {
    FileRecord(projectId, Strip(d.pageContent), embedding, map["filename" := SourceOf(d)])
  }

  /** The batch path: `zip(chunks, embeddings)`, stopping at the shorter. */
  function Zipped(chunks: seq<Document>, embeddings: seq<seq<real>>, projectId: int): (r: seq<FileRecord>)
    ensures |r| == if |chunks| < |embeddings| then |chunks| else |embeddings|
    ensures forall i :: 0 <= i < |r| ==> r[i] == ChunkRecord(chunks[i], projectId, embeddings[i])
  {
    var n := if |chunks| < |embeddings| then |chunks| else |embeddings|;
    seq(n, i requires 0 <= i < n => ChunkRecord(chunks[i], projectId, embeddings[i]))
  }

  /** `rec` is the record built from chunk `d` for project `projectId`,
      whatever its embedding. */
  predicate RecordOf(rec: FileRecord, d: Document, projectId: int) {
    rec == ChunkRecord(d, projectId, rec.embedding)
  }

  /** `rec` is the record of one of `chunks`, for project `projectId`. */
  predicate FromSomeChunk(rec: FileRecord, chunks: seq<Document>, projectId: int)
    decreases |chunks|
  {
    |chunks| > 0 && (RecordOf(rec, chunks[0], projectId) || FromSomeChunk(rec, chunks[1..], projectId))
  }

  /** `FromSomeChunk` is "the record of the chunk at some position". */
  lemma FromSomeChunkIndex(rec: FileRecord, chunks: seq<Document>, projectId: int)
    ensures FromSomeChunk(rec, chunks, projectId) <==> exists i :: 0 <= i < |chunks| && RecordOf(rec, chunks[i], projectId)
  {
    if FromSomeChunk(rec, chunks, projectId) {
      var i := ChunkIndex(rec, chunks, projectId);
    }
    if exists i :: 0 <= i < |chunks| && RecordOf(rec, chunks[i], projectId) {
      var i :| 0 <= i < |chunks| && RecordOf(rec, chunks[i], projectId);
      FromChunkAt(rec, chunks, projectId, i);
    }
  }

  /** The position of the chunk a record comes from. */
  lemma {:induction false} ChunkIndex(rec: FileRecord, chunks: seq<Document>, projectId: int) returns (i: nat)
    requires FromSomeChunk(rec, chunks, projectId)
    ensures i < |chunks| && RecordOf(rec, chunks[i], projectId)
    decreases |chunks|
  {
    if RecordOf(rec, chunks[0], projectId) {
      i := 0;
    } else {
      var j := ChunkIndex(rec, chunks[1..], projectId);
      assert chunks[1..][j] == chunks[j + 1];
      i := j + 1;
    }
  }

  /** The record of the chunk at position `i` comes from some chunk. */
  lemma {:induction false} FromChunkAt(rec: FileRecord, chunks: seq<Document>, projectId: int, i: nat)
    requires i < |chunks| && RecordOf(rec, chunks[i], projectId)
    ensures FromSomeChunk(rec, chunks, projectId)
    decreases i
  {
    if i > 0 {
      assert chunks[1..][i - 1] == chunks[i];
      FromChunkAt(rec, chunks[1..], projectId, i - 1);
    }
  }

  /** Records of the later chunks are records of the whole list. */
  lemma FromSomeChunkTail(rest: seq<FileRecord>, chunks: seq<Document>, projectId: int)
    requires |chunks| > 0
    requires forall k :: 0 <= k < |rest| ==> FromSomeChunk(rest[k], chunks[1..], projectId)
    ensures forall k :: 0 <= k < |rest| ==> FromSomeChunk(rest[k], chunks, projectId)
  {
  }

  /** Prepending the first chunk's record keeps every record one of the list's. */
  lemma FromSomeChunkPrepend(rec: FileRecord, rest: seq<FileRecord>, chunks: seq<Document>, projectId: int)
    requires |chunks| > 0 && RecordOf(rec, chunks[0], projectId)
    requires forall k :: 0 <= k < |rest| ==> FromSomeChunk(rest[k], chunks, projectId)
    ensures forall k :: 0 <= k < |[rec] + rest| ==> FromSomeChunk(([rec] + rest)[k], chunks, projectId)
  {
    forall k | 0 <= k < |[rec] + rest| ensures FromSomeChunk(([rec] + rest)[k], chunks, projectId) {
      if k > 0 {
        assert ([rec] + rest)[k] == rest[k - 1];
      } else {
        assert ([rec] + rest)[0] == rec;
      }
    }
  }

  /** One step of the fallback: the chunk's record when its embedder call
      succeeds, nothing when it fails. */
  function EmbedStep(projectId: int, embedOne: string -> Option<seq<real>>): Document -> Option<FileRecord> {
    (d: Document) =>
      match embedOne(EmbedText(d))
      case Some(e) => Some(ChunkRecord(d, projectId, e))
      case None => None
  }

  /** The fallback path: one embedder call per chunk; a chunk whose call
      fails is skipped. */
  function OneByOne(chunks: seq<Document>, projectId: int, embedOne: string -> Option<seq<real>>): (r: seq<FileRecord>)
    ensures |r| <= |chunks|
    ensures forall k :: 0 <= k < |r| ==> FromSomeChunk(r[k], chunks, projectId)
  {
    OneByOneFrom(chunks, projectId, embedOne);
    FilterMap(chunks, EmbedStep(projectId, embedOne))
  }

  /** Every record of the fallback is built from one of the chunks. */
  lemma {:induction false} OneByOneFrom(chunks: seq<Document>, projectId: int, embedOne: string -> Option<seq<real>>)
    ensures forall k :: 0 <= k < |FilterMap(chunks, EmbedStep(projectId, embedOne))| ==>
      FromSomeChunk(FilterMap(chunks, EmbedStep(projectId, embedOne))[k], chunks, projectId)
    decreases |chunks|
  {
    if |chunks| > 0 {
      var f := EmbedStep(projectId, embedOne);
      var rest := FilterMap(chunks[1..], f);
      OneByOneFrom(chunks[1..], projectId, embedOne);
      assert forall k :: 0 <= k < |rest| ==> FromSomeChunk(rest[k], chunks[1..], projectId);
      FromSomeChunkTail(rest, chunks, projectId);
      match embedOne(EmbedText(chunks[0]))
      case Some(e) =>
        var rec := ChunkRecord(chunks[0], projectId, e);
        assert f(chunks[0]) == Some(rec);
        FromSomeChunkPrepend(rec, rest, chunks, projectId);
      case None =>
        assert f(chunks[0]) == None;
    }
  }

  /** The fallback keeps chunk order: processing two runs of chunks one
      after the other gives their records one after the other. */
  lemma OneByOneAppend(a: seq<Document>, b: seq<Document>, projectId: int, embedOne: string -> Option<seq<real>>)
    ensures OneByOne(a + b, projectId, embedOne) == OneByOne(a, projectId, embedOne) + OneByOne(b, projectId, embedOne)
  {
    FilterMapAppend(a, b, EmbedStep(projectId, embedOne));
  }

  /** The fallback on one chunk: its record when the call succeeds, none
      when it fails. */
  lemma OneByOneOne(d: Document, projectId: int, embedOne: string -> Option<seq<real>>)
    ensures OneByOne([d], projectId, embedOne) ==
      if embedOne(EmbedText(d)).Some? then [ChunkRecord(d, projectId, embedOne(EmbedText(d)).value)] else []
  {
    FilterMapOne(d, EmbedStep(projectId, embedOne));
  }

  /** A chunk whose call fails is skipped: the records are those of the
      chunks before it followed by those of the chunks after it. */
  lemma OneByOneSkipsFailed(chunks: seq<Document>, i: nat, projectId: int, embedOne: string -> Option<seq<real>>)
    requires i < |chunks| && embedOne(EmbedText(chunks[i])).None?
    ensures OneByOne(chunks, projectId, embedOne)
         == OneByOne(chunks[..i], projectId, embedOne) + OneByOne(chunks[i + 1..], projectId, embedOne)
  {
    assert chunks == chunks[..i] + ([chunks[i]] + chunks[i + 1..]);
    OneByOneAppend(chunks[..i], [chunks[i]] + chunks[i + 1..], projectId, embedOne);
    OneByOneAppend([chunks[i]], chunks[i + 1..], projectId, embedOne);
    OneByOneOne(chunks[i], projectId, embedOne);
  }

  /** When every call succeeds nothing is skipped and the records follow
      the chunks one to one. */
  lemma OneByOneTotal(chunks: seq<Document>, projectId: int, embedOne: string -> Option<seq<real>>)
    requires forall i :: 0 <= i < |chunks| ==> embedOne(EmbedText(chunks[i])).Some?
    ensures |OneByOne(chunks, projectId, embedOne)| == |chunks|
    ensures forall i :: 0 <= i < |chunks| ==>
      OneByOne(chunks, projectId, embedOne)[i] == ChunkRecord(chunks[i], projectId, embedOne(EmbedText(chunks[i])).value)
  {
    var f := EmbedStep(projectId, embedOne);
    assert forall i :: 0 <= i < |chunks| ==> f(chunks[i]).Some?;
    FilterMapTotal(chunks, f);
  }

  /** `_prepare_chunks_for_db`: embed every normalised chunk text in one
      batch; if that fails, fall back to one call per chunk. */
  function PrepareChunks(chunks: seq<Document>, projectId: int,
                         embedBatch: seq<string> -> Option<seq<seq<real>>>,
                         embedOne: string -> Option<seq<real>>): (r: seq<FileRecord>)
    ensures |r| <= |chunks|
    ensures forall k :: 0 <= k < |r| ==> FromSomeChunk(r[k], chunks, projectId)
    ensures embedBatch(seq(|chunks|, i requires 0 <= i < |chunks| => EmbedText(chunks[i]))).Some? ==>
      r == Zipped(chunks, embedBatch(seq(|chunks|, i requires 0 <= i < |chunks| => EmbedText(chunks[i]))).value, projectId)
    ensures embedBatch(seq(|chunks|, i requires 0 <= i < |chunks| => EmbedText(chunks[i]))).None? ==>
      r == OneByOne(chunks, projectId, embedOne)
  {
    var texts := seq(|chunks|, i requires 0 <= i < |chunks| => EmbedText(chunks[i]));
    match embedBatch(texts)
    case Some(embeddings) =>
      var r := Zipped(chunks, embeddings, projectId);
      assert forall k :: 0 <= k < |r| ==> FromSomeChunk(r[k], chunks, projectId) by {
        forall k | 0 <= k < |r| ensures FromSomeChunk(r[k], chunks, projectId) {
          assert r[k] == ChunkRecord(chunks[k], projectId, embeddings[k]);
          assert RecordOf(r[k], chunks[k], projectId);
          FromSomeChunkIndex(r[k], chunks, projectId);
        }
      }
      r
    case None => OneByOne(chunks, projectId, embedOne)
  }

  /** `process_pdf_file`: Markdown, then one document whose source is the
      file name, then chunks, then records. A splitter that carries the
      document's `source` into every chunk gives records all tagged with
      that file name. */
  function ProcessPdfFile(pdfPath: string, filename: string, projectId: int,
                          toMarkdown: string -> string,
                          split: Document -> seq<Document>,
                          embedBatch: seq<string> -> Option<seq<seq<real>>>,
                          embedOne: string -> Option<seq<real>>): (r: seq<FileRecord>)
    ensures r == PrepareChunks(split(CreateDocument(toMarkdown(pdfPath), filename)), projectId, embedBatch, embedOne)
    ensures (forall c :: c in split(CreateDocument(toMarkdown(pdfPath), filename)) ==>
               "source" in c.metadata && c.metadata["source"] == filename) ==>
      forall k :: 0 <= k < |r| ==> r[k].projectId == projectId && r[k].metadata == map["filename" := filename]
  {
    var chunks := split(CreateDocument(toMarkdown(pdfPath), filename));
    var r := PrepareChunks(chunks, projectId, embedBatch, embedOne);
    assert (forall c :: c in chunks ==> "source" in c.metadata && c.metadata["source"] == filename) ==>
      forall k :: 0 <= k < |r| ==> r[k].projectId == projectId && r[k].metadata == map["filename" := filename] by {
      if forall c :: c in chunks ==> "source" in c.metadata && c.metadata["source"] == filename {
        forall k | 0 <= k < |r| ensures r[k].projectId == projectId && r[k].metadata == map["filename" := filename] {
          FromSomeChunkIndex(r[k], chunks, projectId);
          var i :| 0 <= i < |chunks| && RecordOf(r[k], chunks[i], projectId);
          assert chunks[i] in chunks;
        }
      }
    }
    r
  }
}

=== FILE: projects_api.dfy ===
/** backend/app/routers/projects.py: a user's projects. Every handler
    works only on rows whose `user_id` is the authenticated user's; a
    project of someone else is indistinguishable from a missing one. */
module ProjectsApi {
  import opened Wrappers
  import opened Listing
  import opened Models

  const NotFound: HttpError := HttpError(404, "Project not found")

  /** `select(Project).where(Project.id == id, Project.user_id == me)`. */
  function OwnedProject(db: Db, me: int, id: int): (r: Option<Project>)
    ensures r.None? <==> forall p :: p in db.projects ==> !(p.id == id && p.userId == me)
    ensures r.Some? ==> r.value in db.projects && r.value.id == id && r.value.userId == me
  {
    var r := First(db.projects, (p: Project) => p.id == id && p.userId == me);
    assert r.Some? ==> r.value in db.projects by {
      if r.Some? { var i :| 0 <= i < |db.projects| && db.projects[i] == r.value; }
    }
    r
  }

  /** `create_project`: owned by the caller, fields from the payload. */
  function Create(db: Db, me: int, title: string, description: string := "", llmPrompt: string := ""): (r: (Db, Project))
    requires Valid(db) && me in UserIds(db)
    ensures Valid(r.0)
    ensures r.1 == Project(r.1.id, me, title, description, llmPrompt)
    ensures r.1.id !in ProjectIds(db)
    ensures r.0.projects == db.projects + [r.1]
    ensures r.0.users == db.users && r.0.files == db.files
  {
    InsertProject(db, me, title, description, llmPrompt).value
  }

  /** `read_projects`: the caller's projects, in table order. */
  function Read(db: Db, me: int): (r: seq<Project>)
    ensures forall p :: p in r <==> p in db.projects && p.userId == me
  {
    Filter(db.projects, (p: Project) => p.userId == me)
  }

  /** A created project is listed for its owner and for no one else. */
  lemma CreateThenRead(db: Db, me: int, other: int, title: string, description: string, llmPrompt: string)
    requires Valid(db) && me in UserIds(db)
    ensures var (db', p) := Create(db, me, title, description, llmPrompt);
      && p in Read(db', me)
      && (other != me ==> Read(db', other) == Read(db, other))
  {
    var (db', p) := Create(db, me, title, description, llmPrompt);
    if other != me {
      assert db'.projects == db.projects + [p];
      FilterSnocSkip(db.projects, p, (q: Project) => q.userId == other);
    }
  }

  lemma FilterSnocSkip(s: seq<Project>, x: Project, keep: Project -> bool)
    requires !keep(x)
    ensures Filter(s + [x], keep) == Filter(s, keep)
    decreases |s|
  {
    if |s| == 0 {
      assert s + [x] == [x];
    } else {
      assert (s + [x])[1..] == s[1..] + [x];
      FilterSnocSkip(s[1..], x, keep);
    }
  }

  /** `update_project`: 404 and no change unless the caller owns the
      project; otherwise title, description and prompt are replaced. */
  function Update(db: Db, me: int, id: int, title: string, description: string, llmPrompt: string)
    : (r: (Db, Result<Project, HttpError>))
    requires Valid(db)
    ensures Valid(r.0)
    ensures OwnedProject(db, me, id).None? ==> r == (db, Failure(NotFound))
    ensures OwnedProject(db, me, id).Some? ==>
      r.1 == Success(OwnedProject(db, me, id).value.(title := title, description := description, llmPrompt := llmPrompt))
    ensures OwnedProject(db, me, id).Some? ==> r.1.value in r.0.projects
    ensures r.0.users == db.users && r.0.files == db.files && |r.0.projects| == |db.projects|
    ensures forall i :: 0 <= i < |db.projects| && db.projects[i].id != id ==> r.0.projects[i] == db.projects[i]
    ensures forall i :: 0 <= i < |db.projects| ==>
      r.0.projects[i].id == db.projects[i].id && r.0.projects[i].userId == db.projects[i].userId
  {
    match OwnedProject(db, me, id)
    case None => (db, Failure(NotFound))
    case Some(p) =>
      var db' := UpdateProject(db, id, title, description, llmPrompt);
      var k :| 0 <= k < |db.projects| && db.projects[k] == p;
      assert db'.projects[k] == p.(title := title, description := description, llmPrompt := llmPrompt);
      (db', Success(db'.projects[k]))
  }

  /** `delete_project`: 404 and no change unless the caller owns the
      project; otherwise that project (and, by cascade, its file contents)
      is removed. */
  function Delete(db: Db, me: int, id: int): (r: (Db, Result<string, HttpError>))
    requires Valid(db)
    ensures Valid(r.0)
    ensures OwnedProject(db, me, id).None? ==> r == (db, Failure(NotFound))
    ensures OwnedProject(db, me, id).Some? ==> r.1 == Success("Project deleted")
    ensures OwnedProject(db, me, id).Some? ==>
      && r.0.users == db.users
      && (forall p :: p in r.0.projects <==> p in db.projects && p.id != id)
      && (forall f :: f in r.0.files <==> f in db.files && f.projectId != id)
  {
    match OwnedProject(db, me, id)
    case None => (db, Failure(NotFound))
    case Some(_) => (DeleteProject(db, id), Success("Project deleted"))
  }

  /** Nobody can change or remove another user's project: both calls leave
      every project of other owners exactly as it was. */
  lemma OthersUntouched(db: Db, me: int, id: int, title: string, description: string, llmPrompt: string, p: Project)
    requires Valid(db) && p in db.projects && p.userId != me
    ensures p in Update(db, me, id, title, description, llmPrompt).0.projects
    ensures p in Delete(db, me, id).0.projects
  {
    var k :| 0 <= k < |db.projects| && db.projects[k] == p;
    var r := Update(db, me, id, title, description, llmPrompt);
    if OwnedProject(db, me, id).Some? {
      var q := OwnedProject(db, me, id).value;
      if p.id == id {
        DistinctByUnique(db.projects, ProjectId, p, q);
        assert false;
      }
      assert r.0.projects[k] == p;
      assert p in Delete(db, me, id).0.projects;
    }
  }
}

=== FILE: rag_hybrid.dfy ===
/** backend/app/agents/rag_hybrid.py: the hybrid RAG agent as a state
    machine over the conversation's messages. Every language-model call is
    an oracle function; the graph runtime is modelled by `Step` and `Run`. */
module RagHybrid {
  import opened Wrappers
  import opened Text
  import opened Models
  import opened FileContentService

  /** A message in the agent state: a LangChain message object (`type`,
      `content`, and the search queries of its tool calls, in order; empty
      when it makes none) or a plain dict, which has neither attribute. */
  datatype AgentMsg =
    | Typed(kind: string, content: string, toolQueries: seq<string>)
    | Dict(role: Option<string>, body: Option<string>)

  function UserDict(content: string): AgentMsg {
    Dict(Some("user"), Some(content))
  }

  const SystemPrompt: string :=
    "\nYou are an intelligent and helpful assistant with access to project documents.\n\n"
    + "You have access to the search_project_documents tool to\nquery project documents when needed.\n\n"
    + "INSTRUCTIONS:\n"
    + "- When the user asks questions about specific project documents,\nUSE the search_project_documents tool\n"
    + "- For general questions (math, general knowledge, conversation),\nrespond directly WITHOUT using tools\n"
    + "- Be clear, concise, and helpful in your responses\n"
    + "- Maintain conversation context to provide coherent answers\n"
    + "- Always ground your answers in the retrieved documents when using the tool\n"
    + "- If the retrieved documents don't contain relevant information,\nacknowledge this clearly\n"

  const SystemDict: AgentMsg := Dict(Some("system"), Some(SystemPrompt))

  const GradeIntro: string :=
    "\nYou are a grader assessing relevance of a retrieved document.\nRetrieved document: "
  const GradeOutro: string :=
    "\nIf the document contains keywords or meaning related to the question,\n"
    + "grade it as relevant. Give a binary score 'yes' or 'no'.\n"

  function GradePrompt(question: string, context: string): string {
    GradeIntro + context + "\nUser question: " + question + GradeOutro
  }

  const RewriteIntro: string :=
    "\nLook at the input and try to reason about the underlying\nsemantic intent / meaning.\n"
    + "Here is the initial question:\n\n ------- \n\n"
  const RewriteOutro: string :=
    "\n\n ------- \n\n" + "Formulate an improved question:\n"

  function RewritePrompt(question: string): string {
    RewriteIntro + question + RewriteOutro
  }

  const GenerateIntro: string :=
    "\nYou are an assistant for question-answering tasks.\n"
    + "Use the following pieces of retrieved context to answer the question.\n"
    + "If you don't know the answer, just say that you don't know.\n"
    + "Use three sentences maximum and keep the answer concise.\n"
    + "Question: "

  function GeneratePrompt(question: string, context: string): string {
    GenerateIntro + question + " \n\nContext: " + context + "\n"
  }

  // ---------------------------------------------------------------------
  // The last human question

  /** A message `_get_last_human_question` accepts: a `human` message
      object or a dict whose `role` is `user`. */
  predicate IsQuestion(m: AgentMsg) {
    match m
    case Typed(kind, _, _) => kind == "human"
    case Dict(role, _) => role == Some("user")
  }

  /** The text it takes from such a message; a dict without `content`
      gives ''. */
  function QuestionText(m: AgentMsg): string {
    match m
    case Typed(_, content, _) => content
    case Dict(_, body) => body.GetOr("")
  }

  /** The backward scan: the text of the last question, if any. */
  function LastQuestion(msgs: seq<AgentMsg>): (r: Option<string>)
    ensures r.None? <==> forall i :: 0 <= i < |msgs| ==> !IsQuestion(msgs[i])
    ensures r.Some? ==> exists i :: 0 <= i < |msgs| && IsQuestion(msgs[i]) && r.value == QuestionText(msgs[i])
                                    && forall j :: i < j < |msgs| ==> !IsQuestion(msgs[j])
    decreases |msgs|
  {
    if |msgs| == 0 then None
    else
      var m := msgs[|msgs| - 1];
      if IsQuestion(m) then Some(QuestionText(m))
      else
        var r := LastQuestion(msgs[..|msgs| - 1]);
        assert forall i :: 0 <= i < |msgs| - 1 ==> msgs[..|msgs| - 1][i] == msgs[i];
        r
  }

  /** `_get_last_human_question`: the last question's text; failing that
      the first message's `content` ('' for an empty list). A dict has no
      `content` attribute, so a leading dict raises. */
  function LastHumanQuestion(msgs: seq<AgentMsg>): (r: Result<string, string>)
    ensures LastQuestion(msgs).Some? ==> r == Success(LastQuestion(msgs).value)
    ensures LastQuestion(msgs).None? && |msgs| == 0 ==> r == Success("")
    ensures LastQuestion(msgs).None? && |msgs| > 0 && msgs[0].Typed? ==> r == Success(msgs[0].content)
    ensures r.Failure? <==> LastQuestion(msgs).None? && |msgs| > 0 && msgs[0].Dict?
  {
    match LastQuestion(msgs)
    case Some(q) => Success(q)
    case None =>
      if |msgs| == 0 then Success("")
      else if msgs[0].Typed? then Success(msgs[0].content)
      else Failure("AttributeError: 'dict' object has no attribute 'content'")
  }

  /** A question appended last is the one found, whatever came before. */
  lemma QuestionAppended(msgs: seq<AgentMsg>, q: string)
    ensures LastHumanQuestion(msgs + [Typed("human", q, [])]) == Success(q)
  {
    assert IsQuestion((msgs + [Typed("human", q, [])])[|msgs|]);
  }

  /** Messages that are not questions, appended, change nothing. */
  lemma {:induction false} NonQuestionsAppended(msgs: seq<AgentMsg>, more: seq<AgentMsg>)
    requires forall i :: 0 <= i < |more| ==> !IsQuestion(more[i])
    ensures LastQuestion(msgs + more) == LastQuestion(msgs)
    decreases |more|
  {
    if |more| > 0 {
      var init := more[..|more| - 1];
      assert (msgs + more)[..|msgs + more| - 1] == msgs + init;
      assert (msgs + more)[|msgs + more| - 1] == more[|more| - 1];
      NonQuestionsAppended(msgs, init);
    } else {
      assert msgs + more == msgs;
    }
  }

  // ---------------------------------------------------------------------
  // The system prompt

  /** The prepend rule of `generate_query_or_respond`: the system prompt
      goes in front of an empty list or one whose first message is not of
      type `system`; a system-led list is passed as it is. Reading `type` of
      a leading dict raises. */
  function PrepareMessages(msgs: seq<AgentMsg>): (r: Result<seq<AgentMsg>, string>)
    ensures |msgs| == 0 ==> r == Success([SystemDict])
    ensures |msgs| > 0 && msgs[0].Typed? && msgs[0].kind != "system" ==> r == Success([SystemDict] + msgs)
    ensures |msgs| > 0 && msgs[0].Typed? && msgs[0].kind == "system" ==> r == Success(msgs)
    ensures r.Failure? <==> |msgs| > 0 && msgs[0].Dict?
  {
    if |msgs| == 0 then Success([SystemDict])
    else if msgs[0].Dict? then Failure("AttributeError: 'dict' object has no attribute 'type'")
    else if msgs[0].kind != "system" then Success([SystemDict] + msgs)
    else Success(msgs)
  }

  /** What the model sees always starts with a system message, ends with
      the conversation unchanged, and asks the same question. */
  lemma PrepareKeepsConversation(msgs: seq<AgentMsg>)
    requires PrepareMessages(msgs).Success?
    ensures var r := PrepareMessages(msgs).value;
      && |r| >= 1 && |r| >= |msgs| && r[|r| - |msgs|..] == msgs
      && (r[0] == SystemDict || (r[0].Typed? && r[0].kind == "system"))
      && LastQuestion(r) == LastQuestion(msgs)
  {
    var r := PrepareMessages(msgs).value;
    if r != msgs {
      assert r == [SystemDict] + msgs;
      assert LastQuestion([SystemDict]) == None;
      NonQuestionsAppended([], [SystemDict]);
      PrependNonQuestion(SystemDict, msgs);
    }
  }

  /** Putting a non-question in front does not change the scan's result. */
  lemma {:induction false} PrependNonQuestion(m: AgentMsg, msgs: seq<AgentMsg>)
    requires !IsQuestion(m)
    ensures LastQuestion([m] + msgs) == LastQuestion(msgs)
    decreases |msgs|
  {
    if |msgs| == 0 {
      assert [m] + msgs == [m];
      assert [m][..0] == [];
    } else {
      var init := msgs[..|msgs| - 1];
      assert ([m] + msgs)[..|msgs|] == [m] + init;
      assert ([m] + msgs)[|msgs|] == msgs[|msgs| - 1];
      PrependNonQuestion(m, init);
    }
  }

  // ---------------------------------------------------------------------
  // The graph

  datatype Node = Start | GenerateQueryOrRespond | Retrieve | RewriteQuestion | GenerateAnswer | End

  /** The edges the graph declares. */
  function Successors(n: Node): (r: set<Node>)
    ensures n == End <==> r == {}
    ensures GenerateQueryOrRespond in r <==> n == Start || n == RewriteQuestion
    ensures Retrieve in r <==> n == GenerateQueryOrRespond
    ensures GenerateAnswer in r <==> n == Retrieve
    ensures RewriteQuestion in r <==> n == Retrieve
    ensures End in r <==> n == GenerateQueryOrRespond || n == GenerateAnswer
    ensures Start !in r
  {
    match n
    case Start => {GenerateQueryOrRespond}
    case GenerateQueryOrRespond => {Retrieve, End}
    case Retrieve => {GenerateAnswer, RewriteQuestion}
    case RewriteQuestion => {GenerateQueryOrRespond}
    case GenerateAnswer => {End}
    case End => {}
  }

  /** The conditional edge out of `retrieve`: `generate_answer` iff the
      lowercased score is exactly 'yes'. */
  function Route(score: string): (r: Node)
    ensures r == GenerateAnswer <==> Lower(score) == "yes"
    ensures r == RewriteQuestion <==> Lower(score) != "yes"
    ensures r in Successors(Retrieve)
  {
    if Lower(score) == "yes" then GenerateAnswer else RewriteQuestion
  }

  /** Routing ignores case: 'YES', 'Yes' and 'yes' all answer. */
  lemma RouteIgnoresCase(score: string)
    ensures Route(Lower(score)) == Route(score)
    ensures Route("YES") == GenerateAnswer && Route("no") == RewriteQuestion
  {
    LowerIdempotent(score);
    assert Lower("YES") == "yes";
    assert Lower("no") == "no";
  }

  /** A language model as the agent uses it: with the tool bound, plainly,
      and with structured output giving the grading model's `binary_score`. */
  datatype Llm = Llm(
    withTools: seq<AgentMsg> -> AgentMsg,
    plain: seq<AgentMsg> -> string,
    binaryScore: seq<AgentMsg> -> string)

  /** `grader_model or llm`. */
  function GraderOf(llm: Llm, grader: Option<Llm>): (g: Llm)
    ensures grader.None? ==> g == llm
    ensures grader.Some? ==> g == grader.value
  {
    grader.GetOr(llm)
  }

  /** What the agent runs with: its models, and the project context and
      search oracles the tool needs. `sim(q)` scores a row against the
      embedding of query `q`, so each query has its own ranking. */
  datatype Env = Env(llm: Llm, grader: Option<Llm>, db: Db, projectId: int,
                     sim: string -> FileContent -> real, pct: real -> string)

  /** `search_project_documents`: the project's top hits for `query`,
      formatted for the model; a blank query raises. */
  function SearchTool(env: Env, query: string): (r: Result<string, string>)
    ensures SearchSimilar(env.db, query, env.projectId, env.sim(query)).Failure? <==> r.Failure?
    ensures r.Success? ==> r.value == FormatForLlm(SearchSimilar(env.db, query, env.projectId, env.sim(query)).value, env.pct)
    ensures AllSpace(query) ==> r == Failure(EmptyQuery)
  {
    var hits :- SearchSimilar(env.db, query, env.projectId, env.sim(query));
    Success(FormatForLlm(hits, env.pct))
  }

  /** A search that finds nothing still answers the model, with the
      "nothing found" text. */
  lemma SearchToolNothingFound(env: Env, query: string)
    requires !AllSpace(query)
    requires forall f :: f in env.db.files ==> f.projectId != env.projectId
    ensures SearchTool(env, query) == Success(NoContent)
  {
  }

  /** `messages[-1].content`. */
  function LastContent(msgs: seq<AgentMsg>): (r: Result<string, string>)
    ensures r.Success? <==> |msgs| > 0 && msgs[|msgs| - 1].Typed?
    ensures r.Success? ==> r.value == msgs[|msgs| - 1].content
  {
    if |msgs| == 0 then Failure("IndexError: list index out of range")
    else if msgs[|msgs| - 1].Dict? then Failure("AttributeError: 'dict' object has no attribute 'content'")
    else Success(msgs[|msgs| - 1].content)
  }

  /** `grade_documents`: the grading model sees one user message holding the grade
      prompt for the last question and the last message's content. */
  function GradeDocuments(msgs: seq<AgentMsg>, env: Env): (r: Result<Node, string>)
    ensures r.Success? ==> r.value in Successors(Retrieve)
    ensures r.Success? <==> LastHumanQuestion(msgs).Success? && LastContent(msgs).Success?
    ensures r.Success? ==>
      var score := GraderOf(env.llm, env.grader).binaryScore([UserDict(GradePrompt(LastHumanQuestion(msgs).value, LastContent(msgs).value))]);
      (r.value == GenerateAnswer <==> Lower(score) == "yes")
  {
    var question :- LastHumanQuestion(msgs);
    var context :- LastContent(msgs);
    Success(Route(GraderOf(env.llm, env.grader).binaryScore([UserDict(GradePrompt(question, context))])))
  }

  /** `longer` is `shorter` with messages added at the end. */
  predicate Extends(longer: seq<AgentMsg>, shorter: seq<AgentMsg>) {
    |longer| >= |shorter| && longer[..|shorter|] == shorter
  }

  /** `generate_query_or_respond` and `tools_condition`: the model's reply
      is appended; a reply that calls the tool goes to `retrieve`, any other
      to END. */
  function StepQuery(msgs: seq<AgentMsg>, env: Env): (r: Result<(Node, seq<AgentMsg>), string>)
    ensures r.Success? <==> PrepareMessages(msgs).Success?
    ensures r.Success? ==>
      && r.value.1 == msgs + [env.llm.withTools(PrepareMessages(msgs).value)]
      && (r.value.0 == Retrieve <==> r.value.1[|msgs|].Typed? && |r.value.1[|msgs|].toolQueries| > 0)
      && r.value.0 in Successors(GenerateQueryOrRespond)
    ensures r.Success? ==> Extends(r.value.1, msgs)
  {
    var prepared :- PrepareMessages(msgs);
    var reply := env.llm.withTools(prepared);
    var next := if reply.Typed? && |reply.toolQueries| > 0 then Retrieve else End;
    assert (msgs + [reply])[..|msgs|] == msgs;
    Success((next, msgs + [reply]))
  }

  /** The tool as the tool node calls it, bound to the agent's context. */
  function SearchOf(env: Env): (search: string -> Result<string, string>)
    ensures forall q :: search(q) == SearchTool(env, q)
  {
    (q: string) => SearchTool(env, q)
  }

  /** The tool node's calls: the tool on each query, in order; all
      succeed, or the run fails. */
  function ToolResults(search: string -> Result<string, string>, queries: seq<string>): (r: Result<seq<string>, string>)
    ensures r.Success? <==> forall i :: 0 <= i < |queries| ==> search(queries[i]).Success?
    ensures r.Success? ==> |r.value| == |queries|
    ensures r.Success? ==> forall i :: 0 <= i < |queries| ==> r.value[i] == search(queries[i]).value
    decreases |queries|
  {
    if |queries| == 0 then Success([])
    else
      var first :- search(queries[0]);
      var rest := ToolResults(search, queries[1..]);
      assert forall i :: 1 <= i < |queries| ==> queries[1..][i - 1] == queries[i];
      match rest
      case Failure(e) => Failure(e)
      case Success(more) => Success([first] + more)
  }

  /** One `tool` message per result, in order. */
  function ToolMessages(results: seq<string>): (ms: seq<AgentMsg>)
    ensures |ms| == |results|
    ensures forall i :: 0 <= i < |results| ==> ms[i] == Typed("tool", results[i], [])
  {
    seq(|results|, i requires 0 <= i < |results| => Typed("tool", results[i], []))
  }

  /** The last message, when it is a message object that calls the tool. */
  predicate CallsTool(msgs: seq<AgentMsg>) {
    |msgs| > 0 && msgs[|msgs| - 1].Typed? && |msgs[|msgs| - 1].toolQueries| > 0
  }

  /** The queries of the last message's tool calls. */
  function Calls(msgs: seq<AgentMsg>): seq<string>
    requires CallsTool(msgs)
  {
    msgs[|msgs| - 1].toolQueries
  }

  /** `retrieve` (the tool node) and then `grade_documents`: every call of
      the last reply is run and its text appended as a `tool` message, in
      call order; the grade then reads the last of them. */
  function StepRetrieve(msgs: seq<AgentMsg>, env: Env): (r: Result<(Node, seq<AgentMsg>), string>)
    ensures !CallsTool(msgs) ==> r.Failure?
    ensures CallsTool(msgs) && ToolResults(SearchOf(env), Calls(msgs)).Failure? ==> r.Failure?
    ensures CallsTool(msgs) && ToolResults(SearchOf(env), Calls(msgs)).Success? ==>
      var msgs' := msgs + ToolMessages(ToolResults(SearchOf(env), Calls(msgs)).value);
      (r.Success? <==> GradeDocuments(msgs', env).Success?)
      && (r.Success? ==> r.value == (GradeDocuments(msgs', env).value, msgs'))
    ensures r.Success? ==> r.value.0 in Successors(Retrieve)
    ensures r.Success? ==> |r.value.1| > |msgs| && Extends(r.value.1, msgs)
  {
    if !CallsTool(msgs) then
      Failure("ValueError: No AIMessage found in input")
    else
      var results :- ToolResults(SearchOf(env), Calls(msgs));
      var msgs' := msgs + ToolMessages(results);
      assert msgs'[..|msgs|] == msgs;
      var next :- GradeDocuments(msgs', env);
      Success((next, msgs'))
  }

  /** The tool node's results are the searches of the calls' queries. */
  lemma SearchResults(env: Env, queries: seq<string>)
    requires ToolResults(SearchOf(env), queries).Success?
    ensures |ToolResults(SearchOf(env), queries).value| == |queries|
    ensures forall i :: 0 <= i < |queries| ==>
      SearchTool(env, queries[i]).Success? && ToolResults(SearchOf(env), queries).value[i] == SearchTool(env, queries[i]).value
  {
    var search := SearchOf(env);
    forall i | 0 <= i < |queries|
      ensures SearchTool(env, queries[i]).Success? && ToolResults(search, queries).value[i] == SearchTool(env, queries[i]).value
    {
      assert search(queries[i]) == SearchTool(env, queries[i]);
    }
  }

  /** What `retrieve` appends: one `tool` message per call, in call order,
      each holding that call's search text; the grade reads only the last
      call's result, against the question asked before the calls. */
  lemma RetrieveAppendsResults(msgs: seq<AgentMsg>, env: Env)
    requires StepRetrieve(msgs, env).Success?
    ensures CallsTool(msgs)
    ensures var queries := Calls(msgs);
      var msgs' := StepRetrieve(msgs, env).value.1;
      && |msgs'| == |msgs| + |queries|
      && (forall i :: 0 <= i < |queries| ==>
            SearchTool(env, queries[i]).Success? && msgs'[|msgs| + i] == Typed("tool", SearchTool(env, queries[i]).value, []))
      && LastContent(msgs') == Success(SearchTool(env, queries[|queries| - 1]).value)
      && LastQuestion(msgs') == LastQuestion(msgs)
  {
    var queries := Calls(msgs);
    var results := ToolResults(SearchOf(env), queries).value;
    SearchResults(env, queries);
    assert StepRetrieve(msgs, env).value.1 == msgs + ToolMessages(results);
    ToolMessagesAppended(msgs, results);
  }

  /** Appending tool messages for `results`: message `|msgs| + i` holds
      result i, the last content is the last result, and the question is
      unchanged. */
  lemma ToolMessagesAppended(msgs: seq<AgentMsg>, results: seq<string>)
    requires |results| > 0
    ensures var msgs' := msgs + ToolMessages(results);
      && |msgs'| == |msgs| + |results|
      && (forall i :: 0 <= i < |results| ==> msgs'[|msgs| + i] == Typed("tool", results[i], []))
      && LastContent(msgs') == Success(results[|results| - 1])
      && LastQuestion(msgs') == LastQuestion(msgs)
  {
    var added := ToolMessages(results);
    var msgs' := msgs + added;
    forall i | 0 <= i < |results| ensures msgs'[|msgs| + i] == Typed("tool", results[i], []) {
      assert msgs'[|msgs| + i] == added[i];
    }
    assert msgs'[|msgs'| - 1] == added[|results| - 1];
    forall i | 0 <= i < |added| ensures !IsQuestion(added[i]) {
    }
    NonQuestionsAppended(msgs, added);
  }

  /** `rewrite_question`: the model's rewording of the last question comes
      back as one new human message. */
  function StepRewrite(msgs: seq<AgentMsg>, env: Env): (r: Result<(Node, seq<AgentMsg>), string>)
    ensures r.Success? <==> LastHumanQuestion(msgs).Success?
    ensures r.Success? ==>
      && r.value.0 == GenerateQueryOrRespond
      && r.value.1 == msgs + [Typed("human", env.llm.plain([UserDict(RewritePrompt(LastHumanQuestion(msgs).value))]), [])]
    ensures r.Success? ==> Extends(r.value.1, msgs)
  {
    var question :- LastHumanQuestion(msgs);
    var msgs' := msgs + [Typed("human", env.llm.plain([UserDict(RewritePrompt(question))]), [])];
    assert msgs'[..|msgs|] == msgs;
    Success((GenerateQueryOrRespond, msgs'))
  }

  /** `generate_answer`: the model answers from the last question and the
      last message's content; the run then ends. */
  function StepAnswer(msgs: seq<AgentMsg>, env: Env): (r: Result<(Node, seq<AgentMsg>), string>)
    ensures r.Success? <==> LastHumanQuestion(msgs).Success? && LastContent(msgs).Success?
    ensures r.Success? ==>
      && r.value.0 == End
      && r.value.1 == msgs + [Typed("ai", env.llm.plain([UserDict(GeneratePrompt(LastHumanQuestion(msgs).value, LastContent(msgs).value))]), [])]
    ensures r.Success? ==> Extends(r.value.1, msgs)
  {
    var question :- LastHumanQuestion(msgs);
    var context :- LastContent(msgs);
    var msgs' := msgs + [Typed("ai", env.llm.plain([UserDict(GeneratePrompt(question, context))]), [])];
    assert msgs'[..|msgs|] == msgs;
    Success((End, msgs'))
  }

  /** One node's update and the node taken next, for every node but END:
      the graph's edges are followed and messages are only added. */
  function Step(n: Node, msgs: seq<AgentMsg>, env: Env): (r: Result<(Node, seq<AgentMsg>), string>)
    requires n != End
    ensures r.Success? ==> r.value.0 in Successors(n)
    ensures r.Success? ==> Extends(r.value.1, msgs)
    ensures n == Start ==> r == Success((GenerateQueryOrRespond, msgs))
  {
    match n
    case Start =>
      assert msgs[..|msgs|] == msgs;
      Success((GenerateQueryOrRespond, msgs))
    case GenerateQueryOrRespond =>
      var r := StepQuery(msgs, env);
      assert r.Success? ==> r.value.0 in Successors(n) && Extends(r.value.1, msgs);
      r
    case Retrieve =>
      var r := StepRetrieve(msgs, env);
      assert r.Success? ==> r.value.0 in Successors(n) && Extends(r.value.1, msgs);
      r
    case RewriteQuestion =>
      var r := StepRewrite(msgs, env);
      assert r.Success? ==> r.value.0 == GenerateQueryOrRespond && Extends(r.value.1, msgs);
      r
    case GenerateAnswer =>
      var r := StepAnswer(msgs, env);
      assert r.Success? ==> r.value.0 == End && Extends(r.value.1, msgs);
      r
  }

  /** After `rewrite_question` the question the next scan finds is the
      rewritten one. */
  lemma RewriteBecomesQuestion(msgs: seq<AgentMsg>, env: Env)
    requires StepRewrite(msgs, env).Success?
    ensures var (_, msgs') := StepRewrite(msgs, env).value;
      LastHumanQuestion(msgs') == Success(msgs'[|msgs|].content)
  {
    var msgs' := StepRewrite(msgs, env).value.1;
    assert msgs' == msgs + [msgs'[|msgs|]];
    QuestionAppended(msgs, msgs'[|msgs|].content);
  }

  /** Consecutive nodes of `trace` are joined by edges of the graph. */
  predicate IsPath(trace: seq<Node>) {
    forall i :: 0 <= i < |trace| - 1 ==> trace[i + 1] in Successors(trace[i])
  }

  lemma PathCons(n: Node, trace: seq<Node>)
    requires |trace| >= 1 && IsPath(trace) && trace[0] in Successors(n)
    ensures IsPath([n] + trace)
  {
    var t := [n] + trace;
    forall i | 0 <= i < |t| - 1 ensures t[i + 1] in Successors(t[i]) {
      if i > 0 { assert t[i] == trace[i - 1] && t[i + 1] == trace[i]; }
    }
  }

  lemma ExtendsTrans(a: seq<AgentMsg>, b: seq<AgentMsg>, c: seq<AgentMsg>)
    requires |b| >= |a| && b[..|a|] == a && |c| >= |b| && c[..|b|] == b
    ensures c[..|a|] == a
  {
    assert c[..|b|][..|a|] == c[..|a|];
  }

  /** The graph run: steps until END. Each step counts against
      LangGraph's recursion limit, `fuel`; running out raises. */
  function Run(n: Node, msgs: seq<AgentMsg>, env: Env, fuel: nat): (r: Result<(seq<Node>, seq<AgentMsg>), string>)
    ensures r.Success? ==> |r.value.0| >= 1 && r.value.0[0] == n && r.value.0[|r.value.0| - 1] == End
    ensures r.Success? ==> IsPath(r.value.0)
    ensures r.Success? ==> |r.value.1| >= |msgs| && r.value.1[..|msgs|] == msgs
    decreases fuel
  {
    if n == End then Success(([End], msgs))
    else if fuel == 0 then Failure("GraphRecursionError: Recursion limit reached without hitting a stop condition")
    else
      var (next, msgs') :- Step(n, msgs, env);
      var (trace, final) :- Run(next, msgs', env, fuel - 1);
      PathCons(n, trace);
      ExtendsTrans(msgs, msgs', final);
      Success(([n] + trace, final))
  }

  /** In every finished run from START an answer is generated only right
      after `retrieve`, which itself follows `generate_query_or_respond`:
      no answer without a retrieval. */
  lemma AnswerFollowsRetrieval(msgs: seq<AgentMsg>, env: Env, fuel: nat, i: nat)
    requires Run(Start, msgs, env, fuel).Success?
    requires i < |Run(Start, msgs, env, fuel).value.0|
    requires Run(Start, msgs, env, fuel).value.0[i] == GenerateAnswer
    ensures var trace := Run(Start, msgs, env, fuel).value.0;
      i >= 2 && trace[i - 1] == Retrieve && trace[i - 2] == GenerateQueryOrRespond
  {
    var trace := Run(Start, msgs, env, fuel).value.0;
    assert i != 0;
    assert GenerateAnswer in Successors(trace[i - 1]);
    assert i - 1 != 0;
    assert Retrieve in Successors(trace[i - 2]);
  }
}

=== FILE: text.dfy ===
/** The few Python string operations the core relies on, over `seq<char>`:
    `str.isspace`, `str.strip`, `str.replace` of one character, ASCII
    `str.lower`, the `in` substring test, `str.join`, and decimal rendering
    of integers as `str(n)` / f-strings produce it. */
module Text {

  /** Python's `str.isspace()` for a single character. */
  predicate IsSpace(c: char) {
    || c == ' '
    || ('\t' <= c <= '\r')
    || ('\U{1C}' <= c <= '\U{1F}')
    || c == '\U{85}' || c == '\U{A0}' || c == '\U{1680}'
    || ('\U{2000}' <= c <= '\U{200A}')
    || c == '\U{2028}' || c == '\U{2029}' || c == '\U{202F}'
    || c == '\U{205F}' || c == '\U{3000}'
  }

  predicate AllSpace(s: string) {
    forall i :: 0 <= i < |s| ==> IsSpace(s[i])
  }

  /** True when `s` neither starts nor ends with whitespace. */
  predicate Trimmed(s: string) {
    |s| > 0 ==> !IsSpace(s[0]) && !IsSpace(s[|s| - 1])
  }

  /** Number of leading whitespace characters of `s`. */
  function LeadLen(s: string): (n: nat)
    ensures n <= |s|
    ensures forall i :: 0 <= i < n ==> IsSpace(s[i])
    ensures n < |s| ==> !IsSpace(s[n])
  {
    if |s| > 0 && IsSpace(s[0]) then LeadLen(s[1..]) + 1 else 0
  }

  /** Number of trailing whitespace characters of `s`. */
  function TrailLen(s: string): (n: nat)
    ensures n <= |s|
    ensures forall i :: |s| - n <= i < |s| ==> IsSpace(s[i])
    ensures n < |s| ==> !IsSpace(s[|s| - n - 1])
  {
    if |s| > 0 && IsSpace(s[|s| - 1]) then TrailLen(s[..|s| - 1]) + 1 else 0
  }

  /** Python's `s.strip()`: the text between the leading and the trailing
      run of whitespace. */
  function Strip(s: string): (r: string)
    ensures Trimmed(r)
    ensures |r| <= |s|
    ensures r == "" <==> AllSpace(s)
    ensures r != "" ==> r == s[LeadLen(s)..|s| - TrailLen(s)]
  {
    var a := LeadLen(s);
    if a == |s| then
      ""
    else
      var b := TrailLen(s);
      assert !IsSpace(s[a]);
      var r := s[a..|s| - b];
      assert r[0] == s[a] && r[|r| - 1] == s[|s| - b - 1];
      assert !AllSpace(s) by { assert !IsSpace(s[a]); }
      r
  }

  lemma {:induction false} LeadLenOfSpacePrefix(a: string, r: string)
    requires AllSpace(a)
    requires |r| > 0 && !IsSpace(r[0])
    ensures LeadLen(a + r) == |a|
    decreases |a|
  {
    if |a| > 0 {
      assert (a + r)[1..] == a[1..] + r;
      LeadLenOfSpacePrefix(a[1..], r);
    } else {
      assert a + r == r;
    }
  }

  lemma {:induction false} TrailLenOfSpaceSuffix(r: string, b: string)
    requires AllSpace(b)
    requires |r| > 0 && !IsSpace(r[|r| - 1])
    ensures TrailLen(r + b) == |b|
    decreases |b|
  {
    if |b| > 0 {
      assert (r + b)[..|r + b| - 1] == r + b[..|b| - 1];
      TrailLenOfSpaceSuffix(r, b[..|b| - 1]);
    } else {
      assert r + b == r;
    }
  }

  /** Characterisation of `Strip`: whatever sits between two runs of
      whitespace and is itself trimmed is exactly what `strip()` returns. */
  lemma StripOfPadded(a: string, r: string, b: string)
    requires AllSpace(a) && AllSpace(b) && Trimmed(r)
    ensures Strip(a + r + b) == r
  {
    var s := a + r + b;
    if |r| == 0 {
      assert s == a + b;
      assert AllSpace(s) by {
        forall i | 0 <= i < |s| ensures IsSpace(s[i]) {
          if i < |a| { assert s[i] == a[i]; } else { assert s[i] == b[i - |a|]; }
        }
      }
    } else {
      assert s == a + (r + b);
      LeadLenOfSpacePrefix(a, r + b);
      TrailLenOfSpaceSuffix(a + r, b);
      assert s[|a|] == r[0];
      assert s[|a|..|s| - |b|] == r;
    }
  }

  /** `strip()` is idempotent. */
  lemma StripIdempotent(s: string)
    ensures Strip(Strip(s)) == Strip(s)
  {
    var r := Strip(s);
    assert "" + r + "" == r;
    StripOfPadded("", r, "");
  }

  /** `s.replace(from, to)` for single characters. */
  function ReplaceChar(s: string, from: char, to: char): (r: string)
    ensures |r| == |s|
    ensures forall i :: 0 <= i < |s| ==> r[i] == (if s[i] == from then to else s[i])
  {
    if |s| == 0 then "" else [if s[0] == from then to else s[0]] + ReplaceChar(s[1..], from, to)
  }

  /** ASCII-only `str.lower()` of one character. */
  function LowerChar(c: char): char {
    if 'A' <= c <= 'Z' then (c as int + 32) as char else c
  }

  /** ASCII-only `str.lower()`. */
  function Lower(s: string): (r: string)
    ensures |r| == |s|
    ensures forall i :: 0 <= i < |s| ==> r[i] == LowerChar(s[i])
  {
    if |s| == 0 then "" else [LowerChar(s[0])] + Lower(s[1..])
  }

  /** A string without upper-case letters is its own lower case. */
  lemma LowerNoUpper(s: string)
    requires forall i :: 0 <= i < |s| ==> !('A' <= s[i] <= 'Z')
    ensures Lower(s) == s
  {
    assert forall i :: 0 <= i < |s| ==> Lower(s)[i] == s[i];
  }

  /** Lower-casing twice is lower-casing once. */
  lemma LowerIdempotent(s: string)
    ensures Lower(Lower(s)) == Lower(s)
  {
  }

  predicate StartsWith(s: string, prefix: string) {
    |prefix| <= |s| && s[..|prefix|] == prefix
  }

  predicate EndsWith(s: string, suffix: string) {
    |suffix| <= |s| && s[|s| - |suffix|..] == suffix
  }

  /** Python's `sub in s`. */
  predicate Contains(s: string, sub: string)
    decreases |s|
  {
    StartsWith(s, sub) || (|s| > 0 && Contains(s[1..], sub))
  }

  /** Python's `sep.join(parts)`. */
  function Join(parts: seq<string>, sep: string): string
    decreases |parts|
  {
    if |parts| == 0 then ""
    else if |parts| == 1 then parts[0]
    else parts[0] + sep + Join(parts[1..], sep)
  }

  /** Appending one more part to a non-empty join adds one separator and
      that part at the end; earlier parts are untouched. */
  lemma {:induction false} JoinSnoc(parts: seq<string>, x: string, sep: string)
    requires |parts| >= 1
    ensures Join(parts + [x], sep) == Join(parts, sep) + sep + x
    decreases |parts|
  {
    if |parts| == 1 {
      assert (parts + [x])[1..] == [x];
    } else {
      assert (parts + [x])[1..] == parts[1..] + [x];
      JoinSnoc(parts[1..], x, sep);
    }
  }

  /** Text in front does not hide an occurrence. */
  lemma {:induction false} ContainsAppend(a: string, b: string, sub: string)
    requires Contains(b, sub)
    ensures Contains(a + b, sub)
    decreases |a|
  {
    if |a| > 0 {
      assert (a + b)[1..] == a[1..] + b;
      ContainsAppend(a[1..], b, sub);
    } else {
      assert a + b == b;
    }
  }

  /** Text after does not hide an occurrence. */
  lemma {:induction false} ContainsPrepend(a: string, rest: string, sub: string)
    requires Contains(a, sub)
    ensures Contains(a + rest, sub)
    decreases |a|
  {
    if StartsWith(a, sub) {
      assert (a + rest)[..|sub|] == a[..|sub|];
    } else {
      assert (a + rest)[1..] == a[1..] + rest;
      ContainsPrepend(a[1..], rest, sub);
    }
  }

  /** An occurrence of an occurrence is an occurrence. */
  lemma {:induction false} ContainsTrans(a: string, b: string, c: string)
    requires Contains(a, b) && Contains(b, c)
    ensures Contains(a, c)
    decreases |a|
  {
    if StartsWith(a, b) {
      assert a == b + a[|b|..];
      ContainsPrepend(b, a[|b|..], c);
    } else {
      ContainsTrans(a[1..], b, c);
    }
  }

  /** A string contains its suffixes. */
  lemma ContainsSuffix(s: string, suffix: string)
    requires EndsWith(s, suffix)
    ensures Contains(s, suffix)
  {
    assert s == s[..|s| - |suffix|] + suffix;
    assert suffix[..|suffix|] == suffix;
    ContainsAppend(s[..|s| - |suffix|], suffix, suffix);
  }

  /** Every part of a join occurs in it. */
  lemma {:induction false} JoinContains(parts: seq<string>, sep: string, i: nat)
    requires i < |parts|
    ensures Contains(Join(parts, sep), parts[i])
    decreases |parts|
  {
    var j := Join(parts, sep);
    if |parts| == 1 {
      assert j[..|parts[0]|] == parts[0];
    } else if i == 0 {
      assert j == parts[0] + (sep + Join(parts[1..], sep));
      assert j[..|parts[0]|] == parts[0];
    } else {
      assert j == (parts[0] + sep) + Join(parts[1..], sep);
      JoinContains(parts[1..], sep, i - 1);
      ContainsAppend(parts[0] + sep, Join(parts[1..], sep), parts[i]);
    }
  }

  function DigitChar(d: nat): char
    requires d < 10
  {
    "0123456789"[d]
  }

  predicate IsDigit(c: char) {
    '0' <= c <= '9'
  }

  function DigitValue(c: char): nat
    requires IsDigit(c)
  {
    (c as int - '0' as int) as nat
  }

  /** `str(n)` for a natural number: decimal digits, no leading zero. */
  function NatToString(n: nat): (r: string)
    ensures |r| >= 1
    ensures forall i :: 0 <= i < |r| ==> IsDigit(r[i])
    ensures |r| > 1 ==> r[0] != '0'
  {
    if n < 10 then [DigitChar(n)] else NatToString(n / 10) + [DigitChar(n % 10)]
  }

  /** The value of a string of decimal digits. */
  function ParseNat(s: string): nat
    requires forall i :: 0 <= i < |s| ==> IsDigit(s[i])
  {
    if |s| == 0 then 0 else ParseNat(s[..|s| - 1]) * 10 + DigitValue(s[|s| - 1])
  }

  /** Decimal rendering round-trips through parsing. */
  lemma {:induction false} ParseNatToString(n: nat)
    ensures ParseNat(NatToString(n)) == n
  {
    if n >= 10 {
      var s := NatToString(n);
      assert s[..|s| - 1] == NatToString(n / 10);
      ParseNatToString(n / 10);
    }
  }

  /** `str(i)` / `f'{i}'` for any integer. */
  function IntToString(i: int): (r: string)
    ensures |r| >= 1
    ensures r[0] == '-' <==> i < 0
  {
    if i < 0 then "-" + NatToString(-i) else NatToString(i)
  }

  /** Distinct naturals render as distinct strings. */
  lemma NatToStringInjective(m: nat, n: nat)
    requires NatToString(m) == NatToString(n)
    ensures m == n
  {
    ParseNatToString(m);
    ParseNatToString(n);
  }

  /** A negative number renders as a minus sign followed by the digits of
      its magnitude. */
  lemma NegativeDigits(i: int)
    requires i < 0
    ensures IntToString(i)[1..] == NatToString(-i)
  {
    assert ("-" + NatToString(-i))[1..] == NatToString(-i);
  }

  /** Distinct integers render as distinct strings. */
  lemma IntToStringInjective(i: int, j: int)
    requires IntToString(i) == IntToString(j)
    ensures i == j
  {
    var s := IntToString(i);
    assert s[0] == IntToString(j)[0];
    if i < 0 {
      assert j < 0;
      NegativeDigits(i);
      NegativeDigits(j);
      NatToStringInjective(-i, -j);
    } else {
      assert j >= 0;
      assert IntToString(i) == NatToString(i) && IntToString(j) == NatToString(j);
      NatToStringInjective(i, j);
    }
  }
}

=== FILE: users_api.dfy ===
/** backend/app/routers/users.py: the JSON user endpoints. The password
    hash is an uninterpreted function `hash`; the authenticated caller is
    the key `me` of an existing user. */
module UsersApi {
  import opened Wrappers
  import opened Listing
  import opened Models

  const UsernameExists: HttpError := HttpError(409, "Username already exists")
  const EmailExists: HttpError := HttpError(409, "Email already exists")
  const Forbidden: HttpError := HttpError(403, "Not enough permissions")
  const Clash: HttpError := HttpError(409, "Username or Email already exists")
  const UserNotFound: HttpError := HttpError(404, "User not found")
  const Invalid: HttpError := HttpError(422, "Unprocessable Entity")

  /** `select(User).where((username == u) | (email == e))` then `scalar()`:
      the first user in table order holding either value. */
  function FirstClash(db: Db, username: string, email: string): (r: Option<User>)
    ensures r.None? <==> !UsernameTaken(db, username) && !EmailTaken(db, email)
    ensures r.Some? ==> r.value in db.users && (r.value.username == username || r.value.email == email)
  {
    var r := First(db.users, (v: User) => v.username == username || v.email == email);
    assert r.Some? ==> r.value in db.users by {
      if r.Some? { var i :| 0 <= i < |db.users| && db.users[i] == r.value; }
    }
    r
  }

  /** `create_user` as the source writes it: the error is decided by the
      first clashing row alone, so a row that clashes on email and sits
      before the row that holds the username yields the email error. */
  function CreateAsWritten(db: Db, username: string, email: string, password: string, isAdmin: bool, hash: string -> string)
    : (r: (Db, Result<User, HttpError>))
    requires Valid(db)
    ensures Valid(r.0)
    ensures r.1.Failure? <==> UsernameTaken(db, username) || EmailTaken(db, email)
    ensures r.1.Failure? ==> r.0 == db && (r.1.error == UsernameExists || r.1.error == EmailExists)
    ensures r.1.Success? ==> r.1.value == User(r.1.value.id, username, hash(password), email, isAdmin)
    ensures r.1.Success? ==> r.1.value.id !in UserIds(db) && r.0.users == db.users + [r.1.value]
    ensures r.1.Success? ==> r.0.projects == db.projects && r.0.files == db.files
  {
    match FirstClash(db, username, email)
    case Some(v) =>
      if v.username == username then (db, Failure(UsernameExists)) else (db, Failure(EmailExists))
    case None =>
      var (db', u) := InsertUser(db, username, hash(password), email, isAdmin).value;
      (db', Success(u))
  }

  /** Two rows, the first clashing on email only, the second on username:
      the request clashes on the username, yet the email error comes back. */
  lemma CreateAsWrittenMisreports(hash: string -> string)
    ensures var db := EmptyDb.(users := [User(1, "ana", "h", "x@e", false), User(2, "bob", "h", "y@e", false)], nextUser := 3);
      && Valid(db)
      && UsernameTaken(db, "bob")
      && CreateAsWritten(db, "bob", "x@e", "pw", false, hash).1 == Failure(EmailExists)
  {
    var db := EmptyDb.(users := [User(1, "ana", "h", "x@e", false), User(2, "bob", "h", "y@e", false)], nextUser := 3);
    assert db.users[1].username == "bob";
    assert "ana" != "bob";
    assert FirstClash(db, "bob", "x@e") == Some(db.users[0]);
  }

  /** `create_user` with the evidently intended precedence: a taken
      username is reported whenever there is one, the email error only
      when the username is free; a new user stores `hash(password)`. */
  function Create(db: Db, username: string, email: string, password: string, isAdmin: bool, hash: string -> string)
    : (r: (Db, Result<User, HttpError>))
    requires Valid(db)
    ensures Valid(r.0)
    ensures UsernameTaken(db, username) ==> r == (db, Failure(UsernameExists))
    ensures !UsernameTaken(db, username) && EmailTaken(db, email) ==> r == (db, Failure(EmailExists))
    ensures r.1.Success? <==> !UsernameTaken(db, username) && !EmailTaken(db, email)
    ensures r.1.Success? ==> r.1.value == User(r.1.value.id, username, hash(password), email, isAdmin)
    ensures r.1.Success? ==> r.1.value.id !in UserIds(db) && r.0.users == db.users + [r.1.value]
    ensures r.1.Success? ==> r.0.projects == db.projects && r.0.files == db.files
  {
    if UsernameTaken(db, username) then (db, Failure(UsernameExists))
    else if EmailTaken(db, email) then (db, Failure(EmailExists))
    else
      var (db', u) := InsertUser(db, username, hash(password), email, isAdmin).value;
      (db', Success(u))
  }

  /** The two agree whenever the first clashing row is the one holding the
      username, in particular when one row clashes on both. */
  lemma CreateAgreesOnSingleClash(db: Db, username: string, email: string, password: string, isAdmin: bool, hash: string -> string)
    requires Valid(db)
    requires FirstClash(db, username, email).Some? ==> FirstClash(db, username, email).value.username == username || !UsernameTaken(db, username)
    ensures CreateAsWritten(db, username, email, password, isAdmin, hash) == Create(db, username, email, password, isAdmin, hash)
  {
  }

  /** `read_users`: `FilterPage` demands `offset >= 0` and `limit >= 1`;
      the page is `users[offset:offset + limit]` and the total counts all
      users. */
  function Read(db: Db, offset: int := 0, limit: int := 100): (r: Result<(seq<User>, nat), HttpError>)
    ensures r.Failure? <==> offset < 0 || limit < 1
    ensures r.Failure? ==> r.error == Invalid
    ensures r.Success? ==> r.value.1 == |db.users|
    ensures r.Success? ==> |r.value.0| <= limit
    ensures r.Success? ==> forall i :: 0 <= i < |r.value.0| ==> offset + i < |db.users| && r.value.0[i] == db.users[offset + i]
    ensures r.Success? ==>
      |r.value.0| == (if offset >= |db.users| then 0 else if |db.users| - offset < limit then |db.users| - offset else limit)
  {
    if offset < 0 || limit < 1 then Failure(Invalid)
    else Success((Page(db.users, offset, limit), |db.users|))
  }

  /** `update_user`: only the caller's own record; a value another user
      holds gives 409 and no change; `is_admin` is never touched. */
  function Update(db: Db, me: int, userId: int, username: string, email: string, password: string, hash: string -> string)
    : (r: (Db, Result<User, HttpError>))
    requires Valid(db) && me in UserIds(db)
    ensures Valid(r.0)
    ensures me != userId ==> r == (db, Failure(Forbidden))
    ensures me == userId && (exists v :: v in db.users && v.id != me && (v.username == username || v.email == email)) ==>
      r == (db, Failure(Clash))
    ensures r.1.Success? <==> me == userId && !exists v :: v in db.users && v.id != me && (v.username == username || v.email == email)
    ensures r.1.Success? ==>
      && r.1.value == FindUser(db, me).value.(username := username, email := email, password := hash(password))
      && FindUser(r.0, me) == Some(r.1.value)
      && forall v :: v in db.users && v.id != me ==> v in r.0.users
    ensures r.1.Success? ==>
      && |r.0.users| == |db.users|
      && (forall i :: 0 <= i < |db.users| ==> r.0.users[i] == if db.users[i].id == me then r.1.value else db.users[i])
      && r.0.projects == db.projects && r.0.files == db.files
  {
    if me != userId then (db, Failure(Forbidden))
    else
      var cur := FindUser(db, me).value;
      var u := cur.(username := username, email := email, password := hash(password));
      match UpdateUser(db, u)
      case Failure(_) => (db, Failure(Clash))
      case Success(db') =>
        UpdatedUserFound(db, cur, u);
        (db', Success(u))
  }

  /** `delete_user`: a non-admin may delete only themself (403); an admin
      deleting a missing user gets 404; otherwise exactly that user goes,
      with their projects by cascade. */
  function Delete(db: Db, me: int, userId: int): (r: (Db, Result<string, HttpError>))
    requires Valid(db) && me in UserIds(db)
    ensures Valid(r.0)
    ensures me != userId && !FindUser(db, me).value.isAdmin ==> r == (db, Failure(Forbidden))
    ensures me != userId && FindUser(db, me).value.isAdmin && userId !in UserIds(db) ==> r == (db, Failure(UserNotFound))
    ensures r.1.Success? <==> userId in UserIds(db) && (me == userId || FindUser(db, me).value.isAdmin)
    ensures r.1.Success? ==> r.1.value == "User deleted" && r.0 == DeleteUser(db, userId)
    ensures r.1.Success? ==> UserIds(r.0) == UserIds(db) - {userId}
  {
    var cur := FindUser(db, me).value;
    if me != userId && !cur.isAdmin then (db, Failure(Forbidden))
    else if me != userId && FindUser(db, userId).None? then (db, Failure(UserNotFound))
    else (DeleteUser(db, userId), Success("User deleted"))
  }
}

=== FILE: utils.dfy ===
/** `normalize_text` of backend/app/utils.py: every newline becomes a space,
    then surrounding whitespace is stripped. */
module Utils {
  import opened Text

  /** Text with each `'\n'` replaced by `' '` and then stripped. */
  function NormalizeText(s: string): (r: string)
    ensures forall i :: 0 <= i < |r| ==> r[i] != '\n'
    ensures Trimmed(r)
    ensures r == "" <==> AllSpace(s)
  {
    var t := ReplaceChar(s, '\n', ' ');
    NewlinesToSpaces(s);
    var r := Strip(t);
    StripKeepsAbsent(t, '\n');
    r
  }

  /** Turning newlines into spaces leaves no newline and keeps every
      character's whitespace class. */
  lemma NewlinesToSpaces(s: string)
    ensures forall i :: 0 <= i < |s| ==> ReplaceChar(s, '\n', ' ')[i] != '\n'
    ensures AllSpace(ReplaceChar(s, '\n', ' ')) <==> AllSpace(s)
  {
    var t := ReplaceChar(s, '\n', ' ');
    assert forall i :: 0 <= i < |s| ==> (IsSpace(t[i]) <==> IsSpace(s[i]));
  }

  /** A character absent from `t` is absent from its stripped form. */
  lemma StripKeepsAbsent(t: string, c: char)
    requires forall i :: 0 <= i < |t| ==> t[i] != c
    ensures forall i :: 0 <= i < |Strip(t)| ==> Strip(t)[i] != c
  {
    var r := Strip(t);
    if r != "" {
      forall i | 0 <= i < |r| ensures r[i] != c {
        assert r[i] == t[LeadLen(t) + i];
      }
    }
  }

  lemma ReplaceCharAppend(a: string, b: string, from: char, to: char)
    ensures ReplaceChar(a + b, from, to) == ReplaceChar(a, from, to) + ReplaceChar(b, from, to)
  {
    var l := ReplaceChar(a + b, from, to);
    var r := ReplaceChar(a, from, to) + ReplaceChar(b, from, to);
    assert forall i :: 0 <= i < |l| ==> l[i] == r[i] by {
      forall i | 0 <= i < |l| ensures l[i] == r[i] {
        if i < |a| { assert (a + b)[i] == a[i]; } else { assert (a + b)[i] == b[i - |a|]; }
      }
    }
  }

  /** Interior behaviour: around whitespace padding `a` and `b`, the trimmed
      middle `m` comes back with exactly its newlines turned into single
      spaces and every other character kept in place. */
  lemma NormalizePadded(a: string, m: string, b: string)
    requires AllSpace(a) && AllSpace(b) && Trimmed(m)
    ensures NormalizeText(a + m + b) == ReplaceChar(m, '\n', ' ')
  {
    var a' := ReplaceChar(a, '\n', ' ');
    var m' := ReplaceChar(m, '\n', ' ');
    var b' := ReplaceChar(b, '\n', ' ');
    ReplaceCharAppend(a + m, b, '\n', ' ');
    ReplaceCharAppend(a, m, '\n', ' ');
    assert AllSpace(a') by { assert forall i :: 0 <= i < |a| ==> a'[i] == ' ' || a'[i] == a[i]; }
    assert AllSpace(b') by { assert forall i :: 0 <= i < |b| ==> b'[i] == ' ' || b'[i] == b[i]; }
    assert Trimmed(m') by {
      if |m| > 0 {
        assert m[0] != '\n' && m[|m| - 1] != '\n';
      }
    }
    StripOfPadded(a', m', b');
  }

  /** Normalising twice is normalising once. */
  lemma NormalizeIdempotent(s: string)
    ensures NormalizeText(NormalizeText(s)) == NormalizeText(s)
  {
    var r := NormalizeText(s);
    assert ReplaceChar(r, '\n', ' ') == r;
    StripIdempotent(r);
  }

  /** The empty string and a newline-only string normalise to "". */
  lemma NormalizeBlank()
    ensures NormalizeText("") == ""
    ensures NormalizeText("\n\n\n") == ""
  {
    assert AllSpace("\n\n\n");
  }
}

=== FILE: web_users.dfy ===
/** app/routers/web/users.py: the HTML user pages. A rejected form is
    re-rendered with an error text (status 200), so those results carry the
    text rather than an HTTP error; template choice is presentation and is
    not modelled. */
module WebUsers {
  import opened Wrappers
  import opened Text
  import opened Listing
  import opened Models

  const UsernameExists: string := "Username já existe"
  const EmailExists: string := "Email já existe"
  const Forbidden: HttpError := HttpError(403, "Not enough permissions")
  const SelfDelete: HttpError := HttpError(400, "Você não pode deletar sua própria conta")
  const UserNotFound: HttpError := HttpError(404, "Usuário não encontrado")
  const Invalid: HttpError := HttpError(422, "Unprocessable Entity")

  /** `read_users`: admins only; the page is `users[offset:offset + limit]`
      after `FilterPage` has checked `offset >= 0` and `limit >= 1`. */
  function List(db: Db, me: int, offset: int := 0, limit: int := 100): (r: Result<seq<User>, HttpError>)
    requires me in UserIds(db)
    ensures offset < 0 || limit < 1 ==> r == Failure(Invalid)
    ensures offset >= 0 && limit >= 1 && !FindUser(db, me).value.isAdmin ==> r == Failure(Forbidden)
    ensures r.Success? <==> offset >= 0 && limit >= 1 && FindUser(db, me).value.isAdmin
    ensures r.Success? ==>
      |r.value| == (if offset >= |db.users| then 0 else if |db.users| - offset < limit then |db.users| - offset else limit)
    ensures r.Success? ==> forall i :: 0 <= i < |r.value| ==> offset + i < |db.users| && r.value[i] == db.users[offset + i]
  {
    if offset < 0 || limit < 1 then Failure(Invalid)
    else if !FindUser(db, me).value.isAdmin then Failure(Forbidden)
    else Success(Page(db.users, offset, limit))
  }

  /** The first row (in table order) satisfying the form's clash query. */
  function FirstMatch(users: seq<User>, username: string, email: string, except: Option<int>): (r: Option<User>)
    ensures r.None? <==> forall v :: v in users && Some(v.id) != except ==> v.username != username && v.email != email
    ensures r.Some? ==> r.value in users && Some(r.value.id) != except && (r.value.username == username || r.value.email == email)
  {
    var r := First(users, (v: User) => (v.username == username || v.email == email) && Some(v.id) != except);
    assert r.Some? ==> r.value in users by {
      if r.Some? { var i :| 0 <= i < |users| && users[i] == r.value; }
    }
    r
  }

  /** The message the form shows for a clash as the source picks it: from
      the first clashing row only. */
  function ClashMessageAsWritten(v: User, username: string): string {
    if v.username == username then UsernameExists else EmailExists
  }

  /** `create_user` (web registration) as written: on a clash no user is
      created and the first clashing row decides the message. */
  function RegisterAsWritten(db: Db, username: string, email: string, password: string, hash: string -> string)
    : (r: (Db, Result<User, string>))
    requires Valid(db)
    ensures Valid(r.0)
    ensures r.1.Failure? <==> UsernameTaken(db, username) || EmailTaken(db, email)
    ensures r.1.Failure? ==> r.0 == db && (r.1.error == UsernameExists || r.1.error == EmailExists)
    ensures r.1.Success? ==> r.1.value == User(r.1.value.id, username, hash(password), email, false)
    ensures r.1.Success? ==> r.1.value.id !in UserIds(db) && r.0.users == db.users + [r.1.value]
    ensures r.1.Success? ==> r.0.projects == db.projects && r.0.files == db.files
  {
    match FirstMatch(db.users, username, email, None)
    case Some(v) => (db, Failure(ClashMessageAsWritten(v, username)))
    case None =>
      var (db', u) := InsertUser(db, username, hash(password), email, false).value;
      (db', Success(u))
  }

  /** A username clash reported as an email clash. */
  lemma RegisterAsWrittenMisreports(hash: string -> string)
    ensures var db := EmptyDb.(users := [User(1, "ana", "h", "x@e", false), User(2, "bob", "h", "y@e", false)], nextUser := 3);
      && Valid(db)
      && UsernameTaken(db, "bob")
      && RegisterAsWritten(db, "bob", "x@e", "pw", hash).1 == Failure(EmailExists)
  {
    var db := EmptyDb.(users := [User(1, "ana", "h", "x@e", false), User(2, "bob", "h", "y@e", false)], nextUser := 3);
    assert db.users[1].username == "bob";
    assert "ana" != "bob";
    assert FirstMatch(db.users, "bob", "x@e", None) == Some(db.users[0]);
  }

  /** Web registration with the evidently intended message: "Username já
      existe" whenever the username is taken, "Email já existe" only when
      the username is free; a new user is never an admin. */
  function Register(db: Db, username: string, email: string, password: string, hash: string -> string)
    : (r: (Db, Result<User, string>))
    requires Valid(db)
    ensures Valid(r.0)
    ensures UsernameTaken(db, username) ==> r == (db, Failure(UsernameExists))
    ensures !UsernameTaken(db, username) && EmailTaken(db, email) ==> r == (db, Failure(EmailExists))
    ensures r.1.Success? <==> !UsernameTaken(db, username) && !EmailTaken(db, email)
    ensures r.1.Success? ==> r.1.value == User(r.1.value.id, username, hash(password), email, false)
    ensures r.1.Success? ==> r.1.value.id !in UserIds(db) && r.0.users == db.users + [r.1.value]
    ensures r.1.Success? ==> r.0.projects == db.projects && r.0.files == db.files
  {
    if UsernameTaken(db, username) then (db, Failure(UsernameExists))
    else if EmailTaken(db, email) then (db, Failure(EmailExists))
    else
      var (db', u) := InsertUser(db, username, hash(password), email, false).value;
      (db', Success(u))
  }

  /** Registering the same username twice: the second attempt creates
      nothing and reports the username. */
  lemma RegisterTwice(db: Db, username: string, email: string, email2: string, password: string, hash: string -> string)
    requires Valid(db) && !UsernameTaken(db, username) && !EmailTaken(db, email)
    ensures var (db1, _) := Register(db, username, email, password, hash);
      Register(db1, username, email2, password, hash) == (db1, Failure(UsernameExists))
  {
    var (db1, r) := Register(db, username, email, password, hash);
    assert r.value in db1.users;
  }

  /** Another user holds the form's username or email. */
  predicate OtherClash(db: Db, me: int, username: string, email: string) {
    exists v :: v in db.users && v.id != me && (v.username == username || v.email == email)
  }

  /** Another user holds the form's username. */
  predicate OtherHasUsername(db: Db, me: int, username: string) {
    exists v :: v in db.users && v.id != me && v.username == username
  }

  lemma UsernameClashIsClash(db: Db, me: int, username: string, email: string)
    requires OtherHasUsername(db, me, username)
    ensures OtherClash(db, me, username, email)
  {
    var v :| v in db.users && v.id != me && v.username == username;
  }

  /** The stored hash after a profile form: kept when the password field is
      blank or whitespace, otherwise `hash(password)`. */
  function NewPassword(current: string, password: string, hash: string -> string): (r: string)
    ensures Strip(password) == "" ==> r == current
    ensures Strip(password) != "" ==> r == hash(password)
  {
    if Strip(password) != "" then hash(password) else current
  }

  /** The profile update once the clash check has passed. */
  function ApplyProfile(db: Db, me: int, username: string, email: string, password: string, hash: string -> string)
    : (r: (Db, User))
    requires Valid(db) && me in UserIds(db) && !OtherClash(db, me, username, email)
    ensures Valid(r.0)
    ensures r.1 == FindUser(db, me).value.(username := username, email := email,
      password := NewPassword(FindUser(db, me).value.password, password, hash))
    ensures FindUser(r.0, me) == Some(r.1)
    ensures forall v :: v in db.users && v.id != me ==> v in r.0.users
    ensures |r.0.users| == |db.users|
    ensures forall i :: 0 <= i < |db.users| ==> r.0.users[i] == if db.users[i].id == me then r.1 else db.users[i]
    ensures r.0.projects == db.projects && r.0.files == db.files
  {
    var cur := FindUser(db, me).value;
    var u := cur.(username := username, email := email, password := NewPassword(cur.password, password, hash));
    var db' := UpdateUser(db, u).value;
    UpdatedUserFound(db, cur, u);
    (db', u)
  }


  /** `update_user_profile` as written: the clash query skips the caller's
      own row; on a clash nothing changes and the first clashing row picks
      the message. */
  function UpdateProfileAsWritten(db: Db, me: int, username: string, email: string, password: string, hash: string -> string)
    : (r: (Db, Result<User, string>))
    requires Valid(db) && me in UserIds(db)
    ensures Valid(r.0)
    ensures r.1.Failure? <==> OtherClash(db, me, username, email)
    ensures r.1.Failure? ==> r.0 == db
    ensures r.1.Failure? ==> r.1.error == UsernameExists || r.1.error == EmailExists
    ensures r.1.Success? ==> r == UpdateProfile(db, me, username, email, password, hash)
  {
    match FirstMatch(db.users, username, email, Some(me))
    case Some(v) => (db, Failure(ClashMessageAsWritten(v, username)))
    case None =>
      var (db', u) := ApplyProfile(db, me, username, email, password, hash);
      (db', Success(u))
  }

  /** Three users: ana (x@e), bob (y@e) and cid (z@e). */
  const ThreeUsers: Db := EmptyDb.(users := [User(1, "ana", "h", "x@e", false), User(2, "bob", "h", "y@e", false),
                                             User(3, "cid", "h", "z@e", false)], nextUser := 4)

  lemma ThreeUsersValid()
    ensures Valid(ThreeUsers)
  {
    var us := ThreeUsers.users;
    assert us[0].username[0] == 'a' && us[1].username[0] == 'b' && us[2].username[0] == 'c';
    assert us[0].email[0] == 'x' && us[1].email[0] == 'y' && us[2].email[0] == 'z';
    DistinctThree(us, UserId);
    DistinctThree(us, Username);
    DistinctThree(us, Email);
  }

  lemma DistinctThree<K>(us: seq<User>, key: User -> K)
    requires |us| == 3 && key(us[0]) != key(us[1]) && key(us[0]) != key(us[2]) && key(us[1]) != key(us[2])
    ensures DistinctBy(us, key)
  {
  }

  /** A profile change whose username another user holds, reported as an
      email clash: cid asks for bob's username together with ana's email. */
  lemma UpdateProfileAsWrittenMisreports(hash: string -> string)
    ensures Valid(ThreeUsers) && 3 in UserIds(ThreeUsers)
    ensures UpdateProfileAsWritten(ThreeUsers, 3, "bob", "x@e", "", hash).1 == Failure(EmailExists)
  {
    var db := ThreeUsers;
    ThreeUsersValid();
    assert db.users[2] in db.users;
    assert db.users[0].username != "bob";
    var first := FirstMatch(db.users, "bob", "x@e", Some(3));
    assert first == Some(db.users[0]);
    assert ClashMessageAsWritten(db.users[0], "bob") == EmailExists;
  }

  /** `update_user_profile` with the evidently intended message. Own values
      never clash; a blank password keeps the stored hash. */
  function UpdateProfile(db: Db, me: int, username: string, email: string, password: string, hash: string -> string)
    : (r: (Db, Result<User, string>))
    requires Valid(db) && me in UserIds(db)
    ensures Valid(r.0)
    ensures r.1.Failure? <==> OtherClash(db, me, username, email)
    ensures r.1.Failure? ==> r.0 == db
    ensures OtherHasUsername(db, me, username) ==> r.1 == Failure(UsernameExists)
    ensures OtherClash(db, me, username, email) && !OtherHasUsername(db, me, username) ==>
      r.1 == Failure(EmailExists)
    ensures r.1.Success? ==> r.1.value == FindUser(db, me).value.(username := username, email := email,
      password := NewPassword(FindUser(db, me).value.password, password, hash))
    ensures r.1.Success? ==> FindUser(r.0, me) == Some(r.1.value)
    ensures r.1.Success? ==>
      && |r.0.users| == |db.users|
      && (forall i :: 0 <= i < |db.users| ==> r.0.users[i] == if db.users[i].id == me then r.1.value else db.users[i])
      && (forall v :: v in db.users && v.id != me ==> v in r.0.users)
      && r.0.projects == db.projects && r.0.files == db.files
  {
    if OtherHasUsername(db, me, username) then
      UsernameClashIsClash(db, me, username, email);
      (db, Failure(UsernameExists))
    else if OtherClash(db, me, username, email) then (db, Failure(EmailExists))
    else
      var a := ApplyProfile(db, me, username, email, password, hash);
      (a.0, Success(a.1))
  }

  /** Submitting one's own current username and email with a blank
      password changes nothing about the caller. */
  lemma ResubmitUnchanged(db: Db, me: int, hash: string -> string)
    requires Valid(db) && me in UserIds(db)
    ensures var cur := FindUser(db, me).value;
      UpdateProfile(db, me, cur.username, cur.email, "  ", hash).1 == Success(cur)
  {
    var cur := FindUser(db, me).value;
    assert !OtherClash(db, me, cur.username, cur.email) by {
      forall v | v in db.users && v.id != me
        ensures v.username != cur.username && v.email != cur.email
      {
        if v.username == cur.username { DistinctByUnique(db.users, Username, v, cur); }
        if v.email == cur.email { DistinctByUnique(db.users, Email, v, cur); }
      }
    }
    assert AllSpace("  ");
  }

  /** `delete_user` (web): 403 for a non-admin, then 400 for deleting
      oneself, then 404 for a missing user; otherwise exactly that user is
      removed, with their projects by cascade. */
  function Delete(db: Db, me: int, userId: int): (r: (Db, Result<(), HttpError>))
    requires Valid(db) && me in UserIds(db)
    ensures Valid(r.0)
    ensures !FindUser(db, me).value.isAdmin ==> r == (db, Failure(Forbidden))
    ensures FindUser(db, me).value.isAdmin && me == userId ==> r == (db, Failure(SelfDelete))
    ensures FindUser(db, me).value.isAdmin && me != userId && userId !in UserIds(db) ==> r == (db, Failure(UserNotFound))
    ensures r.1.Success? <==> FindUser(db, me).value.isAdmin && me != userId && userId in UserIds(db)
    ensures r.1.Success? ==> r.0 == DeleteUser(db, userId) && UserIds(r.0) == UserIds(db) - {userId}
    ensures r.1.Success? ==> me in UserIds(r.0)
  {
    if !FindUser(db, me).value.isAdmin then (db, Failure(Forbidden))
    else if me == userId then (db, Failure(SelfDelete))
    else if FindUser(db, userId).None? then (db, Failure(UserNotFound))
    else (DeleteUser(db, userId), Success(()))
  }
}

=== FILE: wrappers.dfy ===
/** Failure-compatible wrappers shared by every module: `Option` for the
    source's `None`-or-value returns, `Result` for its raised errors. */
module Wrappers {

  /** A value that may be absent (Python's `None`). */
  datatype Option<+T> = None | Some(value: T) {

    /** The wrapped value, or `default` when absent (Python's `x or default`
        for a value that is never falsy otherwise). */
    function GetOr(default: T): T {
      match this
      case Some(v) => v
      case None => default
    }
  }

  /** Either a computed value or the error the source raises instead. */
  datatype Result<+T, +E> = Success(value: T) | Failure(error: E) {

    predicate IsFailure() {
      Failure?
    }

    function PropagateFailure<U>(): Result<U, E>
      requires Failure?
    {
      Failure(error)
    }

    function Extract(): T
      requires Success?
    {
      value
    }
  }

  /** An HTTP error response as FastAPI's `HTTPException` produces it. */
  datatype HttpError = HttpError(status: int, detail: string)
}
